=== FILE: README.md ===
# keywordPDF analyzer, modelled in Dafny

This project models the deterministic record-building layer of the
keywordPDF analyzer. The analyzer reads PDF reports, finds a company
name, a date and a list of keywords in each report, asks a language
model (OpenAI or a local Ollama model) to analyze the text, and writes
one row per document to CSV files.

The model covers the parts of the program that turn text, regular
expression matches and model replies into rows, file names and records:

- `keywordPDF.py` (module `KeywordPdf`):
  - the month table and date normalisation, with the `"00000000"` sentinel;
  - company post-processing, with the `"UNKNOWN"` sentinel;
  - the keyword presence flags and the report header;
  - unique file names;
  - the renaming loop of `process_pdfs`, which stops at a rejected day or a rename that raises.
- `src/csv_processor.py` (`CsvProcessor`): the `"..."` context markers, the
  removal of the summary column, the order of the `save_results` pipeline,
  unique output names and column validation, on matrices of strings.
- `src/ai_connector.py` (`AiConnector`): both token-count formulas, the request
  budgets of the OpenAI and the local connector, their configuration tests and
  the provider factory.
- `src/ai_analyzer.py` (`AiAnalyzer`): provider selection and
  `analyze_document` (the budget check, reply cleaning, key defaulting and the
  three error records).
- `src/openai_analyzer.py` (`OpenAiAnalyzer`): the OpenAI-only pipeline. It
  covers extraction budgeting, keyword-reply decoding, the row built per
  Markdown file, the `.md`/`.pdf` name mapping and the status cells of
  `enrich_dataframe`, with the exception a Markdown file that cannot be read
  raises out of both.
- `src/config_manager.py` (`ConfigManager`): the configuration overlay, which
  stops at the first option whose interpolation raises, boolean flags, the
  keyword line filter and validation.
- `keyword_analyzer.py` (`KeywordAnalyzer`): `run` from validation to the exit
  code. This covers the per-document row and error row, the `TypeError` of
  joining a list that holds a non-string, the output path, the calls of the
  CSV writer, the `except` block with the path bound last, the processed
  count, and the keyword columns of the summary. The writer is a parameter:
  as written it is a method `CSVProcessor` does not have, so every call
  raises (see Findings).
- `src/logger_manager.py` (`LoggerManager`): the token-based severity rule and
  the text of a logged message.

Three helper modules give Python's semantics for the operations the code relies on:

- `Text`: `str` operations;
- `Paths`: `posixpath`;
- `Values`: the dynamic values of dictionaries and rows.

Everything the program obtains from outside is a parameter of the members
that use it:

- a regular-expression match, as the tuple of its groups;
- the JSON decoder's outcome;
- the tiktoken encoder;
- the OpenAI and Ollama replies;
- the environment (API key, client creation, whether the Ollama server answers and which models it has);
- file existence and contents (or the failure to read them), directory listings;
- the parsed INI sections, each option interpolated or failing to interpolate;
- the PDF-to-Markdown conversion and the analyzer's result per document;
- whether each call of the CSV writer of `keyword_analyzer.py` returns.

## Model

| member | source | states |
|---|---|---|
| Text.TrimStart | src/config_manager.py:115 | the longest prefix of dropped characters is removed, and nothing more |
| Text.TrimEnd | src/logger_manager.py:124 | the longest suffix of dropped characters is removed, and nothing more (`rstrip`) |
| Text.Strip | src/config_manager.py:115 | the result is no longer than the input and has no white space at either end |
| Text.StripTrims | src/config_manager.py:115 | `strip` is trimming white space off the front and then off the back |
| Text.StripWithout | keywordPDF.py:76 | stripping introduces no character |
| Text.StripStripped | keywordPDF.py:76 | a string without surrounding white space is its own `strip` |
| Text.StripSpacePrefix | src/config_manager.py:115 | leading white space does not change the result of `strip` |
| Text.StripPadded | src/config_manager.py:115 | `strip` removes exactly the white space padding a stripped string |
| Text.TrimEndSuffix | src/logger_manager.py:124 | trimming a tail of dropped characters gives back a text that does not end in one |
| Text.Lower | keywordPDF.py:84-88 | `lower` keeps the length and lower-cases each character |
| Text.ReplaceChar | keywordPDF.py:76 | replacing one character by another keeps the length and changes only that character |
| Text.BeforeFirst | keywordPDF.py:76 | `split(c)[0]` is the longest prefix without `c`; it is followed by `c` unless it is the whole text |
| Text.Lines | src/config_manager.py:114-115 | the lines of a file are non-empty and put back together give the text |
| Text.LineLength | src/config_manager.py:114-115 | a line ends at its first newline, which it includes, or at the end of the text |
| Text.NatToString | keywordPDF.py:54 | `str(n)` is a non-empty string of digits |
| Text.ParseNatToString | keywordPDF.py:68 | reading back the decimal rendering of a number gives the number |
| Text.NatToStringInjective | keywordPDF.py:54 | different numbers render differently |
| Text.Pad2 | keywordPDF.py:68 | `f"{n:02d}"` is at least two digits, exactly two below 100 |
| Text.Pad2Parses | keywordPDF.py:68 | reading back the zero-padded rendering gives the number |
| Text.DigitIn | keywordPDF.py:68 | a character's value in a table of digit blocks is a digit value, or -1 outside every block |
| Text.DigitValue | keywordPDF.py:68 | every character has a decimal value between 0 and 9 or none (-1); the ASCII digits have their usual values |
| Text.Digits | keywordPDF.py:68 | a run of digits with single underscores between them has a value only when it starts and ends with a digit |
| Text.PyInt | keywordPDF.py:68 | `int(s)` rejects a text that is blank once stripped, and a negative value comes only from a leading '-' |
| Text.DigitsAscii | keywordPDF.py:68 | a non-empty run of ASCII digits has its usual decimal value |
| Text.PyIntAscii | keywordPDF.py:68 | `int` of a non-empty run of ASCII digits is its decimal value |
| Text.FormatPad2 | keywordPDF.py:68 | `f"{n:02d}"` is at least two characters: the digits of a natural number, exactly two below 100, or '-' and the digits of a negative one |
| Text.PyIntFormatPad2 | keywordPDF.py:68 | `int` reads back every zero-padded rendering as the number |
| Text.PyIntNegative | keywordPDF.py:68 | `int` of '-' followed by ASCII digits is the negated value |
| Text.PyIntArabicIndic | keywordPDF.py:68 | `int` accepts a Unicode decimal digit other than ASCII: Arabic-Indic three is 3 |
| Text.PyIntSpaced | keywordPDF.py:68 | `int(" 5")` is 5 |
| Text.PyIntSigned | keywordPDF.py:68 | `int("+5")` is 5 and `int("-07")` is -7 |
| Text.PyIntUnderscore | keywordPDF.py:68 | `int("1_0")` is 10 |
| Text.PyIntLetter | keywordPDF.py:68 | `int` rejects "", "x" and "5a" |
| Text.PyIntBadUnderscore | keywordPDF.py:68 | `int` rejects a doubled or a leading underscore |
| Text.PyIntSpaceAfterSign | keywordPDF.py:68 | `int` rejects white space between the sign and the digits |
| Paths.RFind | keywordPDF.py:49 | the index of the last occurrence, or -1 when there is none |
| Paths.Join | keywordPDF.py:98 | the joined path ends with the second component |
| Paths.Basename | src/openai_analyzer.py:366 | the base name holds no '/' and ends the path |
| Paths.RFindAppend | src/openai_analyzer.py:366 | appending text without the character leaves its last occurrence where it was |
| Paths.BasenameOfJoin | src/openai_analyzer.py:366 | the base name of a directory joined with a name without '/' is that name |
| Paths.SplitExt | keywordPDF.py:49 | the two parts put together give the name; the extension is empty or starts with '.' and holds no '/' |
| KeywordPdf.Lookup | keywordPDF.py:66 | the value found is paired with the key in the table; no value means no entry has the key |
| KeywordPdf.LookupFirst | keywordPDF.py:10-17 | the value found is the one of the first entry with the key, as in the dictionary whose keys are distinct |
| KeywordPdf.IsMonthNumber | keywordPDF.py:10-17 | a month number of the table is made of digits |
| KeywordPdf.MonthNumbers | keywordPDF.py:10-17 | every month number a name maps to is two digits between "01" and "19" and not "00" |
| KeywordPdf.LookupValue | keywordPDF.py:66 | a value found in a table has every property all the table's values share |
| KeywordPdf.MonthTableNumbers | keywordPDF.py:10-17 | all 24 month numbers of the table are well-formed two-digit numbers |
| KeywordPdf.FormatDate | keywordPDF.py:68 | `int(day)` raises `ValueError` exactly when Python's `int` rejects the day text, and then the day is reported; otherwise the date is the year, the month number and the day read as `int` reads it, zero-padded to two digits |
| KeywordPdf.ExtractDate | keywordPDF.py:60-69 | the call raises exactly when the month name is in the table and `int` rejects the day group; any result other than "00000000" comes from a match and starts with the matched year |
| KeywordPdf.ExtractDateSentinel | keywordPDF.py:64-69 | "00000000" is returned exactly when nothing matched or the lower-cased month name is not in the table |
| KeywordPdf.DateNotSentinel | keywordPDF.py:68 | a date holding a month number of the table is never "00000000" |
| KeywordPdf.ExtractDateFormat | keywordPDF.py:65-68 | a four-digit year and a day below 100 give eight digits: the year, the month number, and the day zero-padded to two digits |
| KeywordPdf.FormatDateAscii | keywordPDF.py:68 | a four-digit year, a month number and an ASCII day below 100 give eight digits: the year, the month and the day zero-padded to two digits |
| KeywordPdf.ExtractDateSpacedDay | keywordPDF.py:66-68 | a day group " 5" with "Janeiro" 2024 gives "20240105", because `int` ignores the surrounding white space |
| KeywordPdf.FormatSpacedDay | keywordPDF.py:68 | the day " 5" in January 2024 is formatted as "20240105" |
| KeywordPdf.ExtractDateBadDay | keywordPDF.py:66-68 | a day group "5a" with a known month makes the call raise with that day |
| KeywordPdf.JaneiroIsJanuary | keywordPDF.py:66 | "Janeiro" is lower-cased before the lookup and maps to "01" |
| KeywordPdf.PortugueseMarchUnreachable | keywordPDF.py:14 | no lower-cased month name equals the Portuguese March key, which holds the upper-case letter 'Ã' |
| KeywordPdf.MarchOnlyInEnglish | keywordPDF.py:10-17 | a date falls in month "03" exactly when the month name lower-cases to "march" |
| KeywordPdf.MarchKeys | keywordPDF.py:10-17 | only the two March keys map to "03" |
| KeywordPdf.NormalizeCompany | keywordPDF.py:76 | the company name has no '(' and no ' ', and has no surrounding white space |
| KeywordPdf.NormalizeCompanyFixed | keywordPDF.py:76 | a stripped name with no '(' and no ' ' is left unchanged |
| KeywordPdf.NormalizeCompanyIdempotent | keywordPDF.py:76 | normalising a normalised company name changes nothing |
| KeywordPdf.UnknownCompanyNormalized | keywordPDF.py:75-76 | the "UNKNOWN" fallback passes through the normalisation unchanged |
| KeywordPdf.FindCompany | keywordPDF.py:74-76 | no match gives "UNKNOWN"; the company never holds '(' or ' ' |
| KeywordPdf.FindCompanyNormalizes | keywordPDF.py:75-76 | the company is the normalised group 1, or the normalised "UNKNOWN", as the source computes it |
| KeywordPdf.FindCompanyAndDate | keywordPDF.py:71-80 | the call raises exactly when `extract_date` does; otherwise it gives the company of `FindCompany` and the date of `ExtractDate` |
| KeywordPdf.CheckKeywordsInText | keywordPDF.py:86-88 | one flag per keyword in keyword order; a flag is 1 exactly when the lower-cased keyword occurs in the lower-cased text, and 0 otherwise |
| KeywordPdf.ContainsKeywordsIffSomeFlag | keywordPDF.py:83-88 | `contains_keywords` holds exactly when some flag of `check_keywords_in_text` is 1 |
| KeywordPdf.ContainsKeywords | keywordPDF.py:83-84 | some keyword, lower-cased, occurs in the lower-cased text; `ContainsKeywordsIffSomeFlag` shows it holds exactly when some flag is 1 |
| KeywordPdf.EmptyKeywordAlwaysFound | keywordPDF.py:88 | the empty keyword is found in every text |
| KeywordPdf.FirstLetterAbsent | keywordPDF.py:88 | a keyword whose first letter never occurs in the text, in either case, is not found |
| KeywordPdf.FlagsIgnoreCase | keywordPDF.py:88 | lower-casing the text first changes no flag |
| KeywordPdf.OccursLowered | keywordPDF.py:88 | a keyword that matches the text at some position up to case is found |
| KeywordPdf.AlphaInSample | tests/test_core.py:41-46 | "alpha" is found in the test's sample sentence |
| KeywordPdf.GammaNotInSample | tests/test_core.py:41-46 | "gamma" is not found in the test's sample sentence |
| KeywordPdf.SampleFlags | tests/test_core.py:41-46 | the sample gets the flags [1, 0] for ["alpha", "gamma"], and some keyword is found |
| KeywordPdf.NormalizeKeyword | keywordPDF.py:93 | the report column has the keyword's length and holds no ',' and no ' ' |
| KeywordPdf.Header | keywordPDF.py:93-94 | "file_name", "company", "date", then the normalised keywords in order |
| KeywordPdf.LoadKeywords | keywordPDF.py:36-39 | one keyword per line of the file, stripped; blank lines are kept as "" |
| KeywordPdf.AttemptsDistinct | keywordPDF.py:49-55 | no two names tried by `get_unique_filename` are the same |
| KeywordPdf.MiddleDiffers | keywordPDF.py:54 | two names that differ only in an equally long counter differ |
| KeywordPdf.TriedShape | keywordPDF.py:51-55 | the first n attempts are n different names, and none of the later attempts is among them |
| KeywordPdf.TriedTaken | keywordPDF.py:52-54 | when the first n attempts are taken, all the names tried so far are among the files |
| KeywordPdf.TakenBound | keywordPDF.py:52-54 | the loop can find at most as many taken attempts as there are files, so it stops |
| KeywordPdf.SubsetCardinality | keywordPDF.py:52-54 | a set of taken names is no larger than the directory holding them |
| KeywordPdf.FirstFree | keywordPDF.py:52-54 | from the k-th attempt on, with the earlier ones taken, the loop ends at the first attempt that is free, all attempts before it being taken |
| KeywordPdf.UniqueFilename | keywordPDF.py:47-57 | the name returned is an attempt at the base name that is free, and every earlier attempt is taken |
| KeywordPdf.UniqueFilenameFree | keywordPDF.py:50-57 | a base name that is free is returned as it is |
| KeywordPdf.GetUniqueFilename | keywordPDF.py:47-57 | the loop returns `UniqueFilename`: not taken, the base name when that is free, else `name (k)ext` for the least k >= 1 that is free, with k at most the number of files |
| KeywordPdf.PdfEntries | keywordPDF.py:96-97 | only directory entries whose lower-cased name ends in ".pdf" are processed, in listing order |
| KeywordPdf.FlagCells | keywordPDF.py:114 | one cell per keyword, "1" when the keyword is found and "0" when it is not |
| KeywordPdf.PdfEntriesStep | keywordPDF.py:96-97 | each step of the listing adds that entry when it is a PDF and nothing otherwise |
| KeywordPdf.Renamed | keywordPDF.py:107-110 | after a rename to a different name the new name is present and the old one gone, and no other file changes |
| KeywordPdf.EntryRowShape | keywordPDF.py:98-114 | a PDF yields no row exactly when `int` rejects its day or the due `os.rename` raises; the failure names the day, or the least free attempt at `{company}_{date}.pdf` the rename was aimed at; otherwise the row is the file name, the company, the date and one flag per keyword, where the name is the least free attempt at `{company}_{date}.pdf` in the directory as the earlier renames left it when renaming is on and both fields were found, else the listed name, and the directory then holds the file under that name |
| KeywordPdf.EntryRow | keywordPDF.py:98-114 | the row of one PDF and the directory after its rename, or the day or rename that raised; its properties are those `EntryRowShape` states |
| KeywordPdf.SlashCompanyRenameFails | keywordPDF.py:103-108 | a company holding "/", such as "Empresa S/A", is renamed under a path whose parent directory does not exist; when that name is free the rename raises, the PDF gets no row and the loop stops there with the directory unchanged |
| KeywordPdf.ProcessEntry | keywordPDF.py:98-115 | the statements for one PDF compute its row and the directory after its rename as `EntryRow` describes, or stop on the rejected day or the failed rename leaving the directory unchanged |
| KeywordPdf.RunEntries | keywordPDF.py:96-115 | the loop never produces more rows than there are PDF entries |
| KeywordPdf.RunEntriesStops | keywordPDF.py:96-115 | the loop either gives one row per PDF or stops at a PDF whose row fails in the directory the PDFs before it left, with that failure, keeping the rows and renames of those PDFs as the run over them alone leaves them |
| KeywordPdf.RunEntriesBuilds | keywordPDF.py:96-115 | the loop stops early exactly when some PDF's day is rejected or its rename raises in the directory the PDFs before it left, and the PDF it stops at is the first such one |
| KeywordPdf.RowsBuild | keywordPDF.py:96-115 | every PDF before the stop has a day that is accepted and a rename that succeeds |
| KeywordPdf.StopDoesNotBuild | keywordPDF.py:96-115 | the PDF the loop stops at has its day rejected or its rename raising |
| KeywordPdf.RunEntriesDaysOnly | keywordPDF.py:96-115 | without renaming, the loop stops early exactly when some PDF's day is rejected |
| KeywordPdf.RunEntriesRow | keywordPDF.py:98-115 | the j-th row is the row of the j-th PDF computed in the directory the renames before it left |
| KeywordPdf.RunEntriesRowLast | keywordPDF.py:96-115 | a row for the last PDF is its row in the directory the other PDFs left |
| KeywordPdf.RunEntriesWidth | keywordPDF.py:94-114 | every row has the three fixed cells and one cell per keyword |
| KeywordPdf.RunEntriesFrom | keywordPDF.py:96-115 | once the loop has stopped, the later listing entries change nothing |
| KeywordPdf.ProcessListed | keywordPDF.py:96-115 | one turn of the loop over the listing extends the run over the entries seen so far by the next entry |
| KeywordPdf.CollectPdfRows | keywordPDF.py:96-115 | the loop over the listing yields the rows, the directory and the failure that stopped it, if any, of the run over its PDF entries |
| KeywordPdf.ProcessPdfs | keywordPDF.py:91-127 | an unreadable keyword file raises before any PDF is touched; otherwise the call raises exactly when some PDF's day is rejected or its rename raises (only the day, when renaming is off), and then writes no CSV but keeps the renames done so far; otherwise the matrix is the header followed by one row per PDF, all as wide as the header, handed to the output directory under the least free name of "output.csv", "output (1).csv", … (so "output.csv" when that is free) |
| KeywordPdf.MatrixWidths | keywordPDF.py:93-115 | rows as wide as the header make a rectangular matrix |
| ConfigManager.SectionGet | src/config_manager.py:50-60 | an option missing from the section gives the default, a present one gives its interpolated value, or raises when that interpolation does |
| ConfigManager.ReadsFrom | src/config_manager.py:50-60 | counting from an option on, the options before the stop are read without raising, and the stop is the first that raises or the end |
| ConfigManager.ReadCount | src/config_manager.py:50-60 | the number of options overwritten: every option before it reads without raising, and the option at it raises |
| ConfigManager.Overlaid | src/config_manager.py:50-57 | an option read before the stop and present gives its value; otherwise the entry keeps the default |
| ConfigManager.TrueIsOn | src/config_manager.py:59 | the flag text "true" is on |
| ConfigManager.IsOn | src/config_manager.py:59-60 | a flag is on when its lower-cased text is "1" or "true"; `TrueIsOn` shows the text "true" is on |
| ConfigManager.FalseIsOff | src/config_manager.py:60 | the flag text "false" is off |
| ConfigManager.ConfigFor | src/config_manager.py:39-68 | without a `[CONFIG]` section every default stays; with one, the options are read in statement order until one raises, and the caught exception leaves the entries overwritten so far: each entry is its option's value when read and present, else the default; flags are on when their lower-cased text is "1" or "true" |
| ConfigManager.FullOverlay | src/config_manager.py:46-60 | when no option raises, each option present in the section replaces its default and each missing one keeps it |
| ConfigManager.BadOutputPathKeepsEarlier | src/config_manager.py:50-66 | an `output_path` that does not interpolate keeps the keyword file read before it and drops the model given after it |
| ConfigManager.LoadConfig | src/config_manager.py:29-68 | copying the defaults, then overwriting each entry until a `get` raises, gives the configuration described above |
| ConfigManager.EmptySectionKeepsDefaults | src/config_manager.py:46-60 | an empty `[CONFIG]` section leaves every default in place |
| ConfigManager.FlagSpellings | src/config_manager.py:59-60 | "TRUE" is on, since case is ignored, and "yes" is off |
| ConfigManager.CreatedConfigLoads | src/config_manager.py:70-91 | the file `create_default_config` writes loads as the local provider with model "gemma3:4b" and both flags off |
| ConfigManager.KeywordLines | src/config_manager.py:115 | no more keywords than lines; every keyword is non-empty and has no surrounding white space |
| ConfigManager.KeywordLinesMembership | src/config_manager.py:115 | a keyword is listed exactly when some line is not blank, does not start with '#', and strips to it |
| ConfigManager.LoadKeywords | src/config_manager.py:100-121 | a missing or unreadable file gives no keywords; otherwise the kept lines of its text, stripped |
| ConfigManager.IndentedHashKept | src/config_manager.py:115 | the comment test looks at the unstripped line, so " #x" is kept, as "#x" |
| ConfigManager.ValidateConfig | src/config_manager.py:123-168 | a valid configuration has an existing PDF directory and keyword file, the provider "openai" or "local", and a model when the provider is local |
| ConfigManager.ValidateConfigComplete | src/config_manager.py:133-168 | a configuration that meets all those conditions is valid: there are no other checks |
| ConfigManager.CapitalisedProviderInvalid | src/config_manager.py:154-159 | the provider "OpenAI", once read, is refused: the names are compared exactly |
| ConfigManager.DefaultsValidIff | src/config_manager.py:123-168 | the defaults are valid exactly when "files/" and "keywords.txt" exist |
| LoggerManager.RunLength | src/logger_manager.py:96 | a run of word characters is as long as it can be: it is followed by a non-word character or by the end |
| LoggerManager.Tokens | src/logger_manager.py:96-101 | every token is a non-empty run of word characters |
| LoggerManager.LowerWordChar | src/logger_manager.py:96 | lower-casing a character does not change whether it is a word character |
| LoggerManager.LowerWord | src/logger_manager.py:96-101 | a lower-cased word is still a word |
| LoggerManager.SymbolsNeverMatch | src/logger_manager.py:92-101 | the three symbol entries (❌, ⚠️, 🐞) can never be a token |
| LoggerManager.DetectLevelByWords | src/logger_manager.py:99-109 | the level is ERROR exactly when a token is "erro", "error" or "fatal"; WARNING exactly when none is and a token is "warn" or "aviso"; DEBUG exactly when none of those is and a token is "debug"; INFO exactly when no token is any of the six words |
| LoggerManager.DetectLevel | src/logger_manager.py:92-109 | the level of a message from its lower-cased word tokens, ERROR before WARNING before DEBUG, INFO otherwise; `DetectLevelByWords` gives each level as an iff on the tokens, and `DetectLevelIgnoresCase` shows the case of the message does not matter |
| LoggerManager.TokensSpace | src/logger_manager.py:96 | the tokens of two texts joined by a space are the tokens of the first then those of the second |
| LoggerManager.RunLengthPrefix | src/logger_manager.py:96 | a run that starts in a text ends before a non-word character that follows it |
| LoggerManager.WordIsOneToken | src/logger_manager.py:96 | a word is a single token |
| LoggerManager.WordRun | src/logger_manager.py:96 | the run of a word is the whole word |
| LoggerManager.ErrorWordWins | src/logger_manager.py:102-105 | an error word makes the message an error even after a warning word |
| LoggerManager.WholeTokensOnly | src/logger_manager.py:96-109 | "errors" is INFO: only whole tokens are matched |
| LoggerManager.LowerAll | src/logger_manager.py:101 | each token lower-cased, in order |
| LoggerManager.LowerTake | src/logger_manager.py:101 | lower-casing commutes with taking a prefix |
| LoggerManager.LowerDrop | src/logger_manager.py:101 | lower-casing commutes with dropping a prefix |
| LoggerManager.LowerSlices | src/logger_manager.py:101 | both of the above together |
| LoggerManager.RunLengthLower | src/logger_manager.py:96 | a run is as long in the lower-cased text |
| LoggerManager.TokensLower | src/logger_manager.py:96-101 | the tokens of the lower-cased message are the message's tokens lower-cased |
| LoggerManager.LowerIdempotent | src/logger_manager.py:101 | lower-casing twice is lower-casing once |
| LoggerManager.LowerAllSameSet | src/logger_manager.py:101 | lower-casing tokens that are already lower-cased gives the same set |
| LoggerManager.LoweredTokensLower | src/logger_manager.py:101 | a message and its lower-cased form have the same lower-cased token set |
| LoggerManager.DetectLevelIgnoresCase | src/logger_manager.py:99-109 | a message and its lower-cased form get the same level |
| LoggerManager.PrintMessage | src/logger_manager.py:118-124 | the logged message starts with the arguments joined by `sep` |
| LoggerManager.PrintMessageEnd | src/logger_manager.py:120-124 | an `end` of a body followed by one newline adds just the body; the default `end` adds nothing |
| AiConnector.ContentOf | src/ai_connector.py:125 | a message without a "content" field contributes "", and one whose first field is "content" contributes its value |
| AiConnector.NewOpenAIConnector | src/ai_connector.py:38-51 | the key is kept, and the connector is configured exactly when a non-empty key is set and the client could be built |
| AiConnector.NewLocalAIConnector | src/ai_connector.py:103-106 | the model name is kept, with whether the server was running |
| AiConnector.OpenAIConfiguredIff | src/ai_connector.py:38-54 | an OpenAI connector is usable exactly when a non-empty key was set and the client was built |
| AiConnector.LocalConfiguredIff | src/ai_connector.py:103-120 | a local connector is usable exactly when the server was running when it was built and the model is installed |
| AiConnector.MessagesTokensLowerBound | src/ai_connector.py:62-65 | a successful count of the messages is at least four per message |
| AiConnector.OpenAITokenCountBounds | src/ai_connector.py:56-71 | 0 is returned exactly when the encoding is missing or a value fails to encode; any other count is at least two plus four per message |
| AiConnector.MessagesTokensAppend | src/ai_connector.py:62-65 | the count of two conversations together is the sum of their counts |
| AiConnector.CountTokensOpenAI | src/ai_connector.py:56-71 | the two nested loops compute four per message plus the tokens of every value plus two, or 0 when encoding fails |
| AiConnector.PrefixFailure | src/ai_connector.py:65-71 | one value that fails to encode makes the whole count fail |
| AiConnector.FieldTokensFailure | src/ai_connector.py:64-65 | a field that fails to encode makes its message's count fail |
| AiConnector.MessagesTokensFailure | src/ai_connector.py:62-65 | a message whose count fails makes the conversation's count fail |
| AiConnector.LocalTokenCount | src/ai_connector.py:122-126 | the estimate is the number of content characters divided by four, rounded down |
| AiConnector.CountTokens | src/ai_connector.py:56-126 | `count_tokens` of either connector: the OpenAI formula whose bounds `OpenAITokenCountBounds` states, or the local estimate of content characters divided by four |
| AiConnector.LocalTokenCountIgnoresContentless | src/ai_connector.py:125 | a message without content adds nothing to the estimate |
| AiConnector.OpenAIBudget | src/ai_connector.py:82-83 | `max_tokens` becomes twice the prompt when that exceeds 16384, and is left as it is otherwise |
| AiConnector.OpenAIBudgetCanExceedLimit | src/ai_connector.py:79-83 | a 10000-token prompt is sent with a budget of 20000, above the 16384 prompt limit |
| AiConnector.OpenAIGenerate | src/ai_connector.py:73-97 | an unconfigured connector fails with its message and calls nothing; the API is called exactly when the connector is configured and the prompt is at most 16384 tokens, with the raised budget |
| AiConnector.GenerateOpenAI | src/ai_connector.py:73-97 | the steps of `generate_response` give the outcome described by `OpenAIGenerate` |
| AiConnector.NumPredict | src/ai_connector.py:141 | `num_predict` is `max_tokens` capped at 4096 |
| AiConnector.LocalGenerate | src/ai_connector.py:128-160 | an unconfigured connector fails naming its model and calls nothing; otherwise the server is asked for at most 4096 tokens, and an answer is returned only on status 200 |
| AiConnector.Generate | src/ai_connector.py:73-160 | `generate_response` of either connector: the OpenAI connector behaves as `OpenAIGenerate` states and the local one as `LocalGenerate` states |
| AiConnector.OpenAIRefusesLongPrompt | src/ai_connector.py:78-80 | a configured OpenAI connector refuses a prompt over 16384 tokens with "Mensagem muito longa. Tokens: " and the count, and calls nothing |
| AiConnector.CreateConnector | src/ai_connector.py:166-185 | the OpenAI connector exactly when the lower-cased provider is "openai"; a local connector, for the given model, exactly when it is "local" and a model name is given |
| AiConnector.CreateConnectorIgnoresCase | src/ai_connector.py:178 | "OpenAI" selects the OpenAI connector |
| AiAnalyzer.StripFences | src/ai_analyzer.py:176-181 | the cleaned reply has no surrounding white space and is no longer than the reply |
| AiAnalyzer.StripFencesUnfenced | src/ai_analyzer.py:176-181 | a stripped reply without fences passes through unchanged |
| AiAnalyzer.DropAffixes | src/ai_analyzer.py:178-180 | slicing the "```json" prefix and the "```" suffix off a fenced reply leaves its middle |
| AiAnalyzer.NewlinePadding | src/ai_analyzer.py:181 | the second `strip` removes the newlines inside the fences |
| AiAnalyzer.FencedIsStripped | src/ai_analyzer.py:176 | a fenced reply has no surrounding white space |
| AiAnalyzer.StripFencesRoundTrip | src/ai_analyzer.py:176-181 | wrapping a JSON text in a "```json" fence, on lines of its own, is undone by the cleaning |
| AiAnalyzer.ReplaceAllHead | src/ai_analyzer.py:184 | the first character after a replacement is the space, when the pattern starts the text, or the text's first character |
| AiAnalyzer.AbsentFromTail | src/ai_analyzer.py:184 | a sequence absent from a text is absent from its tails |
| AiAnalyzer.ReplacedStep | src/ai_analyzer.py:184 | a replaced pattern followed by a tail without the sequence contains no sequence |
| AiAnalyzer.KeptHead | src/ai_analyzer.py:184 | where the first character is kept, the sequence does not start the result |
| AiAnalyzer.KeptStep | src/ai_analyzer.py:184 | a kept first character followed by a tail without the sequence contains no sequence |
| AiAnalyzer.ReplaceAllLeaves | src/ai_analyzer.py:184 | replacing a two-character pattern by a space leaves no occurrence of the pattern and creates no other two-character sequence |
| AiAnalyzer.CleanRemovesEscapes | src/ai_analyzer.py:176-184 | no literal `\n` or `\r` escape remains in the cleaned reply |
| AiAnalyzer.CollapseEscapes | src/ai_analyzer.py:184 | each literal `\n`, then each literal `\r`, replaced by a space; `ReplaceAllLeaves` shows no such escape is left |
| AiAnalyzer.Clean | src/ai_analyzer.py:176-184 | the fences stripped, then the escapes collapsed; `CleanRemovesEscapes` shows no literal `\n` or `\r` remains, and `StripFencesRoundTrip` that a fenced JSON text comes back unchanged |
| AiAnalyzer.SelectConnector | src/ai_analyzer.py:29-42 | a connector is built only for the exact providers "openai" and "local"; "local" without a model name gets none; "openai" gets the OpenAI connector |
| AiAnalyzer.SelectLocalConnector | src/ai_analyzer.py:34-37 | "local" with a model name gets the local connector for that model |
| AiAnalyzer.SelectConnectorIsCaseSensitive | src/ai_analyzer.py:32-39 | "OpenAI" gets no connector here, though the factory would accept it |
| AiAnalyzer.ErrorRecord | src/ai_analyzer.py:202-217 | the error record has empty company, date and summary, the error text and the token count, and no other key |
| AiAnalyzer.Completed | src/ai_analyzer.py:189-194 | the decoded object keeps its fields, gains "" for each missing required key, and gets the token count |
| AiAnalyzer.RecordFor | src/ai_analyzer.py:166-217 | a failed call gives the analysis error record; every outcome carries the required keys and the token count |
| AiAnalyzer.AnalysisMessages | src/ai_analyzer.py:145-154 | two messages; the user message is "Documento: ", the content, then "\n\nPergunta: " and the question for the comma-joined keywords |
| AiAnalyzer.RequestBudget | src/ai_analyzer.py:164 | the budget is twice the count or the ceiling, whichever is smaller |
| AiAnalyzer.AIAnalyzer.constructor | src/ai_analyzer.py:19-27 | the provider and model are stored and the connector is built from them |
| AiAnalyzer.AIAnalyzer.InitializeConnector | src/ai_analyzer.py:29-42 | the connector is rebuilt from the current provider and model; nothing else changes |
| AiAnalyzer.AIAnalyzer.SetProvider | src/ai_analyzer.py:44-48 | the new provider and model are stored and the connector is rebuilt from them |
| AiAnalyzer.AIAnalyzer.AnalyzeDocument | src/ai_analyzer.py:54-217 | without a configured connector, the "not configured" error; over 128000 tokens, the "too long" error and no call; otherwise one call with twice the count, at most the ceiling, and its reply turned into the record |
| AiAnalyzer.RecordOfReply | src/ai_analyzer.py:166-217 | the reply is turned into the record described by `RecordFor` |
| AiAnalyzer.CompleteRecord | src/ai_analyzer.py:189-196 | the loop over the required keys and the count produce the completed record |
| AiAnalyzer.FilledIsCompleted | src/ai_analyzer.py:189-194 | a record with the object's fields and "" for each missing required key becomes the completed record once the count is set |
| AiAnalyzer.OpenAILongPromptFails | src/ai_analyzer.py:158-217 | with the OpenAI connector, a prompt over 16384 and at most 128000 tokens passes the analyzer's ceiling but comes back as the connector's "too long" error |
| CsvProcessor.ContextCell | src/csv_processor.py:231-233 | a cell that is neither "" nor "None" is wrapped in "..." on both sides; the others are left as they are |
| CsvProcessor.UnwrapContextCell | src/csv_processor.py:231-233 | the wrapping loses nothing: the original cell can be read back from the wrapped one |
| CsvProcessor.ContextRow | src/csv_processor.py:227-233 | the first three cells are kept, every later cell is wrapped |
| CsvProcessor.WithContext | src/csv_processor.py:210-237 | fewer than two rows are returned as they are; otherwise the header is kept and every data row is wrapped |
| CsvProcessor.ContextRowInjective | src/csv_processor.py:227-233 | two rows that wrap to the same row are the same |
| CsvProcessor.WithContextInjective | src/csv_processor.py:210-237 | two matrices that wrap to the same matrix are the same |
| CsvProcessor.ProcessResultsWithContext | src/csv_processor.py:210-237 | the nested loops produce the wrapped matrix; `context_chars` has no effect |
| CsvProcessor.NotSummaryName | src/csv_processor.py:257 | a column whose first letter, lower-cased, is neither 'r' nor 's' is not a summary column |
| CsvProcessor.ResumoIsSummaryName | src/csv_processor.py:257 | "resumo" is a summary column |
| CsvProcessor.SummaryIndex | src/csv_processor.py:253-259 | the index found is the first header cell whose lower-cased name is "resumo", "summary" or "resume"; none is found exactly when no cell has such a name |
| CsvProcessor.DropAt | src/csv_processor.py:267 | the row without the cell at k; a row too short to have it is kept whole |
| CsvProcessor.DropAtRestore | src/csv_processor.py:267 | putting the removed cell back gives the row |
| CsvProcessor.WithoutSummary | src/csv_processor.py:239-270 | the matrix keeps its number of rows |
| CsvProcessor.WithoutSummaryShape | src/csv_processor.py:239-270 | without a summary column nothing changes; otherwise the header loses exactly that column and every row loses the cell at that index |
| CsvProcessor.RemoveSummaryColumn | src/csv_processor.py:239-270 | the scan that stops at the first summary name and the loop over the rows give the matrix described by `WithoutSummary` |
| CsvProcessor.SummaryIndexFirst | src/csv_processor.py:256-259 | a summary name with none before it is the one the scan stops at |
| CsvProcessor.SavedRows | src/csv_processor.py:58-74 | no results give one empty row; otherwise the wrapped matrix, without its summary column when the summary is not wanted |
| CsvProcessor.SaveResults | src/csv_processor.py:44-76 | the rows handed to the CSV writer are those described by `SavedRows` |
| CsvProcessor.SummaryAtFourth | tests/test_core.py:58-66 | a fourth column named "resumo", after three that are not summary names, is the summary column |
| CsvProcessor.ExampleContextRow | tests/test_core.py:58-67 | the test's data row is wrapped to "...summary..." and "...match..." in its keyword cells |
| CsvProcessor.SavedRowsWithoutSummary | tests/test_core.py:58-67 | a five-column result with "resumo" fourth, saved without the summary, loses that column from both rows and has its last cell wrapped |
| CsvProcessor.DropFourth | src/csv_processor.py:267 | removing index 3 of a five-cell row keeps the other four in order |
| CsvProcessor.ContextThenRemoveCommutes | src/csv_processor.py:66-70 | when the summary column is a keyword column, wrapping then removing gives the same rows as removing then wrapping |
| CsvProcessor.DropAtContextRow | src/csv_processor.py:66-70 | for a column past the three fixed ones, dropping it and wrapping a row's cells commute |
| CsvProcessor.RemoveThenContextDiffers | src/csv_processor.py:66-70 | when the summary column is one of the first three, the order matters: a markable cell at index 3 moves to index 2 and would escape the wrapping |
| CsvProcessor.GetUniqueFilename | src/csv_processor.py:100-119 | the same search as the script's: a free name, the base when it is free, else the first free `name (k)ext` |
| CsvProcessor.ValidateCsvStructureIff | src/csv_processor.py:172-189 | the structure is valid exactly when every expected column is among the frame's columns |
| CsvProcessor.ValidateCsvStructure | src/csv_processor.py:172-189 | no expected column is missing from the frame's columns; `ValidateCsvStructureIff` states it as membership of every expected column |
| KeywordAnalyzer.Strings | keyword_analyzer.py:160-161 | the strings of a list of string values, one per value and in order |
| KeywordAnalyzer.KeywordCell | keyword_analyzer.py:158-163 | a keyword's cell is always a string; it is missing only when `' \| '.join` raises on a list that holds a value other than a string |
| KeywordAnalyzer.ListOfStringsJoins | keyword_analyzer.py:159-161 | a list of strings gives the same cell whichever way the result holds it |
| KeywordAnalyzer.NumberInListRaises | keyword_analyzer.py:159-161 | a number among a keyword's sentences makes building the row raise |
| KeywordAnalyzer.RowData | keyword_analyzer.py:149-163 | a processed document's row has exactly the five fixed columns and one column per keyword |
| KeywordAnalyzer.ErrorRow | keyword_analyzer.py:190-199 | the error row has exactly `filename`, `company`, `date`, `resumo` and one column per keyword |
| KeywordAnalyzer.BuildRow | keyword_analyzer.py:149-163 | the dictionary literal followed by the keyword loop yields `row_data`, and raises exactly when some keyword's join raises |
| KeywordAnalyzer.FilledRowData | keyword_analyzer.py:157-163 | once every keyword has been filled in, the row is `row_data` |
| KeywordAnalyzer.CellAfter | keyword_analyzer.py:158-163 | filling in one keyword changes that keyword's cell and no other |
| KeywordAnalyzer.FillKeyword | keyword_analyzer.py:158-163 | one pass of the keyword loop raises exactly when the join of that keyword's list raises; otherwise it adds the keyword's cell: its sentences joined by " \| " when the result holds a non-empty list for it, otherwise "" |
| KeywordAnalyzer.FixedCells | keyword_analyzer.py:149-155 | the literal has exactly the five fixed columns; `filename` is the PDF, the others are copied from the result or "" |
| KeywordAnalyzer.BuildErrorRow | keyword_analyzer.py:190-199 | the error literal followed by the loop over the keywords yields the error row |
| KeywordAnalyzer.ErrorRowShape | keyword_analyzer.py:149-199 | when no keyword is a fixed column name, the error row has the processed row's columns minus `tokens`, and every cell except `filename` is empty |
| KeywordAnalyzer.UnlistedKeywordEmpty | keyword_analyzer.py:159-163 | a keyword the result does not list, lists with no sentences or holds as a non-list gets an empty cell |
| KeywordAnalyzer.ResultsFileIsAName | keyword_analyzer.py:165 | "resultados.csv" is a plain file name with no separator |
| KeywordAnalyzer.OutputPath | keyword_analyzer.py:165 | the output path always ends in the file name "resultados.csv" |
| KeywordAnalyzer.ExitCode | keyword_analyzer.py:210-212 | `run` ends with 0 exactly when no exception left the loop and some document was counted |
| KeywordAnalyzer.Built | keyword_analyzer.py:139-165 | there are at most as many documents whose row is built as PDFs |
| KeywordAnalyzer.LoopCountBound | keyword_analyzer.py:169-176 | whatever the writer does, `processed_count` never exceeds the documents whose row was built |
| KeywordAnalyzer.LoopWritesPdfPaths | keyword_analyzer.py:165-206 | every call of the writer, and the path bound last, uses the output path of one of the PDFs |
| KeywordAnalyzer.OutputPaths | keyword_analyzer.py:165 | the path of each PDF is its `output_path` |
| KeywordAnalyzer.LoopWritesResults | keyword_analyzer.py:165-206 | in `run`, every row goes to a file named "resultados.csv" |
| KeywordAnalyzer.MissingWriterFails | keyword_analyzer.py:169-174 | with the writer as written, no document is ever counted, an exception leaves the loop exactly when some PDF converts to text, and `run` exits with 1 |
| KeywordAnalyzer.MissingWriterNoPath | keyword_analyzer.py:165-206 | with the writer as written, a loop that has not raised has bound no path and called the writer never |
| KeywordAnalyzer.ReturningWriterCounts | keyword_analyzer.py:129-212 | with a writer that returns, every document whose row builds is counted; the loop raises only when a row fails to build before any path is bound, and then nothing was counted; `run` exits with 0 exactly when no exception left the loop and some row was built |
| KeywordAnalyzer.LoopRaised | keyword_analyzer.py:184-206 | once an exception has left the loop, the later PDFs change nothing |
| KeywordAnalyzer.Run | keyword_analyzer.py:45-212 | every failed check exits with 1 before the loop; otherwise the outcome is that of the loop over the PDFs with each PDF's `output_path`, and the exit code is 1 exactly when an exception left the loop or nothing was counted; once the configuration is valid the analyzer is pointed at the configured provider and model and holds the connector `SelectConnector` builds for them, and an invalid configuration leaves the analyzer untouched |
| KeywordAnalyzer.ProcessAll | keyword_analyzer.py:129-208 | the loop over the PDFs, stopped by the first exception that leaves its body, yields the count, the writer calls, the bound path and whether it raised as `Loop` describes |
| KeywordAnalyzer.ProcessPdf | keyword_analyzer.py:131-206 | the body of the loop for one PDF (skip on no text, build the row, call the writer, count, and on an exception the `except` block with the path bound last) extends the loop by that PDF |
| KeywordAnalyzer.Recover | keyword_analyzer.py:184-206 | the `except` block: raises out of the loop when no path was bound yet, otherwise hands the error row to the path bound last; `LoopWritesPdfPaths` and `LoopRaised` state its effect on the loop |
| KeywordAnalyzer.Step | keyword_analyzer.py:131-206 | one PDF of the loop; `ProcessPdf` is proved to perform it, and `LoopCountBound` bounds the count it keeps |
| KeywordAnalyzer.Loop | keyword_analyzer.py:129-206 | the loop up to the first exception that leaves it; `ProcessAll` is proved to compute it, and `LoopCountBound`, `LoopWritesPdfPaths`, `LoopRaised` and `ReturningWriterCounts` state its properties |
| KeywordAnalyzer.KeywordColumns | keyword_analyzer.py:262 | a column is a keyword column exactly when it is not one of the five fixed columns |
| KeywordAnalyzer.KeywordColumnsAppend | keyword_analyzer.py:262 | the filter distributes over concatenation of column lists |
| KeywordAnalyzer.KeywordColumnsAll | keyword_analyzer.py:262 | columns that are all non-fixed are kept whole; columns that are all fixed are dropped |
| KeywordAnalyzer.KeywordColumnsOfRow | keyword_analyzer.py:262 | for keywords that are not fixed column names, the summary finds exactly the keywords, in order, among a row's columns |
| OpenAiAnalyzer.ExtractionMessagesContents | src/openai_analyzer.py:86-99 | the model is sent two messages: the system text, then the document and the question after the fixed preamble |
| OpenAiAnalyzer.ExtractionBudgetBounds | src/openai_analyzer.py:85-112 | for an accepted prompt, `max_tokens` is at least 16384, at most twice that, and at least twice the prompt's tokens |
| OpenAiAnalyzer.ExtractInfoOutcomes | src/openai_analyzer.py:82-131 | an unconfigured analyzer or a prompt over 16384 tokens never reaches the API and returns its error; otherwise the API is called once with `max_tokens` in [16384, 32768], and its reply or its error message is returned |
| OpenAiAnalyzer.ExtractInfo | src/openai_analyzer.py:65-131 | the extraction call and its token budget; `ExtractInfoOutcomes` states when the API is reached, with what budget, and what is returned |
| OpenAiAnalyzer.DecodeReply | src/openai_analyzer.py:322-328 | the result is the decoded object, or an error dictionary when the reply does not decode |
| OpenAiAnalyzer.FindKeywords | src/openai_analyzer.py:302-328 | an extraction error is returned as its error dictionary; otherwise the result is either an error or what the fence-stripped reply decodes to |
| OpenAiAnalyzer.AnalysisRow | src/openai_analyzer.py:379-412 | building a row raises `TypeError` exactly when the search succeeded, there is a keyword to test and the value under "keywords" is a number, a boolean or None; otherwise the row is the one both loops leave |
| OpenAiAnalyzer.NumberFoundRaises | src/openai_analyzer.py:405-407 | a number under "keywords" makes the membership test raise once there is a keyword, and not when there is none |
| OpenAiAnalyzer.BuildAnalysisRow | src/openai_analyzer.py:379-412 | the dictionary literal, the optional summary cell and the two keyword loops build the row of `analyze_documents`, stopping at the membership test that raises |
| OpenAiAnalyzer.ClearKeywordsCell | src/openai_analyzer.py:390-392 | after the first loop every keyword column is None and every other column is untouched |
| OpenAiAnalyzer.FillFoundCell | src/openai_analyzer.py:406-412 | after the second loop a keyword the model listed and gave sentences for holds them; every other column is untouched |
| OpenAiAnalyzer.AnalysisRowCell | src/openai_analyzer.py:379-412 | a row has exactly `file_name`, `company`, `date`, `keywords`, `resumo` when asked for, and one column per keyword, each holding the value the statements assign last |
| OpenAiAnalyzer.KeywordColumnsOfAnalysisRow | src/openai_analyzer.py:390-412 | every keyword gets a column, None unless the search succeeded, listed it and gave its sentences |
| OpenAiAnalyzer.ErrorResultRow | src/openai_analyzer.py:394-397 | an error result leaves the found list empty and every keyword column None |
| OpenAiAnalyzer.SummaryColumnIff | src/openai_analyzer.py:386-388 | the `resumo` column is present exactly when the summary was asked for |
| OpenAiAnalyzer.AnalysisRowFileName | src/openai_analyzer.py:379-380 | the row's `file_name` is the PDF name it was built with |
| OpenAiAnalyzer.MarkdownEntries | src/openai_analyzer.py:361-363 | only listing entries whose lower-cased name ends in ".md" are analyzed, at most one row per entry |
| OpenAiAnalyzer.MarkdownEntriesStep | src/openai_analyzer.py:361-363 | one more listing entry adds itself when its lower-cased name ends in ".md", and nothing otherwise |
| OpenAiAnalyzer.MarkdownEntriesAppend | src/openai_analyzer.py:361-363 | the Markdown entries of two listings one after the other are those of each, in order |
| OpenAiAnalyzer.EntryRowRaises | src/openai_analyzer.py:296-408 | the keyword search raises exactly when the Markdown file cannot be read; the entry's row raises exactly then or when the search result makes the membership test raise |
| OpenAiAnalyzer.KeywordSearch | src/openai_analyzer.py:296-328 | the keyword search over one Markdown file; `EntryRowRaises` shows it raises exactly when the file cannot be read |
| OpenAiAnalyzer.EntryRowFileName | src/openai_analyzer.py:366-380 | a built row carries the entry's name with ".md" replaced by ".pdf" as a string `file_name` |
| OpenAiAnalyzer.EntryRowOf | src/openai_analyzer.py:365-412 | the row of an entry, as a function of the entry |
| OpenAiAnalyzer.Collected | src/openai_analyzer.py:361-414 | collected rows are one per entry |
| OpenAiAnalyzer.CollectedSnoc | src/openai_analyzer.py:361-414 | one more entry appends its row, unless the rows so far or its own row raised |
| OpenAiAnalyzer.CollectedEntry | src/openai_analyzer.py:361-414 | a Markdown entry adds its row or raises; any other entry adds nothing |
| OpenAiAnalyzer.CollectedRows | src/openai_analyzer.py:361-414 | the rows are collected exactly when no entry's row raises, and then each row is the row of its entry, in order |
| OpenAiAnalyzer.CollectedStops | src/openai_analyzer.py:361-414 | once a row has raised, later entries change nothing |
| OpenAiAnalyzer.CollectedListingStops | src/openai_analyzer.py:361-414 | a row that raises among the first entries of a listing makes the whole listing raise |
| OpenAiAnalyzer.PdfStemTrims | src/openai_analyzer.py:182 | `strip(".pdf")` removes the leading run of the characters '.', 'p', 'd', 'f' and then the trailing run |
| OpenAiAnalyzer.PdfStem | src/openai_analyzer.py:182 | `strip(".pdf")` of the file name; `PdfStemTrims` and `PdfStemPrefix` state which characters it removes |
| OpenAiAnalyzer.MarkdownName | src/openai_analyzer.py:182 | the looked-up name always ends in ".md" |
| OpenAiAnalyzer.MarkdownNameOfStem | src/openai_analyzer.py:182 | a name whose stem neither starts nor ends with one of those characters maps to the stem plus ".md" |
| OpenAiAnalyzer.TrimEndPdf | src/openai_analyzer.py:182 | the trailing ".pdf" of such a stem is removed and nothing more |
| OpenAiAnalyzer.PdfNameOfStem | src/openai_analyzer.py:366 | a name whose only ".md" is its suffix is renamed to the same stem plus ".pdf" |
| OpenAiAnalyzer.PdfName | src/openai_analyzer.py:366 | ".md" replaced by ".pdf" throughout the name; `PdfNameOfStem` states the result for a name whose only ".md" is its suffix |
| OpenAiAnalyzer.EnrichFindsSourceFile | src/openai_analyzer.py:182 | for an ordinary stem, enrichment looks up the same Markdown file the row came from |
| OpenAiAnalyzer.PdfStemPrefix | src/openai_analyzer.py:182 | leading characters among '.', 'p', 'd', 'f' are dropped whatever follows them |
| OpenAiAnalyzer.LeadingPdfStripped | src/openai_analyzer.py:182 | a name starting with those characters loses them too, so "pdf_doc.pdf" is looked up as "_doc.md" |
| OpenAiAnalyzer.StatusFor | src/openai_analyzer.py:188-229 | a decoded status never carries an "error" key |
| OpenAiAnalyzer.StatusNotFoundIff | src/openai_analyzer.py:188-236 | a row is reported missing exactly when its Markdown file does not exist, and raises exactly when the file exists but cannot be read |
| OpenAiAnalyzer.StatusOutcomes | src/openai_analyzer.py:188-229 | for a file that exists and reads, the status is a decoding error exactly when the reply does not parse, an extraction error exactly when the call failed or the parsed reply has an "error" key, and the decoded fields, equal to the parsed reply, exactly when it parses without one |
| OpenAiAnalyzer.UnconfiguredStatus | src/openai_analyzer.py:189-221 | without a client or key, every existing file ends as "Erro na extração", unless reading it raises |
| OpenAiAnalyzer.ApplyStatusCells | src/openai_analyzer.py:205-236 | enrichment writes `company`, `date` and, only when asked, `resumo`, with the status's value, and leaves every other cell alone |
| OpenAiAnalyzer.ApplyStatus | src/openai_analyzer.py:205-236 | the cells one status writes into a row; `ApplyStatusCells` states which cells change and to what |
| OpenAiAnalyzer.EnrichedRowOf | src/openai_analyzer.py:181-236 | the enrichment of a row, as a function of the row |
| OpenAiAnalyzer.EnrichedRow | src/openai_analyzer.py:181-236 | the enrichment of one row, `None` when it raises; `StatusNotFoundIff` and `StatusOutcomes` state the status it applies |
| OpenAiAnalyzer.EnrichStop | src/openai_analyzer.py:181-236 | the rows before the stop enrich without raising, and the row at the stop raises |
| OpenAiAnalyzer.EnrichStopAt | src/openai_analyzer.py:181-236 | the stop is the first row whose enrichment raises, or the end |
| OpenAiAnalyzer.EnrichStopIff | src/openai_analyzer.py:181-236 | enrichment stops early exactly when some row's enrichment raises |
| OpenAiAnalyzer.MissingFileStatus | src/openai_analyzer.py:230-234 | a missing Markdown file does not raise and sets `company` and `date` to "Arquivo não encontrado" |
| OpenAiAnalyzer.Frame.constructor | src/openai_analyzer.py:416 | a frame holds the rows it is built from |
| OpenAiAnalyzer.OpenAIAnalyzer.constructor | src/openai_analyzer.py:18-32 | the analyzer is configured exactly when the client could be created |
| OpenAiAnalyzer.OpenAIAnalyzer.CountTokens | src/openai_analyzer.py:38-63 | the count is the connector's formula: 4 per message, the encoded length of every value, plus 2 |
| OpenAiAnalyzer.OpenAIAnalyzer.ExtractInfoFromFile | src/openai_analyzer.py:65-131 | the method returns the outcome `ExtractInfoOutcomes` describes |
| OpenAiAnalyzer.OpenAIAnalyzer.FindKeywordsInFile | src/openai_analyzer.py:240-328 | the call raises exactly when reading the file does; otherwise the keyword prompts are sent and the reply is unfenced and decoded as `FindKeywords` describes |
| OpenAiAnalyzer.OpenAIAnalyzer.DocumentStatus | src/openai_analyzer.py:182-236 | the outcome for a row is missing file, extraction error, decoding error or the decoded fields, as `StatusFor` describes, or the exception of reading an existing file |
| OpenAiAnalyzer.OpenAIAnalyzer.EnrichDataframe | src/openai_analyzer.py:133-238 | the rows are enriched in place, in order, up to the first whose file cannot be read; the call raises exactly when there is such a row, which with every later row is left as it was; the frame keeps its length and order |
| OpenAiAnalyzer.OpenAIAnalyzer.EnrichRow | src/openai_analyzer.py:181-236 | one row receives the cells of its own document's status, or raises when reading its file does |
| OpenAiAnalyzer.OpenAIAnalyzer.AnalyzeDocuments | src/openai_analyzer.py:330-421 | with no keywords the result is empty; otherwise the call raises exactly when some Markdown entry's row raises or its enrichment raises, and else there is one row per Markdown entry, in listing order, each built from its own keyword search and then enriched |
| OpenAiAnalyzer.OpenAIAnalyzer.AnalyzeEntry | src/openai_analyzer.py:365-412 | one entry's row is built from its keyword search under its ".pdf" name, or raises when reading the file raises or as `AnalysisRow` says |
| OpenAiAnalyzer.OpenAIAnalyzer.CollectEntry | src/openai_analyzer.py:361-414 | one turn of the loop extends the rows of the Markdown entries seen so far by the next entry, or raises with its row |
| OpenAiAnalyzer.OpenAIAnalyzer.CollectRows | src/openai_analyzer.py:359-414 | the loop yields the row of each Markdown entry of the listing, in order, or raises at the first row that raises |

## Left out

- PDF text and Markdown acquisition (PyPDF2, docling in `src/pdf_processor.py`) and directory walks are left out. The members take the text, the conversion outcome or the directory listing as a parameter.
- HTTP calls and model backends are left out: the OpenAI client, the `requests.post` body of the local connector, and `src/local_model.py`. A reply is a parameter that yields a text or a failure. The Ollama server check is a field of the environment.
- The regular-expression engine, `json.loads` and the tiktoken encoder are not modelled. A match is the tuple of its groups, a decoding is its outcome, and an encoding is the length of each value or a failure.
- Printing, the rich progress display, logger handler setup and the `print` replacement are left out, and so are the argparse and interactive `main` of `keywordPDF.py`. `LoggerManager` models only the severity rule and the message text.
- The CSV writer `save_single_result_with_keywords`, which `keyword_analyzer.py` calls, is not defined by `src/csv_processor.py`. `KeywordAnalyzer.Writer` only answers whether a call returns; what a working writer would put in the file is left out. `KeywordAnalyzer.Run` stops at the sequence of (path, row) calls made.
- The `verbose` output of `run` and `analyze_documents` is left out, and with it the `TypeError` that printing `content_result[keyword][:100]` raises in verbose mode when the sentences are not a sequence.
- JSON objects and floating-point numbers as values inside a result are not modelled (`Values.Value` has strings, lists, integers, booleans and null). `keyword in found_keywords` on an object would test its keys.
- Text.Lines: splits on '\n' only. The files are read in text mode, where Python has already turned "\r\n" and "\r" into '\n'; that translation is not modelled.
- KeywordPdf.Scan: whether `os.rename` succeeds is a parameter (`renames`) that depends only on the target name. It stands for a missing parent directory (a company name holding '/') or a target that is a directory. Permission errors and other processes changing the directory during the run are not modelled.
- KeywordPdf.ProcessPdfs: the keyword file is given as its text, or `None` when opening or decoding it raises. A PDF whose text extraction raises would also stop the call; PDF reading is left out, as above.
- KeywordPdf.ProcessPdfs: the CSV write itself is not modelled. The report ends at the matrix and the path handed to `open(..., "w")`. That call raises when the output directory does not exist, and by default that directory is the relative path "output.csv".
- The pandas-only helpers are left out: `merge_results`, `clean_dataframe`, `save_enriched_results`, `export_to_json`, and the CSV statistics `_show_summary` reads back. Only the keyword-column selection of `_show_summary` is modelled.
- The `DataFrame` built by `analyze_documents` is left out. It aligns the rows' keys into columns and fills gaps with NaN. `OpenAiAnalyzer.Frame` keeps each row as the record that was built.
- Text.Lower: lower-cases ASCII and Latin-1 letters only. Other characters are left unchanged.
- LoggerManager.Tokens: treats only characters below U+0100 as candidates for `[\wÀ-ÿ]`. Every other character ends a token.
- AiAnalyzer.MaxTokens: is the integer 128000. Setting `MAX_TOKENS` in the environment would make it a string; that case is not modelled.
- OpenAiAnalyzer.DecodeReply: the decoder is taken to return an object or a decoding error. In `find_keywords_in_file` and `enrich_dataframe`, a reply that decodes to a list or a scalar makes the source raise later; that case is not modelled.
- OpenAiAnalyzer.OpenAIAnalyzer.AnalyzeDocuments: requires that no keyword is named "file_name". With such a keyword the row's file name becomes None and `enrich_dataframe` raises.
- OpenAiAnalyzer.OpenAIAnalyzer.EnrichDataframe: requires a string `file_name` in every row, since `enrich_dataframe` raises on any other. The "" fallback of `OpenAiAnalyzer.FileName` is therefore never used.
- The prompt wording of `find_keywords_in_file` and `enrich_dataframe` is a parameter (`OpenAiAnalyzer.Prompts`), and so is the fixed opening of the user message. The system and user messages around them are modelled.
- The error texts of `extract_info_from_file` are modelled as the `OpenAiAnalyzer.Failure` datatype and its `FailureText`.
- `load_config_file` and the configuration handling of `keywordPDF.py`'s `main` are not part of this model; `ConfigManager` models `src/config_manager.py`.
- Tests that call APIs the repository does not define are not modelled: `PDFProcessor.find_company_and_date`, `KeywordAnalyzerCLI`, `OpenAIAnalyzer(model=…)`, and the `renamefiles`/`regex_date` configuration keys.

## Findings

| source | as written | input that shows it | evidently intended | confidence | as-written member | corrected member |
|---|---|---|---|---|---|---|
| keyword_analyzer.py:169-174 | `run` calls `self.csv_processor.save_single_result_with_keywords`, which `CSVProcessor` does not define, so the call raises `AttributeError`; the `except` block calls it again and raises again, and `main` exits with 1 | any PDF whose conversion gives non-empty Markdown | each row is saved and counted, and `run` exits with 0 once some document was processed | high, not executed | KeywordAnalyzer.MissingWriterFails | KeywordAnalyzer.ReturningWriterCounts |

=== FILE: ai_analyzer.dfy ===
/**
  `AIAnalyzer` (`src/ai_analyzer.py`): the provider and model it was set up
  with, the connector it builds from them, and `analyze_document`, which
  budgets the request, cleans the model's reply and turns it into a result
  record or one of the fixed error records.

  The JSON decoder is given: it maps the cleaned reply to the object it
  decodes to, to the type error that using a non-object as a dictionary
  raises, or to the decoding error.
*/
module AiAnalyzer {
  import opened Text
  import opened Values
  import opened AiConnector

  /** The analyzer's token ceiling (the default of the `MAX_TOKENS` setting). */
  const MaxTokens: nat := 128000

  // ----- reply cleaning

  /** The fence markers around a JSON reply. */
  const JsonFence: string := "```json"
  const Fence: string := "```"

  /** Strip, drop a leading "```json", drop a trailing "```", strip again. */
  function StripFences(reply: string): (cleaned: string)
    ensures IsStripped(cleaned)
    ensures |cleaned| <= |reply|
  {
    var s := Strip(reply);
    var s := if StartsWith(s, JsonFence) then s[|JsonFence|..] else s;
    var s := if EndsWith(s, Fence) then s[..|s| - |Fence|] else s;
    Strip(s)
  }

  /** A stripped reply without fences passes through unchanged. */
  lemma StripFencesUnfenced(s: string)
    requires IsStripped(s) && !StartsWith(s, JsonFence) && !EndsWith(s, Fence)
    ensures StripFences(s) == s
  {
    StripStripped(s);
  }

  /** Slicing an affix off a concatenation. */
  lemma DropAffixes(a: string, m: string, b: string)
    ensures StartsWith(a + m + b, a) && (a + m + b)[|a|..] == m + b
    ensures EndsWith(m + b, b) && (m + b)[..|m + b| - |b|] == m
  {
    assert (a + m + b)[..|a|] == a;
    assert (a + m + b)[|a|..] == m + b;
  }

  lemma NewlinePadding(s: string)
    requires IsStripped(s)
    ensures Strip("\n" + s + "\n") == s
  {
    var nl := "\n";
    assert forall i :: 0 <= i < |nl| ==> IsSpace(nl[i]);
    StripPadded(nl, s, nl);
  }

  lemma FencedIsStripped(m: string)
    ensures IsStripped(JsonFence + m + Fence)
  {
    var fenced := JsonFence + m + Fence;
    assert fenced[0] == '`';
    assert fenced[|fenced| - 1] == '`';
  }

  /** Wrapping a reply in a JSON code fence is undone by the cleaning. */
  lemma {:induction false} StripFencesRoundTrip(s: string)
    requires IsStripped(s) && !StartsWith(s, JsonFence) && !EndsWith(s, Fence)
    ensures StripFences(JsonFence + ("\n" + s + "\n") + Fence) == StripFences(s) == s
  {
    var m := "\n" + s + "\n";
    FencedIsStripped(m);
    StripStripped(JsonFence + m + Fence);
    DropAffixes(JsonFence, m, Fence);
    NewlinePadding(s);
    StripFencesUnfenced(s);
  }

  /** The two-character escape sequences a reply may carry literally. */
  const EscapedNewline: string := ['\\', 'n']
  const EscapedReturn: string := ['\\', 'r']

  /** `replace('\\n', ' ').replace('\\r', ' ')`. */
  function CollapseEscapes(s: string): string {
    ReplaceAll(ReplaceAll(s, EscapedNewline, " "), EscapedReturn, " ")
  }

  /** The cleaning `analyze_document` applies before decoding. */
  function Clean(reply: string): string {
    CollapseEscapes(StripFences(reply))
  }

  /** The first character of a replacement result. */
  lemma ReplaceAllHead(s: string, p: string)
    requires |p| == 2 && |s| >= 1
    ensures |ReplaceAll(s, p, " ")| >= 1
    ensures ReplaceAll(s, p, " ")[0] == (if |s| >= 2 && s[..2] == p then ' ' else s[0])
  {
  }

  /** A sequence not found in `s` is not found in its tail either. */
  lemma AbsentFromTail(s: string, q: string, n: nat)
    requires n <= |s| && !Contains(s, q)
    ensures !Contains(s[n..], q)
  {
    if Contains(s[n..], q) {
      var i :| 0 <= i <= |s[n..]| - |q| && OccursAt(s[n..], q, i);
      assert s[n..][i..i + |q|] == s[n + i..n + i + |q|];
      assert OccursAt(s, q, n + i);
    }
  }

  /** The step where the pattern is replaced by a space. */
  lemma ReplacedStep(r: string, tail: string, q: string)
    requires r == " " + tail && |q| == 2 && q[0] != ' '
    requires !Contains(tail, q)
    ensures !Contains(r, q)
  {
    if Contains(r, q) {
      var i :| 0 <= i <= |r| - |q| && OccursAt(r, q, i);
      if i != 0 {
        assert r[i..i + |q|] == tail[i - 1..i - 1 + |q|];
        assert OccursAt(tail, q, i - 1);
      }
    }
  }

  /** Where the first character is kept, `q` cannot start the result. */
  lemma KeptHead(s: string, r: string, tail: string, p: string, q: string)
    requires |p| == 2 && |q| == 2 && q[1] != ' ' && |s| >= 2
    requires q == p || !Contains(s, q)
    requires s[..2] != p && r == [s[0]] + tail
    requires tail == ReplaceAll(s[1..], p, " ")
    ensures !OccursAt(r, q, 0)
  {
    ReplaceAllHead(s[1..], p);
    if !(|s[1..]| >= 2 && s[1..][..2] == p) {
      assert r[..2] == s[..2];
      assert OccursAt(r, q, 0) ==> OccursAt(s, q, 0);
    }
  }

  /** The step where the first character is kept. */
  lemma KeptStep(r: string, tail: string, q: string)
    requires |r| == |tail| + 1 && r[1..] == tail && |q| == 2
    requires !OccursAt(r, q, 0) && !Contains(tail, q)
    ensures !Contains(r, q)
  {
    if Contains(r, q) {
      var i :| 0 <= i <= |r| - |q| && OccursAt(r, q, i);
      assert r[i..i + |q|] == tail[i - 1..i - 1 + |q|];
      assert OccursAt(tail, q, i - 1);
    }
  }

  /**
    Replacing a two-character pattern by a space leaves no two-character
    sequence `q` (without spaces) that was not already there, and none of the
    pattern itself.
  */
  lemma {:induction false} ReplaceAllLeaves(s: string, p: string, q: string)
    requires |p| == 2 && p[0] != ' ' && p[1] != ' '
    requires |q| == 2 && q[0] != ' ' && q[1] != ' '
    requires q == p || !Contains(s, q)
    ensures !Contains(ReplaceAll(s, p, " "), q)
    decreases |s|
  {
    if |s| < 2 {
    } else if s[..2] == p {
      if q != p { AbsentFromTail(s, q, 2); }
      ReplaceAllLeaves(s[2..], p, q);
      ReplacedStep(ReplaceAll(s, p, " "), ReplaceAll(s[2..], p, " "), q);
    } else {
      if q != p { AbsentFromTail(s, q, 1); }
      ReplaceAllLeaves(s[1..], p, q);
      var r, tail := ReplaceAll(s, p, " "), ReplaceAll(s[1..], p, " ");
      KeptHead(s, r, tail, p, q);
      KeptStep(r, tail, q);
    }
  }

  /** After cleaning, no literal `\n` or `\r` escape remains in the reply. */
  lemma CleanRemovesEscapes(reply: string)
    ensures !Contains(Clean(reply), EscapedNewline)
    ensures !Contains(Clean(reply), EscapedReturn)
  {
    var s := StripFences(reply);
    var t := ReplaceAll(s, EscapedNewline, " ");
    ReplaceAllLeaves(s, EscapedNewline, EscapedNewline);
    ReplaceAllLeaves(t, EscapedReturn, EscapedNewline);
    ReplaceAllLeaves(t, EscapedReturn, EscapedReturn);
  }

  // ----- connector selection

  /** `_initialize_connector`: the provider must be exactly "openai" or "local"; "local" needs a model name. */
  function SelectConnector(provider: string, modelName: Option<string>, env: Environment): (c: Option<Connector>)
    ensures c.Some? ==> provider == "openai" || provider == "local"
    ensures provider == "local" && (modelName.None? || modelName.value == "") ==> c.None?
    ensures provider == "openai" ==> c == Some(NewOpenAIConnector(env))
  {
    if provider == "openai" then
      assert Lower(provider) == "openai";
      match CreateConnector("openai", None, env)
      case Ok(c) => Some(c)
      case Err(_) => None
    else if provider == "local" then
      if modelName.None? || modelName.value == "" then None
      else
        assert Lower(provider) == "local";
        match CreateConnector("local", modelName, env)
        case Ok(c) => Some(c)
        case Err(_) => None
    else None
  }

  /** A local provider with a model name gets a local connector for that model. */
  lemma SelectLocalConnector(modelName: string, env: Environment)
    requires modelName != ""
    ensures SelectConnector("local", Some(modelName), env) == Some(NewLocalAIConnector(modelName, env))
  {
    assert Lower("local") == "local";
  }

  /** Unlike the factory, the analyzer compares the provider exactly: "OpenAI" leaves it without a connector. */
  lemma SelectConnectorIsCaseSensitive(provider: string, env: Environment)
    requires provider == "OpenAI"
    ensures SelectConnector(provider, None, env).None?
    ensures CreateConnector(provider, None, env).Ok?
  {
    CreateConnectorIgnoresCase(provider, env);
  }

  // ----- result records

  /** Decoding outcome of the cleaned reply. */
  datatype Json = Object(fields: Record) | NonObject(typeError: string) | Malformed(message: string)

  const RequiredKeys: seq<string> := ["company", "date", "resumo"]

  /** The record returned when the reply could not be used: empty fields, the error and the count. */
  function ErrorRecord(error: string, tokens: nat): (r: Record)
    ensures r.Keys == {"company", "date", "resumo", "error", "tokens"}
    ensures r["error"] == Str(error) && r["tokens"] == Int(tokens)
    ensures r["company"] == r["date"] == r["resumo"] == Str("")
  {
    map["company" := Str(""), "date" := Str(""), "resumo" := Str(""), "error" := Str(error), "tokens" := Int(tokens)]
  }

  /** A decoded object with the required keys added as "" where missing and the token count set. */
  function Completed(data: Record, tokens: nat): (r: Record)
    ensures r.Keys == data.Keys + {"company", "date", "resumo", "tokens"}
    ensures r["tokens"] == Int(tokens)
    ensures forall k :: k in RequiredKeys ==> r[k] == (if k in data then data[k] else Str(""))
    ensures forall k :: k in data && k !in RequiredKeys && k != "tokens" ==> r[k] == data[k]
  {
    (map k | k in data.Keys + {"company", "date", "resumo"} :: if k in data then data[k] else Str(""))["tokens" := Int(tokens)]
  }

  /** What `analyze_document` makes of the connector's reply. */
  function RecordFor(reply: Result<string, string>, parse: string -> Json, tokens: nat): (r: Record)
    ensures reply.Err? ==> r == ErrorRecord("Erro na análise: " + reply.error, tokens)
    ensures "tokens" in r && r["tokens"] == Int(tokens)
    ensures "company" in r && "date" in r && "resumo" in r
  {
    match reply
    case Err(e) => ErrorRecord("Erro na análise: " + e, tokens)
    case Ok(text) =>
      match parse(Clean(text))
      case Object(data) => Completed(data, tokens)
      case NonObject(typeError) => ErrorRecord("Erro na análise: " + typeError, tokens)
      case Malformed(_) => ErrorRecord("Erro no formato da resposta", tokens)
  }

  /** The two messages `analyze_document` sends. */
  function AnalysisMessages(content: string, keywords: seq<string>,
                            systemPrompt: string -> string, question: string -> string): (ms: seq<Message>)
    ensures |ms| == 2
    ensures ContentOf(ms[1]) == "Documento: " + content + "\n\nPergunta: " + question(Join(", ", keywords))
  {
    var keywordsStr := Join(", ", keywords);
    [[("role", "system"), ("content", systemPrompt(keywordsStr))],
     [("role", "user"), ("content", "Documento: " + content + "\n\nPergunta: " + question(keywordsStr))]]
  }

  /** `min(tokens * 2, MAX_TOKENS)`. */
  function RequestBudget(tokens: nat): (budget: nat)
    ensures budget <= MaxTokens && budget <= 2 * tokens
    ensures budget == 2 * tokens || budget == MaxTokens
  {
    if 2 * tokens < MaxTokens then 2 * tokens else MaxTokens
  }

  class AIAnalyzer {
    var provider: string
    var modelName: Option<string>
    var connector: Option<Connector>

    constructor(provider: string, modelName: Option<string>, env: Environment)
      ensures this.provider == provider && this.modelName == modelName
      ensures connector == SelectConnector(provider, modelName, env)
    {
      this.provider := provider;
      this.modelName := modelName;
      connector := SelectConnector(provider, modelName, env);
    }

    /** `_initialize_connector`: rebuilds the connector from the current provider and model. */
    method InitializeConnector(env: Environment)
      modifies this
      ensures provider == old(provider) && modelName == old(modelName)
      ensures connector == SelectConnector(provider, modelName, env)
    {
      connector := SelectConnector(provider, modelName, env);
    }

    /** `set_provider`. */
    method SetProvider(provider: string, modelName: Option<string>, env: Environment)
      modifies this
      ensures this.provider == provider && this.modelName == modelName
      ensures connector == SelectConnector(provider, modelName, env)
    {
      this.provider := provider;
      this.modelName := modelName;
      InitializeConnector(env);
    }

    /** `is_configured`: a connector was built and it is configured. */
    predicate IsConfigured(env: Environment)
      reads this
    {
      connector.Some? && AiConnector.IsConfigured(connector.value, env)
    }

    /**
      `analyze_document`. `requested` is the `max_tokens` handed to the
      connector, `None` when the connector is not called.
    */
    method AnalyzeDocument(content: string, keywords: seq<string>,
                           systemPrompt: string -> string, question: string -> string,
                           env: Environment, enc: Encoder, openai: OpenAIApi, ollama: OllamaApi, parse: string -> Json)
      returns (r: Record, requested: Option<nat>)
      ensures !IsConfigured(env) ==> r == map["error" := Str("Conector de IA não configurado")] && requested.None?
      ensures IsConfigured(env) ==>
        var messages := AnalysisMessages(content, keywords, systemPrompt, question);
        var tokens := CountTokens(connector.value, enc, messages);
        if tokens > MaxTokens then
          r == map["error" := Str("Documento muito longo. Número de tokens excede o limite do modelo.")] && requested.None?
        else
          && requested == Some(RequestBudget(tokens))
          && r == RecordFor(Generate(connector.value, env, enc, messages, RequestBudget(tokens), openai, ollama).reply, parse, tokens)
    {
      if !IsConfigured(env) {
        return map["error" := Str("Conector de IA não configurado")], None;
      }
      var c := connector.value;
      var messages := AnalysisMessages(content, keywords, systemPrompt, question);
      var tokens := CountTokens(c, enc, messages);
      if tokens > MaxTokens {
        return map["error" := Str("Documento muito longo. Número de tokens excede o limite do modelo.")], None;
      }
      var maxTokens := RequestBudget(tokens);
      requested := Some(maxTokens);
      var reply := Generate(c, env, enc, messages, maxTokens, openai, ollama).reply;
      r := RecordOfReply(reply, parse, tokens);
    }
  }

  /** The handling of the connector's reply in `analyze_document`. */
  method RecordOfReply(reply: Result<string, string>, parse: string -> Json, tokens: nat) returns (r: Record)
    ensures r == RecordFor(reply, parse, tokens)
  {
    if reply.Err? {
      return ErrorRecord("Erro na análise: " + reply.error, tokens);
    }
    match parse(Clean(reply.value))
    case Malformed(_) =>
      r := ErrorRecord("Erro no formato da resposta", tokens);
    case NonObject(typeError) =>
      r := ErrorRecord("Erro na análise: " + typeError, tokens);
    case Object(data) =>
      r := CompleteRecord(data, tokens);
  }

  /** The loop that adds each missing required key as "", then the token count. */
  method CompleteRecord(data: Record, tokens: nat) returns (r: Record)
    ensures r == Completed(data, tokens)
  {
    r := data;
    for i := 0 to |RequiredKeys|
      invariant forall k :: k in r <==> k in data || k in RequiredKeys[..i]
      invariant forall k :: k in r ==> r[k] == (if k in data then data[k] else Str(""))
    {
      var key := RequiredKeys[i];
      if key !in r {
        r := r[key := Str("")];
      }
    }
    assert RequiredKeys[..|RequiredKeys|] == RequiredKeys;
    FilledIsCompleted(data, r, tokens);
    r := r["tokens" := Int(tokens)];
  }

  /** A record holding the object's fields and "" for each missing required key is completed by the count. */
  lemma FilledIsCompleted(data: Record, filled: Record, tokens: nat)
    requires forall k :: k in filled <==> k in data || k in RequiredKeys
    requires forall k :: k in filled ==> filled[k] == (if k in data then data[k] else Str(""))
    ensures filled["tokens" := Int(tokens)] == Completed(data, tokens)
  {
  }

  /**
    With the OpenAI connector a prompt over 16384 tokens passes the analyzer's
    own ceiling but is refused by the connector, so the record reports the
    connector's refusal.
  */
  lemma OpenAILongPromptFails(c: Connector, env: Environment, enc: Encoder, messages: seq<Message>,
                              openai: OpenAIApi, ollama: OllamaApi, parse: string -> Json)
    requires c.OpenAIConnector? && AiConnector.IsConfigured(c, env)
    requires OpenAIPromptLimit < CountTokens(c, enc, messages) <= MaxTokens
    ensures var tokens := CountTokens(c, enc, messages);
      RecordFor(Generate(c, env, enc, messages, RequestBudget(tokens), openai, ollama).reply, parse, tokens)
        == ErrorRecord("Erro na análise: " + ("Mensagem muito longa. Tokens: " + NatToString(tokens)), tokens)
  {
    var tokens := CountTokens(c, enc, messages);
    assert tokens == OpenAITokenCount(enc, messages);
    OpenAIRefusesLongPrompt(c, env, enc, messages, RequestBudget(tokens), openai, ollama);
  }
}

=== FILE: ai_connector.dfy ===
/**
  The connectors of `src/ai_connector.py`: token counting for the OpenAI and
  the local (Ollama) backends, the request budgets each applies before
  calling its backend, their error messages, and the provider factory.

  A connector's fields are set once, when it is built, so a connector is a
  value. The tokenizer, the environment (API key, whether the OpenAI client
  could be built, whether the Ollama server answers and which models it has
  installed) and the backends' replies are given to the members that use
  them.
*/
module AiConnector {
  import opened Text
  import opened Values

  /** A chat message: its fields (role, content) in insertion order. */
  type Message = seq<(string, string)>

  /** `message.get('content', '')`. */
  function ContentOf(m: Message): (content: string)
    ensures (forall i :: 0 <= i < |m| ==> m[i].0 != "content") ==> content == ""
    ensures m != [] && m[0].0 == "content" ==> content == m[0].1
    ensures forall i :: 0 <= i < |m| && m[i].0 == "content" && (forall j :: 0 <= j < i ==> m[j].0 != "content") ==> content == m[i].1
  {
    if m == [] then "" else if m[0].0 == "content" then m[0].1 else ContentOf(m[1..])
  }

  /**
    The tokenizer: `NoEncoding` when the encoding cannot be obtained;
    otherwise the number of tokens of a string, or `None` when encoding it
    raises.
  */
  datatype Encoder = NoEncoding | Encoding(encodeLen: string -> Option<nat>)

  /** What the connectors learn from their surroundings. */
  datatype Environment = Environment(
    apiKey: Option<string>,       // OPENAI_API_KEY
    clientOk: bool,               // the OpenAI client could be imported and built
    ollamaRunning: bool,          // the Ollama server answered when the connector was built
    installedModels: seq<string>  // the Ollama model list when it is queried
  )

  datatype Connector =
    | OpenAIConnector(apiKey: Option<string>, configured: bool)
    | LocalAIConnector(modelName: string, running: bool)

  /** `OpenAIConnector.__init__`: configured when a non-empty key is set and the client was built. */
  function NewOpenAIConnector(env: Environment): (c: Connector)
    ensures c.OpenAIConnector? && c.apiKey == env.apiKey
    ensures c.configured <==> env.apiKey.Some? && env.apiKey.value != "" && env.clientOk
  {
    OpenAIConnector(env.apiKey, env.apiKey.Some? && env.apiKey.value != "" && env.clientOk)
  }

  /** `LocalAIConnector.__init__`: remembers whether the server was running. */
  function NewLocalAIConnector(modelName: string, env: Environment): (c: Connector)
    ensures c.LocalAIConnector? && c.modelName == modelName && c.running == env.ollamaRunning
  {
    LocalAIConnector(modelName, env.ollamaRunning)
  }

  /** `is_configured` of both connectors. */
  predicate IsConfigured(c: Connector, env: Environment) {
    match c
    case OpenAIConnector(apiKey, configured) => configured && apiKey.Some?
    case LocalAIConnector(modelName, running) => running && modelName in env.installedModels
  }

  /** An OpenAI connector is usable exactly when a non-empty key was set and the client was built. */
  lemma OpenAIConfiguredIff(env: Environment)
    ensures IsConfigured(NewOpenAIConnector(env), env) <==> env.apiKey.Some? && env.apiKey.value != "" && env.clientOk
  {
  }

  /** A local connector is usable exactly when the server was running at construction and the model is installed. */
  lemma LocalConfiguredIff(modelName: string, env: Environment)
    ensures IsConfigured(NewLocalAIConnector(modelName, env), env) <==> env.ollamaRunning && modelName in env.installedModels
  {
  }

  // ----- token counting

  /** Tokens of the values of one message's fields, or `None` when one fails to encode. */
  function FieldTokens(encodeLen: string -> Option<nat>, fields: Message): Option<nat> {
    if fields == [] then Some(0)
    else match (FieldTokens(encodeLen, fields[..|fields| - 1]), encodeLen(fields[|fields| - 1].1))
      case (Some(a), Some(b)) => Some(a + b)
      case _ => None
  }

  /** Four tokens per message plus the tokens of its values, or `None` when some value fails. */
  function MessagesTokens(encodeLen: string -> Option<nat>, messages: seq<Message>): Option<nat> {
    if messages == [] then Some(0)
    else match (MessagesTokens(encodeLen, messages[..|messages| - 1]), FieldTokens(encodeLen, messages[|messages| - 1]))
      case (Some(a), Some(b)) => Some(a + 4 + b)
      case _ => None
  }

  /** `OpenAIConnector.count_tokens`: two more tokens for the reply priming, or 0 when encoding fails. */
  function OpenAITokenCount(enc: Encoder, messages: seq<Message>): nat {
    match enc
    case NoEncoding => 0
    case Encoding(encodeLen) =>
      match MessagesTokens(encodeLen, messages)
      case Some(n) => n + 2
      case None => 0
  }

  lemma {:induction false} MessagesTokensLowerBound(encodeLen: string -> Option<nat>, messages: seq<Message>)
    requires MessagesTokens(encodeLen, messages).Some?
    ensures MessagesTokens(encodeLen, messages).value >= 4 * |messages|
  {
    if messages != [] {
      MessagesTokensLowerBound(encodeLen, messages[..|messages| - 1]);
    }
  }

  /**
    A successful count is at least two plus four per message, so 0 is
    returned exactly when the encoding fails.
  */
  lemma OpenAITokenCountBounds(enc: Encoder, messages: seq<Message>)
    ensures OpenAITokenCount(enc, messages) == 0 <==> enc.NoEncoding? || MessagesTokens(enc.encodeLen, messages).None?
    ensures OpenAITokenCount(enc, messages) != 0 ==> OpenAITokenCount(enc, messages) >= 2 + 4 * |messages|
  {
    if enc.Encoding? && MessagesTokens(enc.encodeLen, messages).Some? {
      MessagesTokensLowerBound(enc.encodeLen, messages);
    }
  }

  /** Counting two conversations together counts the reply priming once. */
  lemma {:induction false} MessagesTokensAppend(encodeLen: string -> Option<nat>, a: seq<Message>, b: seq<Message>)
    requires MessagesTokens(encodeLen, a).Some? && MessagesTokens(encodeLen, b).Some?
    ensures MessagesTokens(encodeLen, a + b) == Some(MessagesTokens(encodeLen, a).value + MessagesTokens(encodeLen, b).value)
    decreases |b|
  {
    if b == [] {
      assert a + b == a;
    } else {
      var b' := b[..|b| - 1];
      assert (a + b)[..|a + b| - 1] == a + b';
      assert (a + b)[|a + b| - 1] == b[|b| - 1];
      MessagesTokensAppend(encodeLen, a, b');
    }
  }

  /**
    `OpenAIConnector.count_tokens`: four per message and the tokens of every
    field value, accumulated in two nested loops, plus two; 0 when the
    encoding cannot be obtained or a value fails to encode.
  */
  method CountTokensOpenAI(enc: Encoder, messages: seq<Message>) returns (numTokens: nat)
    ensures numTokens == OpenAITokenCount(enc, messages)
  {
    if enc.NoEncoding? {
      return 0;
    }
    var encodeLen := enc.encodeLen;
    numTokens := 0;
    var i := 0;
    while i < |messages|
      invariant 0 <= i <= |messages|
      invariant MessagesTokens(encodeLen, messages[..i]) == Some(numTokens)
    {
      assert messages[..i + 1][..i] == messages[..i];
      var message := messages[i];
      var before := numTokens;
      numTokens := numTokens + 4;
      var j := 0;
      while j < |message|
        invariant 0 <= j <= |message|
        invariant FieldTokens(encodeLen, message[..j]) == Some(numTokens - before - 4)
        invariant numTokens >= before + 4
      {
        assert message[..j + 1][..j] == message[..j];
        var n := encodeLen(message[j].1);
        if n.None? {
          PrefixFailure(encodeLen, messages, i, j);
          return 0;
        }
        numTokens := numTokens + n.value;
        j := j + 1;
      }
      assert message[..|message|] == message;
      i := i + 1;
    }
    assert messages[..|messages|] == messages;
    numTokens := numTokens + 2;
  }

  /** A value that fails to encode makes the whole count fail. */
  lemma PrefixFailure(encodeLen: string -> Option<nat>, messages: seq<Message>, i: nat, j: nat)
    requires i < |messages| && j < |messages[i]|
    requires encodeLen(messages[i][j].1).None?
    ensures MessagesTokens(encodeLen, messages).None?
  {
    FieldTokensFailure(encodeLen, messages[i], j);
    MessagesTokensFailure(encodeLen, messages, i);
  }

  lemma {:induction false} FieldTokensFailure(encodeLen: string -> Option<nat>, fields: Message, j: nat)
    requires j < |fields| && encodeLen(fields[j].1).None?
    ensures FieldTokens(encodeLen, fields).None?
    decreases |fields|
  {
    if j < |fields| - 1 {
      FieldTokensFailure(encodeLen, fields[..|fields| - 1], j);
    }
  }

  lemma {:induction false} MessagesTokensFailure(encodeLen: string -> Option<nat>, messages: seq<Message>, i: nat)
    requires i < |messages| && FieldTokens(encodeLen, messages[i]).None?
    ensures MessagesTokens(encodeLen, messages).None?
    decreases |messages|
  {
    if i < |messages| - 1 {
      MessagesTokensFailure(encodeLen, messages[..|messages| - 1], i);
    }
  }

  /** Characters of content over all messages. */
  function ContentLength(messages: seq<Message>): nat {
    if messages == [] then 0 else ContentLength(messages[..|messages| - 1]) + |ContentOf(messages[|messages| - 1])|
  }

  /** `LocalAIConnector.count_tokens`: characters of content, four to a token, rounded down. */
  function LocalTokenCount(messages: seq<Message>): (n: nat)
    ensures 4 * n <= ContentLength(messages) < 4 * n + 4
  {
    ContentLength(messages) / 4
  }

  /** A message without a content field adds nothing to the local estimate. */
  lemma LocalTokenCountIgnoresContentless(messages: seq<Message>, m: Message)
    requires forall i :: 0 <= i < |m| ==> m[i].0 != "content"
    ensures LocalTokenCount(messages + [m]) == LocalTokenCount(messages)
  {
    assert (messages + [m])[..|messages|] == messages;
  }

  /** The count a connector makes of a conversation. */
  function CountTokens(c: Connector, enc: Encoder, messages: seq<Message>): nat {
    match c
    case OpenAIConnector(_, _) => OpenAITokenCount(enc, messages)
    case LocalAIConnector(_, _) => LocalTokenCount(messages)
  }

  // ----- generation

  /** Largest prompt, in tokens, the OpenAI connector sends. */
  const OpenAIPromptLimit: nat := 16384

  /** `max_tokens` is raised to twice the prompt only when that exceeds 16384. */
  function OpenAIBudget(tokens: nat, maxTokens: int): (budget: int)
    ensures 2 * tokens > OpenAIPromptLimit ==> budget == 2 * tokens
    ensures 2 * tokens <= OpenAIPromptLimit ==> budget == maxTokens
    ensures budget >= maxTokens || budget > OpenAIPromptLimit
  {
    if 2 * tokens > OpenAIPromptLimit then 2 * tokens else maxTokens
  }

  /** A prompt within the limit can still ask for a budget above 16384. */
  lemma OpenAIBudgetCanExceedLimit()
    ensures OpenAIBudget(10000, 16384) == 20000 > OpenAIPromptLimit
  {
  }

  /** The reply of the OpenAI API to a conversation and a budget: the answer, or the exception text. */
  type OpenAIApi = (seq<Message>, int) -> Result<string, string>

  /** What a generation call produced, with the budget handed to the backend if it was called. */
  datatype Generated = Generated(reply: Result<string, string>, sent: Option<int>)

  /** `OpenAIConnector.generate_response` as a value. */
  function OpenAIGenerate(c: Connector, env: Environment, enc: Encoder, messages: seq<Message>, maxTokens: int, api: OpenAIApi): (g: Generated)
    requires c.OpenAIConnector?
    ensures !IsConfigured(c, env) ==> g == Generated(Err("OpenAI não está configurada"), None)
    ensures g.sent.Some? <==> IsConfigured(c, env) && OpenAITokenCount(enc, messages) <= OpenAIPromptLimit
    ensures g.sent.Some? ==> g.sent.value == OpenAIBudget(OpenAITokenCount(enc, messages), maxTokens)
  {
    if !IsConfigured(c, env) then Generated(Err("OpenAI não está configurada"), None)
    else
      var tokens := OpenAITokenCount(enc, messages);
      if tokens > OpenAIPromptLimit then Generated(Err("Mensagem muito longa. Tokens: " + NatToString(tokens)), None)
      else
        var budget := OpenAIBudget(tokens, maxTokens);
        match api(messages, budget)
        case Ok(text) => Generated(Ok(text), Some(budget))
        case Err(e) => Generated(Err("Erro na API OpenAI: " + e), Some(budget))
  }

  /**
    `OpenAIConnector.generate_response`: refuses before any call when not
    configured or when the prompt is over 16384 tokens; otherwise raises
    `max_tokens` to twice the prompt when that exceeds 16384 and calls the API.
  */
  method GenerateOpenAI(c: Connector, env: Environment, enc: Encoder, messages: seq<Message>, maxTokens: int, api: OpenAIApi)
    returns (reply: Result<string, string>, sent: Option<int>)
    requires c.OpenAIConnector?
    ensures Generated(reply, sent) == OpenAIGenerate(c, env, enc, messages, maxTokens, api)
  {
    if !IsConfigured(c, env) {
      return Err("OpenAI não está configurada"), None;
    }
    var tokens := CountTokensOpenAI(enc, messages);
    if tokens > OpenAIPromptLimit {
      return Err("Mensagem muito longa. Tokens: " + NatToString(tokens)), None;
    }
    var budget := maxTokens;
    if tokens * 2 > OpenAIPromptLimit {
      budget := tokens * 2;
    }
    sent := Some(budget);
    match api(messages, budget)
    case Ok(text) => reply := Ok(text);
    case Err(e) => reply := Err("Erro na API OpenAI: " + e);
  }

  /** Largest `num_predict` the local connector asks for. */
  const LocalPredictLimit: int := 4096

  /** `min(max_tokens, 4096)`. */
  function NumPredict(maxTokens: int): (n: int)
    ensures n <= LocalPredictLimit && n <= maxTokens
    ensures n == maxTokens || n == LocalPredictLimit
  {
    if maxTokens < LocalPredictLimit then maxTokens else LocalPredictLimit
  }

  /**
    What the Ollama endpoint did with a request: an HTTP answer (status,
    body, and the content extracted from the body or the exception that
    extracting it raised), a timeout, or another failure with its message.
  */
  datatype LocalReply =
    | Answered(status: nat, body: string, content: Result<string, string>)
    | TimedOut
    | Failed(message: string)

  type OllamaApi = (seq<Message>, int) -> LocalReply

  /** `LocalAIConnector.generate_response` as a value. */
  function LocalGenerate(c: Connector, env: Environment, messages: seq<Message>, maxTokens: int, api: OllamaApi): (g: Generated)
    requires c.LocalAIConnector?
    ensures !IsConfigured(c, env) ==> g == Generated(Err("Modelo local '" + c.modelName + "' não está configurado"), None)
    ensures g.sent.Some? <==> IsConfigured(c, env)
    ensures g.sent.Some? ==> g.sent.value == NumPredict(maxTokens) <= LocalPredictLimit
    ensures g.reply.Ok? ==> g.sent.Some? && api(messages, g.sent.value).Answered? && api(messages, g.sent.value).status == 200
  {
    if !IsConfigured(c, env) then Generated(Err("Modelo local '" + c.modelName + "' não está configurado"), None)
    else
      var n := NumPredict(maxTokens);
      var reply := match api(messages, n)
        case Answered(status, body, content) =>
          if status != 200 then Err("Erro no modelo local: Erro na API Ollama: " + NatToString(status) + " - " + body)
          else if content.Err? then Err("Erro no modelo local: " + content.error)
          else Ok(content.value)
        case TimedOut => Err("Timeout na resposta do modelo local")
        case Failed(message) => Err("Erro no modelo local: " + message);
      Generated(reply, Some(n))
  }

  /** A connector's `generate_response`. */
  function Generate(c: Connector, env: Environment, enc: Encoder, messages: seq<Message>, maxTokens: int,
                    openai: OpenAIApi, ollama: OllamaApi): Generated {
    match c
    case OpenAIConnector(_, _) => OpenAIGenerate(c, env, enc, messages, maxTokens, openai)
    case LocalAIConnector(_, _) => LocalGenerate(c, env, messages, maxTokens, ollama)
  }

  /** A configured OpenAI connector refuses a prompt over 16384 tokens, naming the count, and calls nothing. */
  lemma OpenAIRefusesLongPrompt(c: Connector, env: Environment, enc: Encoder, messages: seq<Message>, maxTokens: int,
                                openai: OpenAIApi, ollama: OllamaApi)
    requires c.OpenAIConnector? && IsConfigured(c, env) && OpenAITokenCount(enc, messages) > OpenAIPromptLimit
    ensures var g := Generate(c, env, enc, messages, maxTokens, openai, ollama);
      g.reply == Err("Mensagem muito longa. Tokens: " + NatToString(OpenAITokenCount(enc, messages))) && g.sent.None?
  {
  }

  // ----- factory

  /** `AIConnectorFactory.create_connector`: the provider compared in lower case; a local connector needs a model name. */
  function CreateConnector(provider: string, modelName: Option<string>, env: Environment): (r: Result<Connector, string>)
    ensures r.Ok? && r.value.OpenAIConnector? <==> Lower(provider) == "openai"
    ensures r.Ok? && r.value.LocalAIConnector? <==> Lower(provider) == "local" && modelName.Some? && modelName.value != ""
    ensures r.Ok? && r.value.LocalAIConnector? ==> r.value.modelName == modelName.value
  {
    var p := Lower(provider);
    if p == "openai" then Ok(NewOpenAIConnector(env))
    else if p == "local" then
      if modelName.None? || modelName.value == "" then Err("Nome do modelo é obrigatório para conectores locais")
      else Ok(NewLocalAIConnector(modelName.value, env))
    else Err("Provedor não suportado: " + provider)
  }

  /** The factory accepts the provider in any case: "OpenAI" selects the OpenAI connector. */
  lemma CreateConnectorIgnoresCase(provider: string, env: Environment)
    requires provider == "OpenAI"
    ensures CreateConnector(provider, None, env) == Ok(NewOpenAIConnector(env))
  {
    assert Lower(provider) == "openai";
  }
}

=== FILE: config_manager.dfy ===
/**
  `ConfigManager` (`src/config_manager.py`): the default settings, the
  overlay of the `[CONFIG]` section of `config.ini` on them, the keyword
  file filter and the validation of a loaded configuration.

  The INI parser and the file system are given: a configuration file is
  absent, unreadable, or the sections it parsed to; a keyword file is
  absent, unreadable or its text; path existence is a predicate.
*/
module ConfigManager {
  import opened Text
  import opened Values

  /**
    A loaded configuration. `load_config` always returns every key of
    `default_config`, so each key is a field.
  */
  datatype Config = Config(
    keywordsList: string, pdfDir: string, outputPath: string,
    aiProvider: string, aiModel: string,
    verbose: bool, keepMarkdown: bool)

  /** `default_config`. */
  const Defaults: Config := Config("keywords.txt", "files/", "files/", "openai", "gpt-4o", true, false)

  /**
    The options of one INI section as `section.get` sees them: the
    `[DEFAULT]` options merged in, each value already interpolated, or
    `None` when its interpolation raises (a bare '%' in the value, say).
    `parser.read` accepts such a value; only reading it fails.
  */
  type Section = map<string, Option<string>>

  datatype ConfigFile = Absent | Unreadable(error: string) | Parsed(sections: map<string, Section>)

  /** The `[CONFIG]` section, when the file exists, parses and has one. */
  function ConfigSection(file: ConfigFile): Option<Section> {
    if file.Parsed? && "CONFIG" in file.sections then Some(file.sections["CONFIG"]) else None
  }

  /** `section.get(key, default)`: the default when the option is absent, `None` when reading it raises. */
  function SectionGet(section: Section, key: string, default: string): (v: Option<string>)
    ensures key !in section ==> v == Some(default)
    ensures key in section ==> v == section[key]
  {
    if key in section then section[key] else Some(default)
  }

  /** The options `load_config` reads, in the order it reads them. */
  const ConfigKeys: seq<string> := ["keywords_list", "pdf_dir", "output_path", "ai_provider", "ai_model", "verbose", "keep_markdown"]

  /** Reading `key` raises: the option is there and its value does not interpolate. */
  predicate GetRaises(section: Section, key: string) {
    key in section && section[key].None?
  }

  /** How many of the options from the `from`-th on are read before one raises. */
  function ReadsFrom(section: Section, from: nat): (n: nat)
    requires from <= |ConfigKeys|
    ensures from <= n <= |ConfigKeys|
    ensures forall k :: from <= k < n ==> !GetRaises(section, ConfigKeys[k])
    ensures n < |ConfigKeys| ==> GetRaises(section, ConfigKeys[n])
    decreases |ConfigKeys| - from
  {
    if from == |ConfigKeys| || GetRaises(section, ConfigKeys[from]) then from else ReadsFrom(section, from + 1)
  }

  /** How many options `load_config` overwrites before the first `get` that raises: all seven when none does. */
  function ReadCount(section: Section): (n: nat)
    ensures n <= |ConfigKeys|
    ensures forall k :: 0 <= k < n ==> !GetRaises(section, ConfigKeys[k])
    ensures n < |ConfigKeys| ==> GetRaises(section, ConfigKeys[n])
  {
    ReadsFrom(section, 0)
  }

  /** The entry for the `index`-th option: its value when it was read and is present, the default otherwise. */
  function Overlaid(section: Section, index: nat, default: string): (v: string)
    requires index < |ConfigKeys|
    ensures index < ReadCount(section) && ConfigKeys[index] in section ==> Some(v) == section[ConfigKeys[index]]
    ensures index >= ReadCount(section) || ConfigKeys[index] !in section ==> v == default
  {
    if index < ReadCount(section) then SectionGet(section, ConfigKeys[index], default).value else default
  }

  /** A flag is on when its lower-cased text is "1" or "true". */
  predicate IsOn(text: string) {
    Lower(text) == "1" || Lower(text) == "true"
  }

  lemma TrueIsOn(text: string)
    requires text == "true"
    ensures IsOn(text)
  {
    assert Lower(text) == "true" by {
      assert Lower(text)[0] == 't' && Lower(text)[1] == 'r' && Lower(text)[2] == 'u' && Lower(text)[3] == 'e';
    }
  }

  lemma FalseIsOff(text: string)
    requires text == "false"
    ensures !IsOn(text)
  {
    assert Lower(text)[0] == 'f';
  }

  /**
    The configuration `load_config` returns for a file: the defaults, with the
    options of `[CONFIG]` overwriting them in order until a `get` raises; the
    caught exception leaves the entries overwritten so far.
  */
  function ConfigFor(file: ConfigFile): (config: Config)
    ensures ConfigSection(file).None? ==> config == Defaults
    ensures ConfigSection(file).Some? ==> var section := ConfigSection(file).value;
      && config.keywordsList == Overlaid(section, 0, Defaults.keywordsList)
      && config.pdfDir == Overlaid(section, 1, Defaults.pdfDir)
      && config.outputPath == Overlaid(section, 2, Defaults.outputPath)
      && config.aiProvider == Overlaid(section, 3, Defaults.aiProvider)
      && config.aiModel == Overlaid(section, 4, Defaults.aiModel)
      && config.verbose == (if 5 < ReadCount(section) then IsOn(Overlaid(section, 5, "true")) else Defaults.verbose)
      && config.keepMarkdown == (if 6 < ReadCount(section) then IsOn(Overlaid(section, 6, "false")) else Defaults.keepMarkdown)
  {
    match ConfigSection(file)
    case None => Defaults
    case Some(section) =>
      TrueIsOn("true");
      FalseIsOff("false");
      var n := ReadCount(section);
      Config(
        Overlaid(section, 0, "keywords.txt"),
        Overlaid(section, 1, "files/"),
        Overlaid(section, 2, "files/"),
        Overlaid(section, 3, "openai"),
        Overlaid(section, 4, "gpt-4o"),
        if 5 < n then IsOn(Overlaid(section, 5, "true")) else true,
        if 6 < n then IsOn(Overlaid(section, 6, "false")) else false)
  }

  /** When no option of the section raises, each present option replaces its default and each missing one keeps it. */
  lemma FullOverlay(file: ConfigFile)
    requires ConfigSection(file).Some?
    requires forall key :: key in ConfigSection(file).value ==> ConfigSection(file).value[key].Some?
    ensures var section := ConfigSection(file).value; var config := ConfigFor(file);
      && ReadCount(section) == |ConfigKeys|
      && (if "pdf_dir" in section then config.pdfDir == section["pdf_dir"].value else config.pdfDir == Defaults.pdfDir)
      && (if "keywords_list" in section then config.keywordsList == section["keywords_list"].value else config.keywordsList == Defaults.keywordsList)
      && (if "output_path" in section then config.outputPath == section["output_path"].value else config.outputPath == Defaults.outputPath)
      && (if "ai_provider" in section then config.aiProvider == section["ai_provider"].value else config.aiProvider == Defaults.aiProvider)
      && (if "ai_model" in section then config.aiModel == section["ai_model"].value else config.aiModel == Defaults.aiModel)
      && (if "verbose" in section then config.verbose == IsOn(section["verbose"].value) else config.verbose == Defaults.verbose)
      && (if "keep_markdown" in section then config.keepMarkdown == IsOn(section["keep_markdown"].value) else config.keepMarkdown == Defaults.keepMarkdown)
  {
  }

  /**
    An `output_path` whose value does not interpolate stops the overlay there:
    the keyword file already read is kept, the model given after it is not.
  */
  lemma BadOutputPathKeepsEarlier(file: ConfigFile)
    requires ConfigSection(file) == Some(map["keywords_list" := Some("k.txt"), "output_path" := None, "ai_model" := Some("m")])
    ensures ConfigFor(file) == Defaults.(keywordsList := "k.txt")
  {
    var section := ConfigSection(file).value;
    assert !GetRaises(section, ConfigKeys[0]) && !GetRaises(section, ConfigKeys[1]) && GetRaises(section, ConfigKeys[2]);
    assert ReadCount(section) == 2;
  }

  /** `load_config`: copy the defaults, then overwrite each entry from the section; a raising `get` ends the overlay. */
  method LoadConfig(file: ConfigFile) returns (config: Config)
    ensures config == ConfigFor(file)
  {
    config := Defaults;
    if ConfigSection(file).None? {
      return;
    }
    var section := ConfigSection(file).value;
    ghost var n := ReadCount(section);
    var v := SectionGet(section, "keywords_list", "keywords.txt");
    if v.None? {
      return;
    }
    config := config.(keywordsList := v.value);
    v := SectionGet(section, "pdf_dir", "files/");
    if v.None? {
      return;
    }
    config := config.(pdfDir := v.value);
    v := SectionGet(section, "output_path", "files/");
    if v.None? {
      return;
    }
    config := config.(outputPath := v.value);
    v := SectionGet(section, "ai_provider", "openai");
    if v.None? {
      return;
    }
    config := config.(aiProvider := v.value);
    v := SectionGet(section, "ai_model", "gpt-4o");
    if v.None? {
      return;
    }
    config := config.(aiModel := v.value);
    v := SectionGet(section, "verbose", "true");
    if v.None? {
      return;
    }
    config := config.(verbose := IsOn(v.value));
    v := SectionGet(section, "keep_markdown", "false");
    if v.None? {
      return;
    }
    config := config.(keepMarkdown := IsOn(v.value));
  }

  /** An empty `[CONFIG]` section leaves every default in place. */
  lemma EmptySectionKeepsDefaults(file: ConfigFile)
    requires ConfigSection(file) == Some(map[])
    ensures ConfigFor(file) == Defaults
  {
  }

  /** A flag spelled "TRUE" is on; "yes" is not. */
  lemma FlagSpellings(upper: string, yes: string)
    requires upper == "TRUE" && yes == "yes"
    ensures IsOn(upper) && !IsOn(yes)
  {
    assert Lower(upper) == "true" by {
      assert Lower(upper)[0] == 't' && Lower(upper)[1] == 'r' && Lower(upper)[2] == 'u' && Lower(upper)[3] == 'e';
    }
    assert Lower(yes)[0] == 'y';
  }

  /** The `[CONFIG]` section `create_default_config` writes. */
  const CreatedSection: Section := map[
    "keywords_list" := Some("keywords.txt"),
    "pdf_dir" := Some("files/"),
    "output_path" := Some("files/"),
    "ai_provider" := Some("local"),
    "ai_model" := Some("gemma3:4b"),
    "verbose" := Some("false"),
    "keep_markdown" := Some("false")]

  /** Loading the file `create_default_config` writes selects the local model "gemma3:4b" with both flags off. */
  lemma CreatedConfigLoads(file: ConfigFile)
    requires ConfigSection(file) == Some(CreatedSection)
    ensures ConfigFor(file) == Config("keywords.txt", "files/", "files/", "local", "gemma3:4b", false, false)
  {
    FullOverlay(file);
    FalseIsOff(CreatedSection["verbose"].value);
  }

  // ----- keyword file

  datatype TextFile = Missing | Undecodable(error: string) | Contents(text: string)

  /** A keyword line is kept when it is not blank and does not start with '#'. */
  predicate KeptLine(line: string) {
    Strip(line) != "" && !StartsWith(line, "#")
  }

  /** The list comprehension over the lines of the keyword file. */
  function KeywordLines(lines: seq<string>): (keywords: seq<string>)
    ensures |keywords| <= |lines|
    ensures forall i :: 0 <= i < |keywords| ==> keywords[i] != "" && IsStripped(keywords[i])
  {
    if lines == [] then []
    else (if KeptLine(lines[0]) then [Strip(lines[0])] else []) + KeywordLines(lines[1..])
  }

  /** A keyword is listed exactly when some kept line strips to it. */
  lemma {:induction false} KeywordLinesMembership(lines: seq<string>, k: string)
    ensures k in KeywordLines(lines) <==> exists i :: 0 <= i < |lines| && KeptLine(lines[i]) && Strip(lines[i]) == k
  {
    if lines != [] {
      KeywordLinesMembership(lines[1..], k);
      if exists i :: 1 <= i < |lines| && KeptLine(lines[i]) && Strip(lines[i]) == k {
        var i :| 1 <= i < |lines| && KeptLine(lines[i]) && Strip(lines[i]) == k;
        assert lines[1..][i - 1] == lines[i];
      }
    }
  }

  /** `load_keywords`: the kept lines, stripped; nothing for a missing or unreadable file. */
  function LoadKeywords(file: TextFile): (keywords: seq<string>)
    ensures !file.Contents? ==> keywords == []
    ensures file.Contents? ==> keywords == KeywordLines(Lines(file.text))
  {
    match file
    case Contents(text) => KeywordLines(Lines(text))
    case _ => []
  }

  /** The filter looks at the raw line: an indented comment marker is kept, stripped. */
  lemma IndentedHashKept(line: string)
    requires line == " #x"
    ensures KeptLine(line) && Strip(line) == "#x"
  {
    assert line == " " + "#x" + "";
    StripPadded(" ", "#x", "");
  }

  // ----- validation

  /** `validate_config`: the early-return checks, in order. */
  function ValidateConfig(config: Config, pathExists: string -> bool): (ok: bool)
    ensures ok ==> config.pdfDir != "" && pathExists(config.pdfDir)
    ensures ok ==> config.keywordsList != "" && pathExists(config.keywordsList)
    ensures ok ==> config.aiProvider == "openai" || config.aiProvider == "local"
    ensures ok && config.aiProvider == "local" ==> config.aiModel != ""
  {
    if config.pdfDir == "" then false
    else if !pathExists(config.pdfDir) then false
    else if config.keywordsList == "" then false
    else if !pathExists(config.keywordsList) then false
    else if config.aiProvider != "openai" && config.aiProvider != "local" then false
    else if config.aiProvider == "local" && config.aiModel == "" then false
    else true
  }

  /** Passing every check makes a configuration valid: the checks are all there is. */
  lemma ValidateConfigComplete(config: Config, pathExists: string -> bool)
    requires config.pdfDir != "" && pathExists(config.pdfDir)
    requires config.keywordsList != "" && pathExists(config.keywordsList)
    requires config.aiProvider == "openai" || (config.aiProvider == "local" && config.aiModel != "")
    ensures ValidateConfig(config, pathExists)
  {
  }

  /** A provider other than the two exact names is refused, whatever its case. */
  lemma CapitalisedProviderInvalid(file: ConfigFile, pathExists: string -> bool)
    requires ConfigSection(file).Some? && "ai_provider" in ConfigSection(file).value
    requires ConfigSection(file).value["ai_provider"] == Some("OpenAI") && ReadCount(ConfigSection(file).value) > 3
    ensures !ValidateConfig(ConfigFor(file), pathExists)
  {
  }

  /** The defaults are valid exactly when their directory and keyword file exist. */
  lemma DefaultsValidIff(pathExists: string -> bool)
    ensures ValidateConfig(Defaults, pathExists) <==> pathExists("files/") && pathExists("keywords.txt")
  {
  }
}

=== FILE: csv_processor.dfy ===
/**
  The result-matrix transformations of `CSVProcessor` (`src/csv_processor.py`):
  wrapping keyword cells in "..." markers, removing the first summary column,
  the order in which `save_results` applies the two, unique output names and
  column validation.

  A result matrix is a list of rows of cells; its first row is the header.
  The processor keeps no state, so its operations are module-level members.
*/
module CsvProcessor {
  import opened Text
  import opened Values
  import KeywordPdf

  type Matrix = seq<seq<string>>

  // ----- _process_results_with_context

  /** A cell gets markers when it is non-empty and not the text "None". */
  predicate Markable(v: string) {
    v != "" && v != "None"
  }

  /** A keyword cell after context wrapping. */
  function ContextCell(v: string): (c: string)
    ensures Markable(v) ==> c == "..." + v + "..."
    ensures !Markable(v) ==> c == v
    ensures Markable(c) == Markable(v)
  {
    if Markable(v) then "..." + v + "..." else v
  }

  /** Recovers a cell from its wrapped form: unmarked cells are "" and "None", marked ones lose three dots each side. */
  function Unwrap(c: string): string {
    if Markable(c) && |c| >= 6 then c[3..|c| - 3] else c
  }

  /** Wrapping loses nothing: the original cell is recovered from the wrapped one. */
  lemma UnwrapContextCell(v: string)
    ensures Unwrap(ContextCell(v)) == v
  {
    if Markable(v) {
      var c := "..." + v + "...";
      assert c[3..|c| - 3] == v;
    }
  }

  /** One data row after wrapping: the first three cells as they are, the keyword cells wrapped. */
  function ContextRow(row: seq<string>): (r: seq<string>)
    ensures |r| == |row|
    ensures forall i :: 0 <= i < |row| ==> r[i] == (if i < 3 then row[i] else ContextCell(row[i]))
  {
    seq(|row|, i requires 0 <= i < |row| => if i < 3 then row[i] else ContextCell(row[i]))
  }

  /** `_process_results_with_context` as a value: the header kept, every data row wrapped. */
  function WithContext(results: Matrix): (processed: Matrix)
    ensures |processed| == |results|
    ensures |results| < 2 ==> processed == results
    ensures |results| > 0 ==> processed[0] == results[0]
    ensures forall r :: 1 <= r < |results| ==> processed[r] == ContextRow(results[r])
  {
    if |results| < 2 then results
    else [results[0]] + seq(|results| - 1, r requires 0 <= r < |results| - 1 => ContextRow(results[r + 1]))
  }

  /** A wrapped row determines the row it came from. */
  lemma ContextRowInjective(a: seq<string>, b: seq<string>)
    requires ContextRow(a) == ContextRow(b)
    ensures a == b
  {
    forall i | 0 <= i < |a| ensures a[i] == b[i] {
      if i >= 3 {
        UnwrapContextCell(a[i]);
        UnwrapContextCell(b[i]);
      }
    }
  }

  /** No two matrices wrap to the same matrix: the wrapping can be undone cell by cell. */
  lemma WithContextInjective(a: Matrix, b: Matrix)
    requires WithContext(a) == WithContext(b)
    ensures a == b
  {
    if |a| >= 2 {
      assert |b| == |a|;
      forall r | 1 <= r < |a| ensures a[r] == b[r] {
        ContextRowInjective(a[r], b[r]);
      }
    }
  }

  /**
    `_process_results_with_context`: copies each data row and wraps its
    keyword cells; `contextChars` is accepted and has no effect.
  */
  method ProcessResultsWithContext(results: Matrix, contextChars: int) returns (processed: Matrix)
    ensures processed == WithContext(results)
  {
    if |results| < 2 {
      return results;
    }
    processed := [results[0]];
    var r := 1;
    while r < |results|
      invariant 1 <= r <= |results|
      invariant |processed| == r && processed[0] == results[0]
      invariant forall k :: 1 <= k < r ==> processed[k] == ContextRow(results[k])
    {
      var row := results[r];
      var i := 3;
      while i < |row|
        invariant 3 <= i || |row| <= i
        invariant |row| == |results[r]|
        invariant forall j :: 0 <= j < |row| ==>
          row[j] == (if 3 <= j < i then ContextCell(results[r][j]) else results[r][j])
      {
        if row[i] != "" && row[i] != "None" {
          row := row[i := "..." + row[i] + "..."];
        }
        i := i + 1;
      }
      assert row == ContextRow(results[r]);
      processed := processed + [row];
      r := r + 1;
    }
  }

  // ----- _remove_summary_column

  /** Header names the processor treats as the summary column, compared in lower case. */
  predicate IsSummaryName(column: string) {
    var c := Lower(column);
    c == "resumo" || c == "summary" || c == "resume"
  }

  /** A column whose first letter, lowered, is neither 'r' nor 's' is not a summary column. */
  lemma NotSummaryName(column: string)
    requires column != [] && LowerChar(column[0]) != 'r' && LowerChar(column[0]) != 's'
    ensures !IsSummaryName(column)
  {
    assert Lower(column)[0] == LowerChar(column[0]);
  }

  lemma ResumoIsSummaryName(column: string)
    requires column == "resumo"
    ensures IsSummaryName(column)
  {
    assert Lower(column) == "resumo";
  }

  /** Index of the first summary-named header cell. */
  function SummaryIndex(header: seq<string>): (k: Option<nat>)
    ensures k.Some? ==> k.value < |header| && IsSummaryName(header[k.value])
    ensures k.Some? ==> forall j :: 0 <= j < k.value ==> !IsSummaryName(header[j])
    ensures k.None? <==> forall j :: 0 <= j < |header| ==> !IsSummaryName(header[j])
  {
    if header == [] then None
    else if IsSummaryName(header[0]) then Some(0)
    else match SummaryIndex(header[1..])
      case None => None
      case Some(k) => Some(k + 1)
  }

  /** `row[:k] + row[k + 1:]`: a row shorter than `k + 1` is kept whole. */
  function DropAt(row: seq<string>, k: nat): (r: seq<string>)
    ensures k < |row| ==> |r| == |row| - 1
    ensures k >= |row| ==> r == row
    ensures forall j :: 0 <= j < |r| ==> r[j] == (if j < k then row[j] else row[j + 1])
  {
    if k < |row| then row[..k] + row[k + 1..] else row
  }

  /** Putting the dropped cell back restores the row. */
  lemma DropAtRestore(row: seq<string>, k: nat)
    requires k < |row|
    ensures DropAt(row, k)[..k] + [row[k]] + DropAt(row, k)[k..] == row
  {
    var r := DropAt(row, k);
    assert r[..k] == row[..k];
    assert r[k..] == row[k + 1..];
    assert row == row[..k] + [row[k]] + row[k + 1..];
  }

  /** `_remove_summary_column` as a value. */
  function WithoutSummary(results: Matrix): (processed: Matrix)
    ensures |processed| == |results|
  {
    if results == [] then results
    else match SummaryIndex(results[0])
      case None => results
      case Some(k) => seq(|results|, r requires 0 <= r < |results| => DropAt(results[r], k))
  }

  /**
    The first summary column is removed from every row that reaches it; the
    header loses exactly that column; with no summary column nothing changes.
  */
  lemma WithoutSummaryShape(results: Matrix)
    requires results != []
    ensures SummaryIndex(results[0]).None? ==> WithoutSummary(results) == results
    ensures SummaryIndex(results[0]).Some? ==>
      var k := SummaryIndex(results[0]).value;
      && |WithoutSummary(results)[0]| == |results[0]| - 1
      && WithoutSummary(results)[0][..k] == results[0][..k]
      && forall r :: 0 <= r < |results| ==> WithoutSummary(results)[r] == DropAt(results[r], k)
  {
  }

  /**
    `_remove_summary_column`: scans the header for the first summary name,
    stopping there, and rebuilds every row without that index.
  */
  method RemoveSummaryColumn(results: Matrix) returns (processed: Matrix)
    ensures processed == WithoutSummary(results)
  {
    if results == [] {
      return results;
    }
    var header := results[0];
    var summaryIndex: Option<nat> := None;
    var i := 0;
    while i < |header|
      invariant 0 <= i <= |header|
      invariant summaryIndex.None? ==> forall j :: 0 <= j < i ==> !IsSummaryName(header[j])
      invariant summaryIndex.Some? ==> summaryIndex == SummaryIndex(header)
      decreases if summaryIndex.Some? then 0 else |header| - i
    {
      if IsSummaryName(header[i]) {
        summaryIndex := Some(i);
        SummaryIndexFirst(header, i);
        break;
      }
      i := i + 1;
    }
    if summaryIndex.None? {
      return results;
    }
    var k := summaryIndex.value;
    processed := [];
    var r := 0;
    while r < |results|
      invariant 0 <= r <= |results|
      invariant |processed| == r
      invariant forall q :: 0 <= q < r ==> processed[q] == DropAt(results[q], k)
    {
      var row := results[r];
      processed := processed + [if k < |row| then row[..k] + row[k + 1..] else row];
      r := r + 1;
    }
  }

  /** The first summary name found by a scan from the left is `SummaryIndex`. */
  lemma {:induction false} SummaryIndexFirst(header: seq<string>, i: nat)
    requires i < |header| && IsSummaryName(header[i])
    requires forall j :: 0 <= j < i ==> !IsSummaryName(header[j])
    ensures SummaryIndex(header) == Some(i)
  {
    if i > 0 {
      SummaryIndexFirst(header[1..], i - 1);
    }
  }

  // ----- save_results

  /** The rows `save_results` writes: one empty row for no results, else wrapped, then without the summary column when asked. */
  function SavedRows(results: Matrix, includeSummary: bool): (written: Matrix)
    ensures results == [] ==> written == [[]]
    ensures results != [] && includeSummary ==> written == WithContext(results)
    ensures results != [] && !includeSummary ==> written == WithoutSummary(WithContext(results))
  {
    if results == [] then [[]]
    else
      var processed := WithContext(results);
      if !includeSummary && |processed| > 0 then WithoutSummary(processed) else processed
  }

  /** `save_results` up to the CSV writer: the rows it hands to `writerows`. */
  method SaveResults(results: Matrix, includeSummary: bool, contextChars: int) returns (written: Matrix)
    ensures written == SavedRows(results, includeSummary)
  {
    if results == [] {
      return [[]];
    }
    var processed := ProcessResultsWithContext(results, contextChars);
    if !includeSummary && |processed| > 0 {
      processed := RemoveSummaryColumn(processed);
    }
    written := processed;
  }

  /** A header whose fourth name is "resumo", after three other names, has its summary column at index 3. */
  lemma SummaryAtFourth(header: seq<string>)
    requires |header| >= 4 && header[3] == "resumo"
    requires !IsSummaryName(header[0]) && !IsSummaryName(header[1]) && !IsSummaryName(header[2])
    ensures SummaryIndex(header) == Some(3)
  {
    ResumoIsSummaryName(header[3]);
    SummaryIndexFirst(header, 3);
  }

  /** The example data row after wrapping. */
  lemma ExampleContextRow(row: seq<string>)
    requires row == ["a.pdf", "A", "20200101", "summary", "match"]
    ensures ContextRow(row) == ["a.pdf", "A", "20200101", "...summary...", "...match..."]
  {
    var c := ContextRow(row);
    assert |c| == 5 && c[0] == row[0] && c[1] == row[1] && c[2] == row[2];
    assert Markable(row[3]) && Markable(row[4]);
    assert c[3] == "..." + row[3] + "..." && c[4] == "..." + row[4] + "...";
    assert c[3] == "...summary..." && c[4] == "...match...";
    assert c == [c[0], c[1], c[2], c[3], c[4]];
  }

  /**
    A header and one data row with the summary column fourth, saved without
    the summary: that column is gone from both and the keyword cell is wrapped.
  */
  lemma SavedRowsWithoutSummary(header: seq<string>, row: seq<string>)
    requires |header| == 5 && |row| == 5 && header[3] == "resumo"
    requires !IsSummaryName(header[0]) && !IsSummaryName(header[1]) && !IsSummaryName(header[2])
    ensures SavedRows([header, row], false) == [[header[0], header[1], header[2], header[4]],
                                               [row[0], row[1], row[2], ContextCell(row[4])]]
  {
    SummaryAtFourth(header);
    var wrapped := ContextRow(row);
    assert WithContext([header, row]) == [header, wrapped];
    assert SavedRows([header, row], false) == [DropAt(header, 3), DropAt(wrapped, 3)];
    DropFourth(header);
    DropFourth(wrapped);
  }

  /** Dropping index 3 of a five-cell row keeps the other four in order. */
  lemma DropFourth(row: seq<string>)
    requires |row| == 5
    ensures DropAt(row, 3) == [row[0], row[1], row[2], row[4]]
  {
  }

  /**
    Wrapping before removing gives the same rows as removing before wrapping
    whenever the summary column is a keyword column (index 3 or later).
  */
  lemma ContextThenRemoveCommutes(results: Matrix)
    requires |results| >= 2
    requires SummaryIndex(results[0]).Some? && SummaryIndex(results[0]).value >= 3
    ensures WithoutSummary(WithContext(results)) == WithContext(WithoutSummary(results))
  {
    var k := SummaryIndex(results[0]).value;
    var left, right := WithoutSummary(WithContext(results)), WithContext(WithoutSummary(results));
    assert WithContext(results)[0] == results[0];
    assert WithoutSummary(results)[0] == DropAt(results[0], k);
    forall r | 0 <= r < |results| ensures left[r] == right[r] {
      if r > 0 {
        var row := results[r];
        assert left[r] == DropAt(ContextRow(row), k);
        assert right[r] == ContextRow(DropAt(row, k));
        DropAtContextRow(row, k);
      }
    }
  }

  /** Past the three fixed cells, dropping a cell and wrapping the others commute. */
  lemma DropAtContextRow(row: seq<string>, k: nat)
    requires k >= 3
    ensures DropAt(ContextRow(row), k) == ContextRow(DropAt(row, k))
  {
    var left, right := DropAt(ContextRow(row), k), ContextRow(DropAt(row, k));
    assert |left| == |right|;
    forall j | 0 <= j < |left| ensures left[j] == right[j] {
    }
  }

  /**
    The order matters when the summary column comes before the keyword
    columns: a markable cell at index 3 moves to index 2, where the wrapping
    does not reach it, so `save_results`' order is not interchangeable.
  */
  lemma RemoveThenContextDiffers(results: Matrix)
    requires |results| >= 2
    requires SummaryIndex(results[0]).Some? && SummaryIndex(results[0]).value < 3
    requires |results[1]| > 3 && Markable(results[1][3])
    ensures WithoutSummary(WithContext(results)) != WithContext(WithoutSummary(results))
  {
    var k := SummaryIndex(results[0]).value;
    var row := results[1];
    var left := WithoutSummary(WithContext(results));
    var right := WithContext(WithoutSummary(results));
    assert left[1] == DropAt(ContextRow(row), k);
    assert left[1][2] == ContextCell(row[3]);
    assert WithoutSummary(results)[1] == DropAt(row, k);
    assert right[1][2] == row[3];
    assert |left[1][2]| == |row[3]| + 6;
  }

  // ----- get_unique_filename, validate_csv_structure

  /** `get_unique_filename`: the same search as the script's, over the names in `directory`. */
  method GetUniqueFilename(files: set<string>, baseFilename: string) returns (name: string)
    ensures name !in files
    ensures baseFilename !in files ==> name == baseFilename
    ensures baseFilename in files ==>
      exists k :: 1 <= k <= |files| && name == KeywordPdf.Attempt(baseFilename, k) &&
        (forall j :: 1 <= j < k ==> KeywordPdf.Attempt(baseFilename, j) in files)
  {
    name := KeywordPdf.GetUniqueFilename(files, baseFilename);
  }

  /** `validate_csv_structure`: no expected column is missing from the frame's columns. */
  predicate ValidateCsvStructure(columns: seq<string>, expected: seq<string>) {
    (set c | c in expected) - (set c | c in columns) == {}
  }

  /** Validation holds exactly when every expected column is one of the frame's columns. */
  lemma ValidateCsvStructureIff(columns: seq<string>, expected: seq<string>)
    ensures ValidateCsvStructure(columns, expected) <==> forall i :: 0 <= i < |expected| ==> expected[i] in columns
  {
    var missing := (set c | c in expected) - (set c | c in columns);
    if missing != {} {
      var c :| c in missing;
      assert c !in columns;
      var i :| 0 <= i < |expected| && expected[i] == c;
    } else {
      forall i | 0 <= i < |expected| ensures expected[i] in columns {
        var e := expected[i];
        assert e in (set c | c in expected);
        assert e !in missing;
        assert e in (set c | c in columns);
      }
    }
  }
}

=== FILE: keyword_analyzer.dfy ===
/**
  `KeywordAnalyzer.run` (`keyword_analyzer.py`): validate the configuration,
  point the AI analyzer at the configured provider, read the keywords, then
  convert and analyze each PDF and hand one row per document to the CSV
  writer; exit with 1 when nothing was processed.

  The PDF list, the conversion of each PDF to Markdown and the record the
  AI analyzer returns for a document are given. The CSV writer is a
  parameter that answers, for each row and path handed to it, whether the
  call returned or raised: `CSVProcessor` defines no
  `save_single_result_with_keywords`, so as written every call raises
  (`MissingWriter`), and the loop is also modelled with a writer that
  returns.
*/
module KeywordAnalyzer {
  import opened Text
  import opened Values
  import Paths
  import opened ConfigManager
  import AiConnector
  import AiAnalyzer

  /** The columns of a row besides the keyword columns. */
  const FixedColumns: seq<string> := ["filename", "company", "date", "resumo", "tokens"]

  /** The strings of a list whose values are all strings. */
  function Strings(values: seq<Value>): (strs: seq<string>)
    requires forall i :: 0 <= i < |values| ==> values[i].Str?
    ensures |strs| == |values| && forall i :: 0 <= i < |values| ==> strs[i] == values[i].s
  {
    seq(|values|, i requires 0 <= i < |values| => values[i].s)
  }

  /**
    A keyword's cell: its sentences joined by " | " when the result holds a
    non-empty list for it, "" when the list is empty or the value is no
    list; `None` when `' | '.join` raises `TypeError` on a list holding a
    value that is not a string.
  */
  function KeywordCell(result: Record, keyword: string): (cell: Option<Value>)
    ensures cell.Some? ==> cell.value.Str?
  {
    if keyword !in result then Some(Str(""))
    else
      match result[keyword]
      case StrList(items) => Some(Str(if items != [] then Join(" | ", items) else ""))
      case List(values) =>
        if values == [] then Some(Str(""))
        else if forall i :: 0 <= i < |values| ==> values[i].Str? then Some(Str(Join(" | ", Strings(values))))
        else None
      case _ => Some(Str(""))
  }

  /** Building `row_data` raises: the list of some keyword holds a value that is not a string. */
  predicate RowRaises(result: Record, keywords: seq<string>) {
    exists i :: 0 <= i < |keywords| && KeywordCell(result, keywords[i]).None?
  }

  /** A list of strings is joined the same whichever of the two list values holds it. */
  lemma ListOfStringsJoins(result: Record, keyword: string, strs: seq<string>)
    ensures var values := seq(|strs|, i requires 0 <= i < |strs| => Str(strs[i]));
      KeywordCell(result[keyword := List(values)], keyword) == KeywordCell(result[keyword := StrList(strs)], keyword)
  {
    var values := seq(|strs|, i requires 0 <= i < |strs| => Str(strs[i]));
    if values != [] {
      assert Strings(values) == strs;
    }
  }

  /** A number among a keyword's sentences makes building the row raise. */
  lemma NumberInListRaises(result: Record, keyword: string, keywords: seq<string>)
    requires keyword in keywords
    requires keyword in result && result[keyword] == List([Str("a"), Int(3)])
    ensures RowRaises(result, keywords)
  {
    var i :| 0 <= i < |keywords| && keywords[i] == keyword;
    assert !List([Str("a"), Int(3)]).values[1].Str?;
  }

  /** `row_data` of a processed document, as a dictionary's final contents. */
  function RowData(filename: string, result: Record, keywords: seq<string>): (row: Record)
    ensures row.Keys == {"filename", "company", "date", "resumo", "tokens"} + set k | k in keywords
  {
    map k | k in {"filename", "company", "date", "resumo", "tokens"} + (set k | k in keywords) :: Cell(filename, result, keywords, k)
  }

  /**
    The cell under column `k` once the keywords `done` have been filled in
    (a keyword whose join raises has no cell: its row is never handed over).
  */
  function Cell(filename: string, result: Record, done: seq<string>, k: string): Value {
    if k in done then (if KeywordCell(result, k).Some? then KeywordCell(result, k).value else Str(""))
    else if k == "filename" then Str(filename)
    else Get(result, k, Str(""))
  }

  /** The row written when processing a document raised. */
  function ErrorRow(filename: string, keywords: seq<string>): (row: Record)
    ensures row.Keys == {"filename", "company", "date", "resumo"} + set k | k in keywords
  {
    map k | k in {"filename", "company", "date", "resumo"} + (set k | k in keywords) ::
      if k == "filename" && k !in keywords then Str(filename) else Str("")
  }

  /** The dictionary literal, then one cell per keyword, until a join raises. */
  method BuildRow(filename: string, result: Record, keywords: seq<string>) returns (row: Option<Record>)
    ensures row.None? <==> RowRaises(result, keywords)
    ensures row.Some? ==> row.value == RowData(filename, result, keywords)
  {
    var data := FixedCells(filename, result);
    for i := 0 to |keywords|
      invariant FilledUpTo(data, filename, result, keywords[..i])
      invariant !RowRaises(result, keywords[..i])
    {
      assert keywords[..i + 1] == keywords[..i] + [keywords[i]];
      var filled := FillKeyword(data, filename, result, keywords[..i], keywords[i]);
      if filled.None? {
        return None;
      }
      data := filled.value;
    }
    assert keywords[..|keywords|] == keywords;
    FilledRowData(data, filename, result, keywords);
    row := Some(data);
  }

  /** Once every keyword is filled in, the row is `row_data`. */
  lemma FilledRowData(row: Record, filename: string, result: Record, keywords: seq<string>)
    requires FilledUpTo(row, filename, result, keywords)
    ensures row == RowData(filename, result, keywords)
  {
    var data := RowData(filename, result, keywords);
    assert row.Keys == data.Keys;
    assert forall k :: k in row ==> row[k] == data[k];
  }

  /** Filling in one more keyword changes its cell alone. */
  lemma CellAfter(filename: string, result: Record, done: seq<string>, keyword: string, k: string)
    ensures Cell(filename, result, done + [keyword], k)
      == if k == keyword then Cell(filename, result, [keyword], k) else Cell(filename, result, done, k)
  {
    assert k in done + [keyword] <==> k in done || k == keyword;
  }

  /** The row once the keywords `done` have been filled in. */
  ghost predicate FilledUpTo(row: Record, filename: string, result: Record, done: seq<string>) {
    && row.Keys == {"filename", "company", "date", "resumo", "tokens"} + (set k | k in done)
    && forall k :: k in row ==> row[k] == Cell(filename, result, done, k)
  }

  /** The body of the keyword loop of `row_data`: the cell of one keyword, or `None` when its join raises. */
  method FillKeyword(row: Record, filename: string, result: Record, done: seq<string>, keyword: string)
    returns (filled: Option<Record>)
    requires FilledUpTo(row, filename, result, done)
    ensures filled.None? <==> KeywordCell(result, keyword).None?
    ensures filled.Some? ==> FilledUpTo(filled.value, filename, result, done + [keyword])
  {
    var cell := Str("");
    if keyword in result && result[keyword].StrList? {
      var sentences := result[keyword].items;
      cell := if sentences != [] then Str(Join(" | ", sentences)) else Str("");
    } else if keyword in result && result[keyword].List? {
      var sentences := result[keyword].values;
      if sentences != [] {
        if !(forall i :: 0 <= i < |sentences| ==> sentences[i].Str?) {
          return None;
        }
        cell := Str(Join(" | ", Strings(sentences)));
      }
    }
    var next := row[keyword := cell];
    assert (set k | k in done + [keyword]) == (set k | k in done) + {keyword};
    forall k | k in next
      ensures next[k] == Cell(filename, result, done + [keyword], k)
    {
      CellAfter(filename, result, done, keyword, k);
    }
    filled := Some(next);
  }

  /** The dictionary literal `row_data` starts from. */
  function FixedCells(filename: string, result: Record): (row: Record)
    ensures row.Keys == {"filename", "company", "date", "resumo", "tokens"}
    ensures forall k :: k in row ==> row[k] == Cell(filename, result, [], k)
  {
    map[
      "filename" := Str(filename),
      "company" := Get(result, "company", Str("")),
      "date" := Get(result, "date", Str("")),
      "resumo" := Get(result, "resumo", Str("")),
      "tokens" := Get(result, "tokens", Str(""))]
  }

  /** The error-path dictionary literal, then an empty cell per keyword. */
  method BuildErrorRow(filename: string, keywords: seq<string>) returns (row: Record)
    ensures row == ErrorRow(filename, keywords)
  {
    row := map["filename" := Str(filename), "company" := Str(""), "date" := Str(""), "resumo" := Str("")];
    for i := 0 to |keywords|
      invariant row.Keys == {"filename", "company", "date", "resumo"} + set j | 0 <= j < i :: keywords[j]
      invariant forall k :: k in row ==> row[k] == if k == "filename" && k !in keywords[..i] then Str(filename) else Str("")
    {
      row := row[keywords[i] := Str("")];
    }
    assert keywords[..|keywords|] == keywords;
  }

  /** The error row has every cell of a processed row except `tokens`, all empty but the file name. */
  lemma ErrorRowShape(filename: string, result: Record, keywords: seq<string>)
    requires forall k :: k in keywords ==> k !in FixedColumns
    ensures ErrorRow(filename, keywords).Keys == RowData(filename, result, keywords).Keys - {"tokens"}
    ensures ErrorRow(filename, keywords)["filename"] == RowData(filename, result, keywords)["filename"] == Str(filename)
    ensures forall k :: k in ErrorRow(filename, keywords) && k != "filename" ==> ErrorRow(filename, keywords)[k] == Str("")
  {
    assert "tokens" !in keywords && "filename" !in keywords;
  }

  /** A keyword the result does not list, or lists with no sentences, gets an empty cell. */
  lemma UnlistedKeywordEmpty(filename: string, result: Record, keywords: seq<string>, k: string)
    requires k in keywords
    requires k !in result || result[k] == StrList([]) || result[k] == List([]) || !(result[k].StrList? || result[k].List?)
    ensures RowData(filename, result, keywords)[k] == Str("")
  {
  }

  /** The name of the results file in every output folder. */
  const ResultsFile: string := "resultados.csv"

  lemma ResultsFileIsAName()
    ensures '/' !in ResultsFile
  {
  }

  /** `output_path`: the output directory, the name of the PDF's folder, then "resultados.csv". */
  function OutputPath(outputDir: string, pdf: string): (path: string)
    ensures Paths.Basename(path) == ResultsFile
  {
    var folder := Paths.Join(outputDir, Paths.Basename(Paths.Dirname(pdf)));
    ResultsFileIsAName();
    Paths.BasenameOfJoin(folder, ResultsFile);
    Paths.Join(folder, ResultsFile)
  }

  /** A row handed to the CSV writer with the path it is to be written to. */
  datatype Write = Write(path: string, row: Record)

  /** The CSV writer's answer to a call: `true` when the call returns, `false` when it raises. */
  type Writer = (Record, string) -> bool

  /** The writer `run` calls as written: `CSVProcessor` has no such method, so every call raises `AttributeError`. */
  const MissingWriter: Writer := (row: Record, path: string) => false

  /** A writer that saves every row and returns. */
  const ReturningWriter: Writer := (row: Record, path: string) => true

  /**
    Where the loop of `run` stands: `processed_count`, the rows handed to the
    writer so far, the value `output_path` holds (`None` while it is
    unbound), and whether an exception has left the loop.
  */
  datatype LoopState = LoopState(processed: nat, writes: seq<Write>, path: Option<string>, raised: bool)

  /**
    The `except` block: the error row handed to the writer at the path bound
    last. With no path bound yet, naming `output_path` raises and nothing is
    handed over; a writer that raises makes the exception leave the loop.
  */
  function Recover(s: LoopState, pdf: string, keywords: seq<string>, save: Writer): LoopState {
    match s.path
    case None => LoopState(s.processed, s.writes, s.path, true)
    case Some(p) =>
      var row := ErrorRow(pdf, keywords);
      LoopState(s.processed, s.writes + [Write(p, row)], s.path, !save(row, p))
  }

  /** The conversion produced Markdown text that is not empty. */
  predicate HasText(pdf: string, convert: string -> Option<string>) {
    convert(pdf).Some? && convert(pdf).value != ""
  }

  /**
    One PDF of the loop: nothing when the conversion gave no text; otherwise
    the row built and handed over at the PDF's own path, counted when the
    writer returns; the `except` block when building the row or the writer
    raises.
  */
  function Step(s: LoopState, pdf: string, keywords: seq<string>, convert: string -> Option<string>,
                resultOf: string -> Record, save: Writer, pathOf: string -> string): LoopState
  {
    if !HasText(pdf, convert) then s
    else
      var result := resultOf(convert(pdf).value);
      if RowRaises(result, keywords) then Recover(s, pdf, keywords, save)
      else
        var path := pathOf(pdf);
        var row := RowData(pdf, result, keywords);
        var bound := LoopState(s.processed, s.writes + [Write(path, row)], Some(path), false);
        if save(row, path) then LoopState(s.processed + 1, bound.writes, bound.path, false)
        else Recover(bound, pdf, keywords, save)
  }

  /** The loop of `run` over `pdfs`, up to the first exception that leaves it. */
  function Loop(pdfs: seq<string>, keywords: seq<string>, convert: string -> Option<string>,
                resultOf: string -> Record, save: Writer, pathOf: string -> string): (s: LoopState)
    decreases |pdfs|
  {
    if pdfs == [] then LoopState(0, [], None, false)
    else
      var s := Loop(pdfs[..|pdfs| - 1], keywords, convert, resultOf, save, pathOf);
      if s.raised then s else Step(s, pdfs[|pdfs| - 1], keywords, convert, resultOf, save, pathOf)
  }

  /** The exit status once the loop is over: 1 when an exception left it (`main` exits 1) or nothing was processed. */
  function ExitCode(s: LoopState): (code: nat)
    ensures code == 0 <==> !s.raised && s.processed > 0
  {
    if s.raised || s.processed == 0 then 1 else 0
  }

  /** Documents with text whose row builds: those the loop reaches `output_path` for. */
  function Built(pdfs: seq<string>, keywords: seq<string>, convert: string -> Option<string>, resultOf: string -> Record): (n: nat)
    ensures n <= |pdfs|
    decreases |pdfs|
  {
    if pdfs == [] then 0
    else
      var pdf := pdfs[|pdfs| - 1];
      Built(pdfs[..|pdfs| - 1], keywords, convert, resultOf)
        + (if HasText(pdf, convert) && !RowRaises(resultOf(convert(pdf).value), keywords) then 1 else 0)
  }

  /** For every writer, `processed_count` never exceeds the documents whose row was built. */
  lemma {:induction false} LoopCountBound(pdfs: seq<string>, keywords: seq<string>, convert: string -> Option<string>,
                                          resultOf: string -> Record, save: Writer, pathOf: string -> string)
    ensures Loop(pdfs, keywords, convert, resultOf, save, pathOf).processed <= Built(pdfs, keywords, convert, resultOf)
    decreases |pdfs|
  {
    if pdfs != [] {
      LoopCountBound(pdfs[..|pdfs| - 1], keywords, convert, resultOf, save, pathOf);
    }
  }

  /**
    For every writer, every row goes to the path of one of the PDFs, and so
    does the path bound last.
  */
  lemma {:induction false} LoopWritesPdfPaths(pdfs: seq<string>, keywords: seq<string>, convert: string -> Option<string>,
                                              resultOf: string -> Record, save: Writer, pathOf: string -> string)
    ensures var s := Loop(pdfs, keywords, convert, resultOf, save, pathOf);
      && (forall w :: w in s.writes ==> exists i :: 0 <= i < |pdfs| && w.path == pathOf(pdfs[i]))
      && (s.path.Some? ==> exists i :: 0 <= i < |pdfs| && s.path.value == pathOf(pdfs[i]))
    decreases |pdfs|
  {
    if pdfs != [] {
      var init := pdfs[..|pdfs| - 1];
      LoopWritesPdfPaths(init, keywords, convert, resultOf, save, pathOf);
      assert forall i :: 0 <= i < |init| ==> init[i] == pdfs[i];
      assert pathOf(pdfs[|pdfs| - 1]) == pathOf(pdfs[|pdfs| - 1]);
    }
  }

  /** The path of each PDF in `run`: "resultados.csv" in the output folder named after the PDF's folder. */
  function OutputPaths(outputDir: string): (pathOf: string -> string)
    ensures forall pdf :: pathOf(pdf) == OutputPath(outputDir, pdf)
  {
    pdf => OutputPath(outputDir, pdf)
  }

  /** In `run`, every row goes to a "resultados.csv". */
  lemma LoopWritesResults(pdfs: seq<string>, keywords: seq<string>, convert: string -> Option<string>,
                          resultOf: string -> Record, save: Writer, outputDir: string)
    ensures forall w :: w in Loop(pdfs, keywords, convert, resultOf, save, OutputPaths(outputDir)).writes ==>
      Paths.Basename(w.path) == ResultsFile
  {
    LoopWritesPdfPaths(pdfs, keywords, convert, resultOf, save, OutputPaths(outputDir));
  }

  /**
    As written, no document is ever counted, the loop raises at the first
    document with text, and `run` exits with 1 whatever the PDFs hold.
  */
  lemma {:induction false} MissingWriterFails(pdfs: seq<string>, keywords: seq<string>, convert: string -> Option<string>,
                                              resultOf: string -> Record, pathOf: string -> string)
    ensures var s := Loop(pdfs, keywords, convert, resultOf, MissingWriter, pathOf);
      && s.processed == 0
      && (s.raised <==> exists i :: 0 <= i < |pdfs| && HasText(pdfs[i], convert))
      && ExitCode(s) == 1
    decreases |pdfs|
  {
    if pdfs != [] {
      var init := pdfs[..|pdfs| - 1];
      MissingWriterFails(init, keywords, convert, resultOf, pathOf);
      var s := Loop(init, keywords, convert, resultOf, MissingWriter, pathOf);
      if !s.raised {
        assert s.path.None? by {
          MissingWriterNoPath(init, keywords, convert, resultOf, pathOf);
        }
      }
      assert forall i :: 0 <= i < |init| ==> init[i] == pdfs[i];
      if exists i :: 0 <= i < |pdfs| && HasText(pdfs[i], convert) {
        var i :| 0 <= i < |pdfs| && HasText(pdfs[i], convert);
        if i < |init| {
          assert HasText(init[i], convert);
        }
      }
    }
  }

  /** As written, a loop that has not raised has bound no path. */
  lemma {:induction false} MissingWriterNoPath(pdfs: seq<string>, keywords: seq<string>, convert: string -> Option<string>,
                                               resultOf: string -> Record, pathOf: string -> string)
    ensures var s := Loop(pdfs, keywords, convert, resultOf, MissingWriter, pathOf);
      !s.raised ==> s.path.None? && s.writes == []
    decreases |pdfs|
  {
    if pdfs != [] {
      MissingWriterNoPath(pdfs[..|pdfs| - 1], keywords, convert, resultOf, pathOf);
    }
  }

  /**
    With a writer that returns, every document whose row builds is counted,
    and the loop raises only when a row fails to build before any row was
    built, when no path is bound for its error row; `run` then exits with 0
    exactly when some row was built and the loop did not raise.
  */
  lemma {:induction false} ReturningWriterCounts(pdfs: seq<string>, keywords: seq<string>, convert: string -> Option<string>,
                                                 resultOf: string -> Record, pathOf: string -> string)
    ensures var s := Loop(pdfs, keywords, convert, resultOf, ReturningWriter, pathOf);
      && (s.path.None? <==> s.raised || Built(pdfs, keywords, convert, resultOf) == 0)
      && (s.raised ==> s.processed == 0)
      && (!s.raised ==> s.processed == Built(pdfs, keywords, convert, resultOf))
      && (ExitCode(s) == 0 <==> !s.raised && Built(pdfs, keywords, convert, resultOf) > 0)
    decreases |pdfs|
  {
    if pdfs != [] {
      ReturningWriterCounts(pdfs[..|pdfs| - 1], keywords, convert, resultOf, pathOf);
    }
  }

  /** Whether the analyzer, once pointed at the configured provider and model, is configured. */
  predicate AnalyzerReady(config: Config, env: AiConnector.Environment) {
    var c := AiAnalyzer.SelectConnector(config.aiProvider, Some(config.aiModel), env);
    c.Some? && AiConnector.IsConfigured(c.value, env)
  }

  /** Everything `run` checks before the loop passes. */
  predicate Ready(config: Config, pathExists: string -> bool, env: AiConnector.Environment,
                  pdfFiles: seq<string>, keywordsFile: TextFile) {
    && ValidateConfig(config, pathExists)
    && AnalyzerReady(config, env)
    && pdfFiles != []
    && keywordsFile.Contents?
    && KeywordLines(Lines(keywordsFile.text)) != []
  }

  /**
    `run`: the checks that exit with 1, then the loop over the PDFs, then
    exit with 1 when no document was processed. When an exception leaves
    the loop it leaves `run`, and `main` exits with 1.
  */
  method Run(config: Config, pathExists: string -> bool, analyzer: AiAnalyzer.AIAnalyzer, env: AiConnector.Environment,
             pdfFiles: seq<string>, keywordsFile: TextFile,
             convert: string -> Option<string>, resultOf: string -> Record, save: Writer)
    returns (exitCode: nat, state: LoopState)
    modifies analyzer
    ensures !Ready(config, pathExists, env, pdfFiles, keywordsFile) ==> exitCode == 1 && state == LoopState(0, [], None, false)
    ensures Ready(config, pathExists, env, pdfFiles, keywordsFile) ==>
      && state == Loop(pdfFiles, KeywordLines(Lines(keywordsFile.text)), convert, resultOf, save, OutputPaths(config.outputPath))
      && exitCode == ExitCode(state)
    ensures ValidateConfig(config, pathExists) ==>
      && analyzer.provider == config.aiProvider && analyzer.modelName == Some(config.aiModel)
      && analyzer.connector == AiAnalyzer.SelectConnector(config.aiProvider, Some(config.aiModel), env)
    ensures !ValidateConfig(config, pathExists) ==> unchanged(analyzer)
  {
    state := LoopState(0, [], None, false);
    if !ValidateConfig(config, pathExists) {
      return 1, state;
    }
    analyzer.SetProvider(config.aiProvider, Some(config.aiModel), env);
    if !analyzer.IsConfigured(env) {
      return 1, state;
    }
    if pdfFiles == [] {
      return 1, state;
    }
    if !keywordsFile.Contents? {
      return 1, state;
    }
    var keywords := KeywordLines(Lines(keywordsFile.text));
    if keywords == [] {
      return 1, state;
    }
    state := ProcessAll(pdfFiles, keywords, convert, resultOf, save, OutputPaths(config.outputPath));
    exitCode := if state.raised || state.processed == 0 then 1 else 0;
  }

  /** The loop of `run` over the PDF files, up to the document an exception leaves it at, if any. */
  method ProcessAll(pdfFiles: seq<string>, keywords: seq<string>, convert: string -> Option<string>,
                    resultOf: string -> Record, save: Writer, pathOf: string -> string)
    returns (state: LoopState)
    ensures state == Loop(pdfFiles, keywords, convert, resultOf, save, pathOf)
  {
    state := LoopState(0, [], None, false);
    var i := 0;
    while i < |pdfFiles| && !state.raised
      invariant 0 <= i <= |pdfFiles|
      invariant state == Loop(pdfFiles[..i], keywords, convert, resultOf, save, pathOf)
    {
      state := ProcessPdf(pdfFiles, i, state, keywords, convert, resultOf, save, pathOf);
      i := i + 1;
    }
    if state.raised {
      LoopRaised(pdfFiles, i, keywords, convert, resultOf, save, pathOf);
    } else {
      assert pdfFiles[..|pdfFiles|] == pdfFiles;
    }
  }

  /** Once an exception left the loop, the later PDFs change nothing. */
  lemma {:induction false} LoopRaised(pdfs: seq<string>, i: nat, keywords: seq<string>, convert: string -> Option<string>,
                                      resultOf: string -> Record, save: Writer, pathOf: string -> string)
    requires i <= |pdfs| && Loop(pdfs[..i], keywords, convert, resultOf, save, pathOf).raised
    ensures Loop(pdfs, keywords, convert, resultOf, save, pathOf) == Loop(pdfs[..i], keywords, convert, resultOf, save, pathOf)
    decreases |pdfs|
  {
    if i < |pdfs| {
      var init := pdfs[..|pdfs| - 1];
      assert init[..i] == pdfs[..i];
      LoopRaised(init, i, keywords, convert, resultOf, save, pathOf);
    } else {
      assert pdfs[..i] == pdfs;
    }
  }

  /**
    The body of the loop of `run`: one PDF converted and analyzed, its row
    built and handed to the writer; the `except` block when that raises.
  */
  method ProcessPdf(pdfFiles: seq<string>, i: nat, state: LoopState, keywords: seq<string>,
                    convert: string -> Option<string>, resultOf: string -> Record, save: Writer, pathOf: string -> string)
    returns (state': LoopState)
    requires i < |pdfFiles| && !state.raised
    requires state == Loop(pdfFiles[..i], keywords, convert, resultOf, save, pathOf)
    ensures state' == Loop(pdfFiles[..i + 1], keywords, convert, resultOf, save, pathOf)
  {
    var pdf := pdfFiles[i];
    assert pdfFiles[..i + 1][..i] == pdfFiles[..i];
    state' := state;
    var markdown := convert(pdf);
    if markdown.None? || markdown.value == "" {
      return;
    }
    var row := BuildRow(pdf, resultOf(markdown.value), keywords);
    var failed := row.None?;
    if row.Some? {
      var path := pathOf(pdf);
      state' := LoopState(state.processed, state.writes + [Write(path, row.value)], Some(path), false);
      if save(row.value, path) {
        state' := state'.(processed := state.processed + 1);
      } else {
        failed := true;
      }
    }
    if failed {
      var errorRow := BuildErrorRow(pdf, keywords);
      if state'.path.None? {
        state' := state'.(raised := true);
      } else {
        var p := state'.path.value;
        state' := state'.(writes := state'.writes + [Write(p, errorRow)], raised := !save(errorRow, p));
      }
    }
  }

  // ----- summary

  /** `_show_summary`'s keyword columns: every column but the five fixed ones. */
  function KeywordColumns(columns: seq<string>): (keywordColumns: seq<string>)
    ensures forall c :: c in keywordColumns <==> c in columns && c !in FixedColumns
  {
    if columns == [] then []
    else (if columns[0] in FixedColumns then [] else [columns[0]]) + KeywordColumns(columns[1..])
  }

  lemma {:induction false} KeywordColumnsAppend(a: seq<string>, b: seq<string>)
    ensures KeywordColumns(a + b) == KeywordColumns(a) + KeywordColumns(b)
  {
    if a == [] {
      assert a + b == b;
    } else {
      assert (a + b)[1..] == a[1..] + b;
      KeywordColumnsAppend(a[1..], b);
    }
  }

  /** Columns that are all fixed names, or none of them, are dropped, or kept whole. */
  lemma {:induction false} KeywordColumnsAll(columns: seq<string>)
    ensures (forall c :: c in columns ==> c !in FixedColumns) ==> KeywordColumns(columns) == columns
    ensures (forall c :: c in columns ==> c in FixedColumns) ==> KeywordColumns(columns) == []
  {
    if columns != [] {
      KeywordColumnsAll(columns[1..]);
    }
  }

  /** For keywords that are not fixed column names, the summary finds exactly the keyword columns of a row. */
  lemma KeywordColumnsOfRow(keywords: seq<string>)
    requires forall k :: k in keywords ==> k !in FixedColumns
    ensures KeywordColumns(FixedColumns + keywords) == keywords
  {
    KeywordColumnsAppend(FixedColumns, keywords);
    KeywordColumnsAll(FixedColumns);
    KeywordColumnsAll(keywords);
  }
}

=== FILE: keyword_pdf.dfy ===
/**
  The pattern pipeline of `keywordPDF.py`: the date and company fields
  recovered from the first regular-expression match, the keyword presence
  flags, the report header, unique file names and the renaming loop of
  `process_pdfs`.

  The regular-expression engine is not modelled: a match arrives as the
  tuple of its capture groups (or `None` when the pattern did not match).
*/
module KeywordPdf {
  import opened Text
  import opened Values
  import Paths

  /**
    English and Portuguese month names, lower case, with their two-digit
    month numbers, in the order of the source's dictionary (its keys are
    distinct, so a lookup in order finds the dictionary's entry).
  */
  const MonthTable: seq<(string, string)> := [
    ("january", "01"), ("february", "02"), ("march", "03"), ("april", "04"),
    ("may", "05"), ("june", "06"), ("july", "07"), ("august", "08"),
    ("september", "09"), ("october", "10"), ("november", "11"), ("december", "12"),
    ("janeiro", "01"), ("fevereiro", "02"), ("mar\U{C3}\U{A7}o", "03"), ("abril", "04"),
    ("maio", "05"), ("junho", "06"), ("julho", "07"), ("agosto", "08"),
    ("setembro", "09"), ("outubro", "10"), ("novembro", "11"), ("dezembro", "12")
  ]

  /** `table.get(key)` for a table of pairs. */
  function Lookup(table: seq<(string, string)>, key: string): (r: Option<string>)
    ensures r.Some? ==> exists i :: 0 <= i < |table| && table[i] == (key, r.value)
    ensures r.None? ==> forall i :: 0 <= i < |table| ==> table[i].0 != key
  {
    if table == [] then None
    else if table[0].0 == key then Some(table[0].1)
    else Lookup(table[1..], key)
  }

  /** The entry found is the first whose key matches. */
  lemma {:induction false} LookupFirst(table: seq<(string, string)>, key: string, i: nat)
    requires i < |table| && table[i].0 == key
    requires forall j :: 0 <= j < i ==> table[j].0 != key
    ensures Lookup(table, key) == Some(table[i].1)
  {
    if i > 0 {
      LookupFirst(table[1..], key, i - 1);
    }
  }

  /** `MONTHS.get(name)`. */
  function MonthNumber(name: string): Option<string> {
    Lookup(MonthTable, name)
  }

  /** The date written when no date could be recovered. */
  const NoDate: string := "00000000"

  /** The company written when the company pattern did not match. */
  const UnknownCompany: string := "UNKNOWN"

  /** Capture groups (day, month name, year) of the first date match. */
  type DateMatch = Option<(string, string, string)>

  /** Two decimal digits, the first 0 or 1, and not "00". */
  predicate IsMonthNumber(month: string)
    ensures IsMonthNumber(month) ==> IsDigits(month)
  {
    |month| == 2 && ('0' <= month[0] <= '1') && ('0' <= month[1] <= '9') && month != "00"
  }

  /** Every month number in the table is two digits and never "00". */
  lemma MonthNumbers(name: string)
    requires MonthNumber(name).Some?
    ensures IsMonthNumber(MonthNumber(name).value)
    ensures IsDigits(MonthNumber(name).value)
  {
    MonthTableNumbers();
    LookupValue(MonthTable, name, IsMonthNumber);
  }

  /** A value found in a table has every property all the table's values have. */
  lemma LookupValue(table: seq<(string, string)>, key: string, p: string -> bool)
    requires forall i :: 0 <= i < |table| ==> p(table[i].1)
    requires Lookup(table, key).Some?
    ensures p(Lookup(table, key).value)
  {
    var i :| 0 <= i < |table| && table[i] == (key, Lookup(table, key).value);
  }

  lemma MonthTableNumbers()
    ensures forall i :: 0 <= i < |MonthTable| ==> IsMonthNumber(MonthTable[i].1)
  {
  }

  /** `f"{year}{month}{int(day):02d}"`, or `Err(day)` for the `ValueError` of `int(day)`. */
  function FormatDate(year: string, month: string, day: string): (date: Result<string, string>)
    ensures date.Err? <==> PyInt(day).None?
    ensures date.Err? ==> date.error == day
    ensures date.Ok? ==> date.value == year + month + FormatPad2(PyInt(day).value)
  {
    match PyInt(day)
    case Some(d) => Ok(year + month + FormatPad2(d))
    case None => Err(day)
  }

  /**
    `extract_date` after the search: `year + month + day` (the day read by
    `int()` and padded to two digits) when the month name is in the table,
    the sentinel otherwise. `Err(day)` is the `ValueError` `int(day)` raises
    for a day group that is no integer.
  */
  function ExtractDate(m: DateMatch): (date: Result<string, string>)
    ensures date.Err? <==> m.Some? && MonthNumber(Lower(m.value.1)).Some? && PyInt(m.value.0).None?
    ensures date.Err? ==> date.error == m.value.0
    ensures date.Ok? && date.value != NoDate ==> m.Some? && StartsWith(date.value, m.value.2)
  {
    match m
    case None => Ok(NoDate)
    case Some((day, monthText, year)) =>
      match MonthNumber(Lower(monthText))
      case Some(month) =>
        var date := FormatDate(year, month, day);
        assert date.Ok? ==> date.value[..|year|] == year;
        date
      case None => Ok(NoDate)
  }

  /**
    The sentinel comes out exactly when there was no match or the month name
    is not in the table: no recovered date is ever mistaken for it.
  */
  lemma ExtractDateSentinel(m: DateMatch)
    ensures ExtractDate(m) == Ok(NoDate) <==> m.None? || MonthNumber(Lower(m.value.1)).None?
  {
    if m.Some? && MonthNumber(Lower(m.value.1)).Some? && PyInt(m.value.0).Some? {
      var month := MonthNumber(Lower(m.value.1)).value;
      MonthNumbers(Lower(m.value.1));
      assert ExtractDate(m) == FormatDate(m.value.2, month, m.value.0);
      DateNotSentinel(m.value.2, month, FormatPad2(PyInt(m.value.0).value));
    }
  }

  /** A month number is never "00", so a date holding one is not the sentinel. */
  lemma DateNotSentinel(year: string, month: string, day: string)
    requires IsMonthNumber(month) && |day| >= 2
    ensures year + month + day != NoDate
  {
    var date := year + month + day;
    if |date| == 8 {
      assert date[|year|..|year| + 2] == month;
      assert NoDate[|year|..|year| + 2] == "00";
    }
  }

  /** A four-digit year and an ASCII day below 100 give an eight-digit `YYYYMMDD`. */
  lemma ExtractDateFormat(day: string, monthText: string, year: string)
    requires day != [] && IsDigits(day) && ParseDigits(day) < 100
    requires |year| == 4 && IsDigits(year)
    requires MonthNumber(Lower(monthText)).Some?
    ensures var date := ExtractDate(Some((day, monthText, year)));
      && date.Ok? && |date.value| == 8 && IsDigits(date.value)
      && date.value[..4] == year
      && date.value[4..6] == MonthNumber(Lower(monthText)).value
      && ParseDigits(date.value[6..]) == ParseDigits(day)
  {
    var month := MonthNumber(Lower(monthText)).value;
    MonthNumbers(Lower(monthText));
    assert ExtractDate(Some((day, monthText, year))) == FormatDate(year, month, day);
    FormatDateAscii(year, month, day);
  }

  lemma FormatDateAscii(year: string, month: string, day: string)
    requires day != [] && IsDigits(day) && ParseDigits(day) < 100
    requires |year| == 4 && IsDigits(year) && IsMonthNumber(month)
    ensures var date := FormatDate(year, month, day);
      && date.Ok? && |date.value| == 8 && IsDigits(date.value)
      && date.value[..4] == year && date.value[4..6] == month
      && ParseDigits(date.value[6..]) == ParseDigits(day)
  {
    PyIntAscii(day);
    var dd := FormatPad2(ParseDigits(day));
    var date := year + month + dd;
    assert date[..4] == year && date[4..6] == month && date[6..] == dd;
  }

  /** The day is read as `int()` reads it: " 5" is the fifth. */
  lemma ExtractDateSpacedDay(day: string, monthText: string, year: string)
    requires day == " 5" && monthText == "Janeiro" && year == "2024"
    ensures ExtractDate(Some((day, monthText, year))) == Ok("20240105")
  {
    JaneiroIsJanuary(monthText);
    assert ExtractDate(Some((day, monthText, year))) == FormatDate(year, "01", day);
    FormatSpacedDay(day, year);
  }

  lemma FormatSpacedDay(day: string, year: string)
    requires day == " 5" && year == "2024"
    ensures FormatDate(year, "01", day) == Ok("20240105")
  {
    PyIntSpaced();
    assert FormatPad2(5) == "05" by {
      assert NatToString(5) == "5";
    }
    assert year + "01" + "05" == "20240105";
  }

  /** A day `int()` rejects raises, once the month name is known. */
  lemma ExtractDateBadDay(day: string, monthText: string, year: string)
    requires day == "5a" && monthText == "Janeiro" && year == "2024"
    ensures ExtractDate(Some((day, monthText, year))) == Err("5a")
  {
    JaneiroIsJanuary(monthText);
    assert ExtractDate(Some((day, monthText, year))) == FormatDate(year, "01", day);
    PyIntLetter();
  }

  /** The Portuguese name, in any case, is looked up: "Janeiro" is month "01". */
  lemma JaneiroIsJanuary(monthText: string)
    requires monthText == "Janeiro"
    ensures MonthNumber(Lower(monthText)) == Some("01")
  {
    assert Lower(monthText) == "janeiro";
    LookupFirst(MonthTable, "janeiro", 12);
  }

  /** `lower()` never produces the upper-case 'Ã' the Portuguese March key holds. */
  lemma PortugueseMarchUnreachable(monthText: string)
    ensures Lower(monthText) != "mar\U{C3}\U{A7}o"
  {
    if |monthText| == 6 {
      assert Lower(monthText)[3] == LowerChar(monthText[3]);
    }
  }

  /**
    A date is placed in March only when the month name is the English one:
    the Portuguese key is never reached, so Portuguese March dates come out
    as the sentinel.
  */
  lemma {:induction false} MarchOnlyInEnglish(monthText: string)
    ensures MonthNumber(Lower(monthText)) == Some("03") <==> Lower(monthText) == "march"
  {
    PortugueseMarchUnreachable(monthText);
    MarchKeys();
    if Lower(monthText) == "march" {
      LookupFirst(MonthTable, "march", 2);
    }
  }

  /** The two keys of month "03". */
  lemma MarchKeys()
    ensures forall i :: 0 <= i < |MonthTable| && MonthTable[i].1 == "03" ==>
      MonthTable[i].0 == "march" || MonthTable[i].0 == "mar\U{C3}\U{A7}o"
  {
  }

  /** `company.split('(')[0].strip().replace(' ', '_')`. */
  function NormalizeCompany(raw: string): (company: string)
    ensures '(' !in company && ' ' !in company
    ensures IsStripped(company)
  {
    var trimmed := Strip(BeforeFirst(raw, '('));
    StripWithout(BeforeFirst(raw, '('), '(');
    var company := ReplaceChar(trimmed, ' ', '_');
    assert trimmed == [] || (!IsSpace(trimmed[0]) && !IsSpace(trimmed[|trimmed| - 1]));
    assert company != [] ==> company[0] == trimmed[0] && company[|company| - 1] == trimmed[|trimmed| - 1];
    company
  }

  /** A stripped name without '(' or ' ' is its own normal form. */
  lemma NormalizeCompanyFixed(c: string)
    requires '(' !in c && ' ' !in c && IsStripped(c)
    ensures NormalizeCompany(c) == c
  {
    assert BeforeFirst(c, '(') == c;
    StripStripped(c);
    assert ReplaceChar(c, ' ', '_') == c;
  }

  /** Normalising a normalised company name changes nothing. */
  lemma NormalizeCompanyIdempotent(raw: string)
    ensures NormalizeCompany(NormalizeCompany(raw)) == NormalizeCompany(raw)
  {
    NormalizeCompanyFixed(NormalizeCompany(raw));
  }

  /** The sentinel company is left as it is by the normalisation. */
  lemma UnknownCompanyNormalized()
    ensures NormalizeCompany(UnknownCompany) == UnknownCompany
  {
    var c := UnknownCompany;
    assert forall i :: 0 <= i < |c| ==> 'A' <= c[i] <= 'Z';
    NormalizeCompanyFixed(c);
  }

  /** Company of `find_company_and_date`: group 1 of the first match, normalised, or the sentinel. */
  function FindCompany(group1: Option<string>): (company: string)
    ensures group1.None? ==> company == UnknownCompany
    ensures '(' !in company && ' ' !in company
  {
    match group1
    case Some(g) => NormalizeCompany(g)
    case None => UnknownCompany
  }

  /** The sentinel needs no normalisation, so the company is the normalised group or sentinel, as the source computes it. */
  lemma FindCompanyNormalizes(group1: Option<string>)
    ensures FindCompany(group1) == NormalizeCompany(if group1.Some? then group1.value else UnknownCompany)
  {
    if group1.None? {
      UnknownCompanyNormalized();
    }
  }

  /** `find_company_and_date` after the two searches; `Err(day)` when `int(day)` raises. */
  function FindCompanyAndDate(group1: Option<string>, date: DateMatch): (fields: Result<(string, string), string>)
    ensures fields.Err? <==> ExtractDate(date).Err?
    ensures fields.Ok? ==> fields.value.0 == FindCompany(group1) && fields.value.1 == ExtractDate(date).value
  {
    match ExtractDate(date)
    case Ok(d) => Ok((FindCompany(group1), d))
    case Err(e) => Err(e)
  }

  /** Case-insensitive substring test of one keyword. */
  predicate HasKeyword(text: string, keyword: string) {
    Contains(Lower(text), Lower(keyword))
  }

  /** `check_keywords_in_text`: one 0/1 flag per keyword, in keyword order. */
  function CheckKeywordsInText(text: string, keywords: seq<string>): (flags: seq<int>)
    ensures |flags| == |keywords|
    ensures forall i :: 0 <= i < |keywords| ==> (flags[i] == 1 <==> HasKeyword(text, keywords[i]))
    ensures forall i :: 0 <= i < |keywords| ==> flags[i] in {0, 1}
  {
    if keywords == [] then []
    else [if HasKeyword(text, keywords[0]) then 1 else 0] + CheckKeywordsInText(text, keywords[1..])
  }

  /** `contains_keywords`: some keyword occurs, case-insensitively. */
  predicate ContainsKeywords(text: string, keywords: seq<string>) {
    keywords != [] && (HasKeyword(text, keywords[0]) || ContainsKeywords(text, keywords[1..]))
  }

  /** `contains_keywords` holds exactly when some flag of `check_keywords_in_text` is 1. */
  lemma {:induction false} ContainsKeywordsIffSomeFlag(text: string, keywords: seq<string>)
    ensures ContainsKeywords(text, keywords) <==> 1 in CheckKeywordsInText(text, keywords)
    decreases |keywords|
  {
    if keywords != [] {
      ContainsKeywordsIffSomeFlag(text, keywords[1..]);
      var flags := CheckKeywordsInText(text, keywords);
      assert flags[1..] == CheckKeywordsInText(text, keywords[1..]);
    }
  }

  /** The empty keyword occurs in every text, so its flag is always 1. */
  lemma EmptyKeywordAlwaysFound(text: string)
    ensures CheckKeywordsInText(text, [""]) == [1]
  {
    assert OccursAt(Lower(text), Lower(""), 0);
  }

  /** A keyword whose first letter, lowered, never occurs in the lowered text is absent. */
  lemma {:induction false} FirstLetterAbsent(text: string, keyword: string)
    requires keyword != []
    requires forall i :: 0 <= i < |text| ==> LowerChar(text[i]) != LowerChar(keyword[0])
    ensures !HasKeyword(text, keyword)
  {
    var low, key := Lower(text), Lower(keyword);
    forall i | 0 <= i <= |low| - |key| ensures !OccursAt(low, key, i) {
      assert low[i] != key[0];
    }
  }

  /** Flags ignore the case of the text: lower-casing it first changes none of them. */
  lemma FlagsIgnoreCase(text: string, keywords: seq<string>)
    ensures CheckKeywordsInText(Lower(text), keywords) == CheckKeywordsInText(text, keywords)
  {
    assert Lower(Lower(text)) == Lower(text);
  }

  /** A keyword matching the text at `i` letter by letter, up to case, is present. */
  lemma OccursLowered(text: string, keyword: string, i: nat)
    requires i + |keyword| <= |text|
    requires forall j :: 0 <= j < |keyword| ==> LowerChar(text[i + j]) == LowerChar(keyword[j])
    ensures HasKeyword(text, keyword)
  {
    var low, key := Lower(text), Lower(keyword);
    assert low[i..i + |key|] == key;
    assert OccursAt(low, key, i);
  }

  /** A sample sentence, as the test file spells it (its 'é' mis-decoded as two characters). */
  const SampleText: string := "Isto cont\U{221A}\U{A9}m Alpha e beta."

  lemma AlphaInSample()
    ensures HasKeyword(SampleText, "alpha")
  {
    var text := SampleText;
    assert text[13] == 'A' && text[14] == 'l' && text[15] == 'p' && text[16] == 'h' && text[17] == 'a';
    OccursLowered(text, "alpha", 13);
  }

  lemma GammaNotInSample()
    ensures !HasKeyword(SampleText, "gamma")
  {
    var text := SampleText;
    forall i | 0 <= i < |text| ensures LowerChar(text[i]) != 'g' {
      assert text[i] != 'g' && text[i] != 'G';
    }
    FirstLetterAbsent(text, "gamma");
  }

  /** The sample has "alpha" and not "gamma": flags [1, 0], and some keyword is found. */
  lemma SampleFlags(keywords: seq<string>)
    requires keywords == ["alpha", "gamma"]
    ensures CheckKeywordsInText(SampleText, keywords) == [1, 0]
    ensures ContainsKeywords(SampleText, keywords)
  {
    AlphaInSample();
    GammaNotInSample();
    ContainsKeywordsIffSomeFlag(SampleText, keywords);
  }

  /** Report column of a keyword: commas become '-', spaces become '_'. */
  function NormalizeKeyword(keyword: string): (column: string)
    ensures |column| == |keyword|
    ensures ',' !in column && ' ' !in column
  {
    ReplaceChar(ReplaceChar(keyword, ',', '-'), ' ', '_')
  }

  /** The header row of the report. */
  function Header(keywords: seq<string>): (header: seq<string>)
    ensures |header| == 3 + |keywords|
    ensures header[..3] == ["file_name", "company", "date"]
    ensures forall i :: 0 <= i < |keywords| ==> header[3 + i] == NormalizeKeyword(keywords[i])
  {
    ["file_name", "company", "date"] + seq(|keywords|, i requires 0 <= i < |keywords| => NormalizeKeyword(keywords[i]))
  }

  /** `load_keywords` of this script: every line of the file, stripped; blank lines are kept as "". */
  function LoadKeywords(fileText: string): (keywords: seq<string>)
    ensures |keywords| == |Lines(fileText)|
    ensures forall i :: 0 <= i < |keywords| ==> keywords[i] == Strip(Lines(fileText)[i])
  {
    seq(|Lines(fileText)|, i requires 0 <= i < |Lines(fileText)| => Strip(Lines(fileText)[i]))
  }

  // ----- unique file names

  /** The `k`-th name `get_unique_filename` tries: the base name, then `name (k)ext`. */
  function Attempt(base: string, k: nat): string {
    if k == 0 then base
    else
      var parts := Paths.SplitExt(base);
      parts.0 + " (" + NatToString(k) + ")" + parts.1
  }

  /** No two attempts coincide. */
  lemma AttemptsDistinct(base: string, j: nat, k: nat)
    requires j != k
    ensures Attempt(base, j) != Attempt(base, k)
  {
    if j > 0 && k > 0 {
      var parts := Paths.SplitExt(base);
      var sj, sk := NatToString(j), NatToString(k);
      NatToStringInjective(j, k);
      var front, back := parts.0 + " (", ")" + parts.1;
      ConcatAssoc(parts.0, " (", sj);
      ConcatAssoc(parts.0 + " (" + sj, ")", parts.1);
      ConcatAssoc(parts.0, " (", sk);
      ConcatAssoc(parts.0 + " (" + sk, ")", parts.1);
      assert Attempt(base, j) == front + sj + back;
      assert Attempt(base, k) == front + sk + back;
      if |sj| == |sk| {
        MiddleDiffers(front, sj, sk, back);
      }
    }
  }

  /** Texts that differ only in an equally long middle part differ. */
  lemma MiddleDiffers(front: string, x: string, y: string, back: string)
    requires |x| == |y| && x != y
    ensures front + x + back != front + y + back
  {
    assert (front + x + back)[|front|..|front| + |x|] == x;
    assert (front + y + back)[|front|..|front| + |y|] == y;
  }

  /** The names tried before the `n`-th attempt. */
  ghost function Tried(base: string, n: nat): set<string> {
    if n == 0 then {} else Tried(base, n - 1) + {Attempt(base, n - 1)}
  }

  lemma {:induction false} TriedShape(base: string, n: nat)
    ensures |Tried(base, n)| == n
    ensures forall m :: m >= n ==> Attempt(base, m) !in Tried(base, n)
    ensures forall j :: 0 <= j < n ==> Attempt(base, j) in Tried(base, n)
  {
    if n > 0 {
      TriedShape(base, n - 1);
      forall m | m >= n ensures Attempt(base, m) !in Tried(base, n) {
        AttemptsDistinct(base, m, n - 1);
      }
    }
  }

  lemma SubsetCardinality(a: set<string>, b: set<string>)
    requires a <= b
    ensures |a| <= |b|
  {
    assert b == a + (b - a);
  }

  /** When the first `n` attempts are taken, so is every name tried before the `n`-th. */
  lemma {:induction false} TriedTaken(base: string, n: nat, files: set<string>)
    requires forall j :: 0 <= j < n ==> Attempt(base, j) in files
    ensures Tried(base, n) <= files
  {
    if n > 0 {
      TriedTaken(base, n - 1, files);
    }
  }

  /** When the first `n` attempts are taken, the directory holds at least `n` files. */
  lemma TakenBound(base: string, n: nat, files: set<string>)
    requires forall j :: 0 <= j < n ==> Attempt(base, j) in files
    ensures n <= |files|
  {
    TriedTaken(base, n, files);
    TriedShape(base, n);
    SubsetCardinality(Tried(base, n), files);
  }

  /** `name` is the first attempt for `base` that is not among `files`. */
  ghost predicate IsUniqueName(name: string, files: set<string>, base: string) {
    exists k: nat :: name == Attempt(base, k) && name !in files && forall j :: 0 <= j < k ==> Attempt(base, j) in files
  }

  /** The first free attempt from the `k`-th on, the ones before it being taken. */
  function FirstFree(files: set<string>, base: string, k: nat): (name: string)
    requires forall j :: 0 <= j < k ==> Attempt(base, j) in files
    ensures IsUniqueName(name, files, base)
    decreases |files| - k
  {
    if Attempt(base, k) !in files then Attempt(base, k)
    else
      TakenBound(base, k + 1, files);
      FirstFree(files, base, k + 1)
  }

  /** The name `get_unique_filename` returns. */
  function UniqueFilename(files: set<string>, base: string): (name: string)
    ensures IsUniqueName(name, files, base)
  {
    FirstFree(files, base, 0)
  }

  /** A free base name is kept. */
  lemma UniqueFilenameFree(files: set<string>, base: string)
    requires base !in files
    ensures UniqueFilename(files, base) == base
  {
    var k: nat :| UniqueFilename(files, base) == Attempt(base, k) && forall j :: 0 <= j < k ==> Attempt(base, j) in files;
    assert Attempt(base, 0) == base;
    assert k == 0;
  }

  /**
    `get_unique_filename`: the base name when it is free, otherwise `name (k)ext`
    for the least `k >= 1` that is free. `files` are the names of the files in
    the directory.
  */
  method GetUniqueFilename(files: set<string>, base: string) returns (name: string)
    ensures name == UniqueFilename(files, base)
    ensures name !in files
    ensures base !in files ==> name == base
    ensures base in files ==>
      exists k :: 1 <= k <= |files| && name == Attempt(base, k) && (forall j :: 1 <= j < k ==> Attempt(base, j) in files)
  {
    name := base;
    var counter := 1;
    while name in files
      invariant counter >= 1
      invariant name == Attempt(base, counter - 1)
      invariant forall j :: 0 <= j < counter - 1 ==> Attempt(base, j) in files
      invariant FirstFree(files, base, counter - 1) == UniqueFilename(files, base)
      decreases |files| - (counter - 1)
    {
      TakenBound(base, counter, files);
      name := Attempt(base, counter);
      counter := counter + 1;
    }
    TakenBound(base, counter - 1, files);
  }

  // ----- process_pdfs

  predicate IsPdfName(name: string) {
    EndsWith(Lower(name), ".pdf")
  }

  /** The directory entries `process_pdfs` handles, in listing order. */
  function PdfEntries(listing: seq<string>): (pdfs: seq<string>)
    ensures forall x :: x in pdfs ==> x in listing && IsPdfName(x)
    ensures |pdfs| <= |listing|
  {
    if listing == [] then []
    else
      var last := listing[|listing| - 1];
      PdfEntries(listing[..|listing| - 1]) + (if IsPdfName(last) then [last] else [])
  }

  /** A rename is attempted only when both the company and the date were recovered. */
  predicate RenameWanted(company: string, date: string) {
    company != UnknownCompany && date != NoDate
  }

  /** The flags as the CSV writer renders them. */
  function FlagCells(text: string, keywords: seq<string>): (cells: seq<string>)
    ensures |cells| == |keywords|
    ensures forall i :: 0 <= i < |keywords| ==> cells[i] == (if HasKeyword(text, keywords[i]) then "1" else "0")
  {
    var flags := CheckKeywordsInText(text, keywords);
    seq(|flags|, i requires 0 <= i < |flags| => if flags[i] == 1 then "1" else "0")
  }

  /** The directory after `entry` was renamed to `name`; nothing changes when the names agree. */
  function Renamed(dir: set<string>, entry: string, name: string): (dir': set<string>)
    ensures name != entry ==> name in dir' && entry !in dir'
    ensures forall f :: f != entry && f != name ==> (f in dir' <==> f in dir)
  {
    if name == entry then dir else dir - {entry} + {name}
  }

  /**
    What one run of `process_pdfs` reads: the keywords, the rename flag, for
    each PDF its text and the groups the company and date patterns capture
    from it, and whether `os.rename` to a name of the directory succeeds. It
    raises when the name's parent directory is missing (a company holding
    '/', as in "S/A") or when the name is a directory; renaming files
    changes neither, so this is fixed for the run.
  */
  datatype Scan = Scan(keywords: seq<string>, rename: bool,
                       textOf: string -> string, companyOf: string -> Option<string>, dateOf: string -> DateMatch,
                       renames: string -> bool)

  /** What ends `process_pdfs` with an exception: the keyword file, a day `int()` rejects, or a rename. */
  datatype Failure = KeywordsUnreadable | BadDay(day: string) | RenameFailed(target: string)

  /** The `int(day)` of the PDF's date match raises. */
  predicate DayRejected(entry: string, scan: Scan) {
    ExtractDate(scan.dateOf(scan.textOf(entry))).Err?
  }

  /** The name a PDF is renamed to in `dir`, or its own name when it is not renamed. */
  function TargetName(entry: string, dir: set<string>, scan: Scan, company: string, date: string): string {
    if scan.rename && RenameWanted(company, date) then UniqueFilename(dir, company + "_" + date + ".pdf") else entry
  }

  /**
    The row of one PDF and the directory after its rename, `dir` being the
    directory as the earlier renames left it; or what raised.
  */
  function EntryRow(entry: string, dir: set<string>, scan: Scan): Result<(seq<string>, set<string>), Failure> {
    var text := scan.textOf(entry);
    var company := FindCompany(scan.companyOf(text));
    match ExtractDate(scan.dateOf(text))
    case Err(day) => Err(BadDay(day))
    case Ok(date) =>
      var name := TargetName(entry, dir, scan, company, date);
      if scan.rename && RenameWanted(company, date) && !scan.renames(name) then Err(RenameFailed(name))
      else Ok(([name, company, date] + FlagCells(text, scan.keywords), Renamed(dir, entry, name)))
  }

  /** The day is accepted, a rename is due, and `os.rename` to the chosen name raises. */
  predicate RenameFails(entry: string, dir: set<string>, scan: Scan) {
    var text := scan.textOf(entry);
    var company := FindCompany(scan.companyOf(text));
    var date := ExtractDate(scan.dateOf(text));
    && date.Ok? && scan.rename && RenameWanted(company, date.value)
    && !scan.renames(UniqueFilename(dir, company + "_" + date.value + ".pdf"))
  }

  /**
    A row holds the file name, the company, the date and one flag per
    keyword. The file name is the one `get_unique_filename` picks for
    `{company}_{date}.pdf` in the current directory when renaming is on and
    both fields were recovered, the listed name otherwise; the directory then
    has the file under that name. The row is missing exactly when the day is
    rejected or the rename raises.
  */
  lemma EntryRowShape(entry: string, dir: set<string>, scan: Scan)
    ensures EntryRow(entry, dir, scan).Err? <==> DayRejected(entry, scan) || RenameFails(entry, dir, scan)
    ensures DayRejected(entry, scan) ==> EntryRow(entry, dir, scan) == Err(BadDay(ExtractDate(scan.dateOf(scan.textOf(entry))).error))
    ensures !DayRejected(entry, scan) && RenameFails(entry, dir, scan) ==>
      var text := scan.textOf(entry);
      var company := FindCompany(scan.companyOf(text));
      var date := ExtractDate(scan.dateOf(text)).value;
      && EntryRow(entry, dir, scan) == Err(RenameFailed(UniqueFilename(dir, company + "_" + date + ".pdf")))
      && IsUniqueName(EntryRow(entry, dir, scan).error.target, dir, company + "_" + date + ".pdf")
    ensures EntryRow(entry, dir, scan).Ok? ==>
      var (row, dir') := EntryRow(entry, dir, scan).value;
      var text := scan.textOf(entry);
      var company := FindCompany(scan.companyOf(text));
      var date := ExtractDate(scan.dateOf(text)).value;
      && |row| == 3 + |scan.keywords|
      && row[1] == company && row[2] == date
      && row[3..] == FlagCells(text, scan.keywords)
      && (if scan.rename && RenameWanted(company, date)
          then IsUniqueName(row[0], dir, company + "_" + date + ".pdf")
          else row[0] == entry)
      && dir' == Renamed(dir, entry, row[0])
  {
  }

  lemma PdfEntriesStep(listing: seq<string>, i: nat)
    requires i < |listing|
    ensures IsPdfName(listing[i]) ==> PdfEntries(listing[..i + 1]) == PdfEntries(listing[..i]) + [listing[i]]
    ensures !IsPdfName(listing[i]) ==> PdfEntries(listing[..i + 1]) == PdfEntries(listing[..i])
  {
    assert listing[..i + 1][..i] == listing[..i];
    assert PdfEntries(listing[..i]) + [] == PdfEntries(listing[..i]);
  }

  /**
    One PDF of `process_pdfs`: its row and the directory after the rename the
    row records, or what raised, the directory then unchanged.
  */
  method ProcessEntry(entry: string, dir: set<string>, scan: Scan)
    returns (row: Result<seq<string>, Failure>, dir': set<string>)
    ensures row.Err? ==> EntryRow(entry, dir, scan) == Err(row.error) && dir' == dir
    ensures row.Ok? ==> EntryRow(entry, dir, scan) == Ok((row.value, dir'))
  {
    var text := scan.textOf(entry);
    var company := FindCompany(scan.companyOf(text));
    var extracted := ExtractDate(scan.dateOf(text));
    if extracted.Err? {
      return Err(BadDay(extracted.error)), dir;
    }
    var date := extracted.value;
    var filename := entry;
    dir' := dir;
    if scan.rename && RenameWanted(company, date) {
      var newFilename := GetUniqueFilename(dir, company + "_" + date + ".pdf");
      if newFilename !in dir {
        if !scan.renames(newFilename) {
          return Err(RenameFailed(newFilename)), dir;
        }
        dir' := Renamed(dir, entry, newFilename);
        filename := newFilename;
      }
    }
    row := Ok([filename, company, date] + FlagCells(text, scan.keywords));
  }

  /** Where a run of the loop stands: the rows so far, the directory, and what stopped it, if anything. */
  datatype Progress = Progress(rows: seq<seq<string>>, dir: set<string>, failure: Option<Failure>)

  /**
    The loop of `process_pdfs` over `entries`, starting from the directory
    `dir`: each row is computed in the directory the earlier renames left,
    and the first rejected day or failed rename ends the loop.
  */
  function RunEntries(entries: seq<string>, dir: set<string>, scan: Scan): (p: Progress)
    ensures |p.rows| <= |entries|
    decreases |entries|
  {
    if entries == [] then Progress([], dir, None)
    else
      var p := RunEntries(entries[..|entries| - 1], dir, scan);
      if p.failure.Some? then p
      else
        match EntryRow(entries[|entries| - 1], p.dir, scan)
        case Err(failure) => Progress(p.rows, p.dir, Some(failure))
        case Ok((row, dir')) => Progress(p.rows + [row], dir', None)
  }

  /** The `j`-th PDF's row builds in the directory the PDFs before it left. */
  predicate RowBuilds(entries: seq<string>, dir: set<string>, scan: Scan, j: nat)
    requires j < |entries|
  {
    !DayRejected(entries[j], scan) && !RenameFails(entries[j], RunEntries(entries[..j], dir, scan).dir, scan)
  }

  /**
    Where the loop stops: with a row per PDF, or at a PDF whose row fails in
    the directory the PDFs before it left, with the rows of those PDFs, which
    it leaves as the run over those PDFs alone leaves them.
  */
  lemma {:induction false} RunEntriesStops(entries: seq<string>, dir: set<string>, scan: Scan)
    ensures var p := RunEntries(entries, dir, scan);
      && (p.failure.None? ==> |p.rows| == |entries|)
      && (p.failure.Some? ==>
            && |p.rows| < |entries|
            && EntryRow(entries[|p.rows|], p.dir, scan) == Err(p.failure.value)
            && RunEntries(entries[..|p.rows|], dir, scan) == Progress(p.rows, p.dir, None))
    decreases |entries|
  {
    if entries != [] {
      var n := |entries| - 1;
      var init := entries[..n];
      RunEntriesStops(init, dir, scan);
      var q := RunEntries(init, dir, scan);
      if q.failure.Some? {
        assert init[..|q.rows|] == entries[..|q.rows|];
      } else {
        assert init == entries[..|q.rows|];
      }
    }
  }

  /**
    The loop stops exactly when some PDF's day is rejected or its rename
    raises, in the directory the PDFs before it left, and it stops at the
    first such PDF.
  */
  lemma RunEntriesBuilds(entries: seq<string>, dir: set<string>, scan: Scan)
    ensures var p := RunEntries(entries, dir, scan);
      && (p.failure.None? <==> forall j :: 0 <= j < |entries| ==> RowBuilds(entries, dir, scan, j))
      && (p.failure.Some? ==> !RowBuilds(entries, dir, scan, |p.rows|) && forall j :: 0 <= j < |p.rows| ==> RowBuilds(entries, dir, scan, j))
  {
    var p := RunEntries(entries, dir, scan);
    RunEntriesStops(entries, dir, scan);
    RowsBuild(entries, dir, scan);
    if p.failure.Some? {
      StopDoesNotBuild(entries, dir, scan);
    }
  }

  /** Every PDF before the stop has its row. */
  lemma RowsBuild(entries: seq<string>, dir: set<string>, scan: Scan)
    ensures forall j :: 0 <= j < |RunEntries(entries, dir, scan).rows| ==> RowBuilds(entries, dir, scan, j)
  {
    forall j | 0 <= j < |RunEntries(entries, dir, scan).rows| ensures RowBuilds(entries, dir, scan, j) {
      RunEntriesRow(entries, dir, scan, j);
      EntryRowShape(entries[j], RunEntries(entries[..j], dir, scan).dir, scan);
    }
  }

  /** The PDF the loop stops at has no row. */
  lemma StopDoesNotBuild(entries: seq<string>, dir: set<string>, scan: Scan)
    requires RunEntries(entries, dir, scan).failure.Some?
    ensures |RunEntries(entries, dir, scan).rows| < |entries|
    ensures !RowBuilds(entries, dir, scan, |RunEntries(entries, dir, scan).rows|)
  {
    var p := RunEntries(entries, dir, scan);
    RunEntriesStops(entries, dir, scan);
    EntryRowShape(entries[|p.rows|], p.dir, scan);
  }

  /** Without renaming, the loop stops exactly when some PDF's day is rejected. */
  lemma RunEntriesDaysOnly(entries: seq<string>, dir: set<string>, scan: Scan)
    requires !scan.rename
    ensures RunEntries(entries, dir, scan).failure.None? <==> forall e :: e in entries ==> !DayRejected(e, scan)
  {
    RunEntriesBuilds(entries, dir, scan);
    if forall e :: e in entries ==> !DayRejected(e, scan) {
      forall j | 0 <= j < |entries| ensures RowBuilds(entries, dir, scan, j) {
        assert entries[j] in entries;
      }
    } else {
      var e :| e in entries && DayRejected(e, scan);
      var j :| 0 <= j < |entries| && entries[j] == e;
      assert !RowBuilds(entries, dir, scan, j);
    }
  }

  /**
    A company name holding '/', as "Empresa S/A" becomes "Empresa_S/A", is
    renamed under a path whose parent directory a flat PDF directory does not
    have: when that name is free the rename to it raises, the PDF gets no
    row, and the loop stops there.
  */
  lemma SlashCompanyRenameFails(entry: string, dir: set<string>, scan: Scan)
    requires scan.rename && !DayRejected(entry, scan)
    requires var company := FindCompany(scan.companyOf(scan.textOf(entry)));
      var date := ExtractDate(scan.dateOf(scan.textOf(entry))).value;
      && '/' in company && RenameWanted(company, date) && company + "_" + date + ".pdf" !in dir
    requires forall name :: '/' in name ==> !scan.renames(name)
    ensures var company := FindCompany(scan.companyOf(scan.textOf(entry)));
      var date := ExtractDate(scan.dateOf(scan.textOf(entry))).value;
      && EntryRow(entry, dir, scan) == Err(RenameFailed(company + "_" + date + ".pdf"))
      && RunEntries([entry], dir, scan) == Progress([], dir, Some(RenameFailed(company + "_" + date + ".pdf")))
  {
    var company := FindCompany(scan.companyOf(scan.textOf(entry)));
    var date := ExtractDate(scan.dateOf(scan.textOf(entry))).value;
    var base := company + "_" + date + ".pdf";
    UniqueFilenameFree(dir, base);
    var i :| 0 <= i < |company| && company[i] == '/';
    assert base[i] == '/';
    assert [entry][..0] == [];
  }

  /**
    The `j`-th row is the row of the `j`-th PDF in the directory the rows
    before it left.
  */
  lemma {:induction false} RunEntriesRow(entries: seq<string>, dir: set<string>, scan: Scan, j: nat)
    requires j < |RunEntries(entries, dir, scan).rows|
    ensures j < |entries|
    ensures var before := RunEntries(entries[..j], dir, scan);
      && before.failure.None?
      && EntryRow(entries[j], before.dir, scan).Ok?
      && RunEntries(entries, dir, scan).rows[j] == EntryRow(entries[j], before.dir, scan).value.0
    decreases |entries|
  {
    var n := |entries| - 1;
    var init := entries[..n];
    var q := RunEntries(init, dir, scan);
    if j < |q.rows| {
      RunEntriesRow(init, dir, scan, j);
      assert init[..j] == entries[..j];
      assert init[j] == entries[j];
    } else {
      RunEntriesStops(init, dir, scan);
      RunEntriesRowLast(entries, dir, scan);
    }
  }

  /** A row for the last PDF is the row of that PDF in the directory the others left. */
  lemma RunEntriesRowLast(entries: seq<string>, dir: set<string>, scan: Scan)
    requires entries != []
    requires |RunEntries(entries, dir, scan).rows| == |entries|
    ensures var n := |entries| - 1;
      var before := RunEntries(entries[..n], dir, scan);
      && before.failure.None?
      && EntryRow(entries[n], before.dir, scan).Ok?
      && RunEntries(entries, dir, scan).rows[n] == EntryRow(entries[n], before.dir, scan).value.0
  {
  }

  /** Every row has the three fixed cells and one per keyword. */
  lemma RunEntriesWidth(entries: seq<string>, dir: set<string>, scan: Scan)
    ensures forall j :: 0 <= j < |RunEntries(entries, dir, scan).rows| ==>
      |RunEntries(entries, dir, scan).rows[j]| == 3 + |scan.keywords|
  {
    var rows := RunEntries(entries, dir, scan).rows;
    forall j | 0 <= j < |rows| ensures |rows[j]| == 3 + |scan.keywords| {
      RunEntriesRow(entries, dir, scan, j);
      EntryRowShape(entries[j], RunEntries(entries[..j], dir, scan).dir, scan);
    }
  }

  /** One turn of the loop of `process_pdfs` over the listing. */
  method ProcessListed(listing: seq<string>, i: nat, p: Progress, files: set<string>, scan: Scan)
    returns (p': Progress)
    requires i < |listing| && p.failure.None?
    requires p == RunEntries(PdfEntries(listing[..i]), files, scan)
    ensures p' == RunEntries(PdfEntries(listing[..i + 1]), files, scan)
  {
    PdfEntriesStep(listing, i);
    p' := p;
    if IsPdfName(listing[i]) {
      var pdfs := PdfEntries(listing[..i + 1]);
      assert pdfs[..|pdfs| - 1] == PdfEntries(listing[..i]);
      var row, dir' := ProcessEntry(listing[i], p.dir, scan);
      if row.Err? {
        p' := Progress(p.rows, p.dir, Some(row.error));
      } else {
        p' := Progress(p.rows + [row.value], dir', None);
      }
    }
  }

  /** The loop of `process_pdfs`: one row per PDF entry, renaming as it goes, until a rejected day or a failed rename ends it. */
  method CollectPdfRows(listing: seq<string>, files: set<string>, scan: Scan) returns (p: Progress)
    ensures p == RunEntries(PdfEntries(listing), files, scan)
  {
    p := Progress([], files, None);
    for i := 0 to |listing|
      invariant p.failure.None? ==> p == RunEntries(PdfEntries(listing[..i]), files, scan)
      invariant p.failure.Some? ==> p == RunEntries(PdfEntries(listing), files, scan)
    {
      if p.failure.Some? {
        break;
      }
      p := ProcessListed(listing, i, p, files, scan);
      if p.failure.Some? {
        RunEntriesFrom(listing, i + 1, files, scan);
      }
    }
    assert listing[..|listing|] == listing;
  }

  /** Once the loop has stopped, the later entries change nothing. */
  lemma {:induction false} RunEntriesFrom(listing: seq<string>, i: nat, files: set<string>, scan: Scan)
    requires i <= |listing|
    requires RunEntries(PdfEntries(listing[..i]), files, scan).failure.Some?
    ensures RunEntries(PdfEntries(listing), files, scan) == RunEntries(PdfEntries(listing[..i]), files, scan)
    decreases |listing| - i
  {
    if i == |listing| {
      assert listing[..i] == listing;
    } else {
      PdfEntriesStep(listing, i);
      var pdfs := PdfEntries(listing[..i + 1]);
      if IsPdfName(listing[i]) {
        assert pdfs[..|pdfs| - 1] == PdfEntries(listing[..i]);
      }
      RunEntriesFrom(listing, i + 1, files, scan);
    }
  }

  /** The report `process_pdfs` writes: its rows and the path of the CSV file. */
  datatype Report = Report(matrix: seq<seq<string>>, csvPath: string)

  /**
    `process_pdfs`: the report matrix (header, then one row per PDF in listing
    order) and the path of the CSV it is written to, or what raised, in which
    case no CSV is written; either way the directory contents the renames
    left. `keywordsText` is the keyword file's text, `None` when opening or
    decoding it raises; `files` are the names of the files in the PDF
    directory; `outputFiles` the names of the files in the output directory.
  */
  method ProcessPdfs(listing: seq<string>, files: set<string>, keywordsText: Option<string>, rename: bool,
                     outputDir: string, outputFiles: set<string>,
                     textOf: string -> string, companyOf: string -> Option<string>, dateOf: string -> DateMatch,
                     renames: string -> bool)
    returns (written: Result<Report, Failure>, files': set<string>)
    ensures keywordsText.None? ==> written == Err(KeywordsUnreadable) && files' == files
    ensures keywordsText.Some? ==>
      var scan := Scan(LoadKeywords(keywordsText.value), rename, textOf, companyOf, dateOf, renames);
      var run := RunEntries(PdfEntries(listing), files, scan);
      && files' == run.dir
      && (written.Ok? <==> run.failure.None?)
      && (written.Err? ==> Some(written.error) == run.failure && written.error != KeywordsUnreadable)
      && (written.Ok? ==> written.value.matrix == [Header(scan.keywords)] + run.rows && |run.rows| == |PdfEntries(listing)|)
    ensures keywordsText.Some? ==>
      var scan := Scan(LoadKeywords(keywordsText.value), rename, textOf, companyOf, dateOf, renames);
      (written.Ok? <==> forall j :: 0 <= j < |PdfEntries(listing)| ==> RowBuilds(PdfEntries(listing), files, scan, j))
    ensures keywordsText.Some? && !rename ==>
      var scan := Scan(LoadKeywords(keywordsText.value), rename, textOf, companyOf, dateOf, renames);
      (written.Ok? <==> forall e :: e in PdfEntries(listing) ==> !DayRejected(e, scan))
    ensures written.Ok? ==> forall i :: 0 <= i < |written.value.matrix| ==> |written.value.matrix[i]| == |written.value.matrix[0]|
    ensures written.Ok? ==> exists name :: name !in outputFiles && written.value.csvPath == Paths.Join(outputDir, name)
    ensures written.Ok? && "output.csv" !in outputFiles ==> written.value.csvPath == Paths.Join(outputDir, "output.csv")
    ensures written.Ok? ==> written.value.csvPath == Paths.Join(outputDir, UniqueFilename(outputFiles, "output.csv"))
  {
    if keywordsText.None? {
      return Err(KeywordsUnreadable), files;
    }
    var scan := Scan(LoadKeywords(keywordsText.value), rename, textOf, companyOf, dateOf, renames);
    var p := CollectPdfRows(listing, files, scan);
    RunEntriesStops(PdfEntries(listing), files, scan);
    RunEntriesBuilds(PdfEntries(listing), files, scan);
    if !rename {
      RunEntriesDaysOnly(PdfEntries(listing), files, scan);
    }
    files' := p.dir;
    if p.failure.Some? {
      EntryRowShape(PdfEntries(listing)[|p.rows|], p.dir, scan);
      return Err(p.failure.value), files';
    }
    RunEntriesWidth(PdfEntries(listing), files, scan);
    var matrix := [Header(scan.keywords)] + p.rows;
    MatrixWidths(scan.keywords, p.rows);
    var name := GetUniqueFilename(outputFiles, "output.csv");
    written := Ok(Report(matrix, Paths.Join(outputDir, name)));
  }

  /** Rows as wide as the header make a rectangular matrix. */
  lemma MatrixWidths(keywords: seq<string>, rows: seq<seq<string>>)
    requires forall j :: 0 <= j < |rows| ==> |rows[j]| == 3 + |keywords|
    ensures var matrix := [Header(keywords)] + rows;
      forall i :: 0 <= i < |matrix| ==> |matrix[i]| == |matrix[0]|
  {
    var matrix := [Header(keywords)] + rows;
    forall i | 0 <= i < |matrix| ensures |matrix[i]| == |matrix[0]| {
      if i > 0 {
        assert matrix[i] == rows[i - 1];
      }
    }
  }
}

=== FILE: logger_manager.dfy ===
/**
  The severity rule of `src/logger_manager.py`: a printed message is
  split into word tokens, lower-cased, and mapped to ERROR, WARNING, DEBUG
  or INFO by the first token set it meets; and the message text the
  replacement `print` assembles.
*/
module LoggerManager {
  import opened Text

  /** The levels of Python's `logging`, with their numeric values. */
  datatype Level = Debug | Info | Warning | Error

  function Severity(level: Level): nat {
    match level
    case Debug => 10
    case Info => 20
    case Warning => 30
    case Error => 40
  }

  /** The token sets, as written; the symbol entries hold characters no token can contain. */
  const ErrorTokens: set<string> := {"\U{274C}", "erro", "error", "fatal"}
  const WarningTokens: set<string> := {"\U{26A0}\U{FE0F}", "warn", "aviso"}
  const DebugTokens: set<string> := {"\U{1F41E}", "debug"}

  /**
    A character of the token pattern `[\wÀ-ÿ]`, for characters up to U+00FF:
    ASCII letters, digits and '_', the Latin-1 letters and numerals
    ª ² ³ µ ¹ º ¼ ½ ¾, and the whole range À-ÿ.
  */
  predicate IsWordChar(c: char) {
    ('a' <= c <= 'z') || ('A' <= c <= 'Z') || ('0' <= c <= '9') || c == '_'
    || c == '\U{AA}' || c == '\U{B2}' || c == '\U{B3}' || c == '\U{B5}' || c == '\U{B9}' || c == '\U{BA}'
    || ('\U{BC}' <= c <= '\U{BE}') || ('\U{C0}' <= c <= '\U{FF}')
  }

  predicate IsWord(s: string) {
    forall i :: 0 <= i < |s| ==> IsWordChar(s[i])
  }

  /** Length of the run of word characters that starts `s`. */
  function RunLength(s: string): (n: nat)
    requires s != [] && IsWordChar(s[0])
    ensures 0 < n <= |s| && IsWord(s[..n])
    ensures n < |s| ==> !IsWordChar(s[n])
    decreases |s|
  {
    if |s| == 1 || !IsWordChar(s[1]) then 1 else 1 + RunLength(s[1..])
  }

  /** `_token_regex.findall(message)`: the maximal runs of word characters, left to right. */
  function Tokens(s: string): (tokens: seq<string>)
    ensures forall i :: 0 <= i < |tokens| ==> tokens[i] != [] && IsWord(tokens[i])
    decreases |s|
  {
    if s == [] then []
    else if !IsWordChar(s[0]) then Tokens(s[1..])
    else
      var n := RunLength(s);
      [s[..n]] + Tokens(s[n..])
  }

  /** The lower-cased token set `_detect_level` intersects with the three sets. */
  function LoweredTokens(message: string): set<string> {
    LoweredSet(Tokens(message))
  }

  /** The set of the lower-cased words. */
  function LoweredSet(words: seq<string>): set<string> {
    set t | t in words :: Lower(t)
  }

  /** `_detect_level`: ERROR before WARNING before DEBUG; INFO otherwise. */
  function DetectLevel(message: string): Level {
    var tokens := LoweredTokens(message);
    if tokens * ErrorTokens != {} then Error
    else if tokens * WarningTokens != {} then Warning
    else if tokens * DebugTokens != {} then Debug
    else Info
  }

  /** Lower-casing keeps a character a word character. */
  lemma LowerWordChar(c: char)
    ensures IsWordChar(LowerChar(c)) == IsWordChar(c)
  {
  }

  lemma LowerWord(s: string)
    requires IsWord(s)
    ensures IsWord(Lower(s))
  {
    forall i | 0 <= i < |s| ensures IsWordChar(Lower(s)[i]) {
      LowerWordChar(s[i]);
    }
  }

  /** No token, lower-cased or not, is one of the symbol entries. */
  lemma SymbolsNeverMatch(message: string)
    ensures "\U{274C}" !in LoweredTokens(message)
    ensures "\U{26A0}\U{FE0F}" !in LoweredTokens(message)
    ensures "\U{1F41E}" !in LoweredTokens(message)
  {
    var tokens := Tokens(message);
    forall t | t in tokens ensures IsWord(Lower(t)) {
      LowerWord(t);
    }
  }

  /** So the level is decided by the word entries alone. */
  lemma DetectLevelByWords(message: string)
    ensures DetectLevel(message) == Error <==> exists t :: t in LoweredTokens(message) && t in {"erro", "error", "fatal"}
    ensures DetectLevel(message) == Warning <==>
      (forall t :: t in LoweredTokens(message) ==> t !in {"erro", "error", "fatal"})
      && (exists t :: t in LoweredTokens(message) && t in {"warn", "aviso"})
    ensures DetectLevel(message) == Debug <==>
      (forall t :: t in LoweredTokens(message) ==> t !in {"erro", "error", "fatal", "warn", "aviso"})
      && "debug" in LoweredTokens(message)
    ensures DetectLevel(message) == Info <==>
      forall t :: t in LoweredTokens(message) ==> t !in {"erro", "error", "fatal", "warn", "aviso", "debug"}
  {
    SymbolsNeverMatch(message);
    var ts := LoweredTokens(message);
    assert ts * ErrorTokens == ts * {"erro", "error", "fatal"};
    assert ts * WarningTokens == ts * {"warn", "aviso"};
    if exists t :: t in ts && t in {"erro", "error", "fatal"} {
      var t :| t in ts && t in {"erro", "error", "fatal"};
      assert t in ts * ErrorTokens;
    }
    if exists t :: t in ts && t in {"warn", "aviso"} {
      var t :| t in ts && t in {"warn", "aviso"};
      assert t in ts * WarningTokens;
    }
    assert ts * DebugTokens == ts * {"debug"};
    if "debug" in ts {
      assert "debug" in ts * DebugTokens;
    }
  }

  /** Tokens of two texts joined by a space are the tokens of each. */
  lemma {:induction false} TokensSpace(a: string, b: string)
    ensures Tokens(a + " " + b) == Tokens(a) + Tokens(b)
    decreases |a|
  {
    var s := a + " " + b;
    if a == [] {
      assert s[1..] == b;
    } else if !IsWordChar(a[0]) {
      assert s[1..] == a[1..] + " " + b;
      TokensSpace(a[1..], b);
    } else {
      var n := RunLength(s);
      RunLengthPrefix(a, " " + b);
      assert s == a + (" " + b);
      var m := RunLength(a);
      assert n == m;
      assert s[..n] == a[..m];
      if m == |a| {
        assert s[n..] == " " + b;
        assert a[m..] == [];
        assert (" " + b)[1..] == b;
      } else {
        assert s[n..] == a[m..] + " " + b;
        TokensSpace(a[m..], b);
      }
    }
  }

  /** A run that starts in `a` ends in `a` when `rest` starts with a non-word character. */
  lemma {:induction false} RunLengthPrefix(a: string, rest: string)
    requires a != [] && IsWordChar(a[0]) && rest != [] && !IsWordChar(rest[0])
    ensures RunLength(a + rest) == RunLength(a)
    decreases |a|
  {
    var s := a + rest;
    if |a| > 1 && IsWordChar(a[1]) {
      assert s[1..] == a[1..] + rest;
      RunLengthPrefix(a[1..], rest);
    }
  }

  /** A word is a single token. */
  lemma {:induction false} WordIsOneToken(w: string)
    requires w != [] && IsWord(w)
    ensures Tokens(w) == [w]
  {
    WordRun(w);
    assert IsWordChar(w[0]);
    assert w[..|w|] == w && w[|w|..] == [];
  }

  lemma {:induction false} WordRun(w: string)
    requires w != [] && IsWord(w)
    ensures RunLength(w) == |w|
    decreases |w|
  {
    if |w| > 1 {
      WordRun(w[1..]);
    }
  }

  /** An error word outranks anything said before it: "aviso erro" is an error. */
  lemma ErrorWordWins(first: string, second: string)
    requires first != [] && IsWord(first) && second != [] && IsWord(second)
    requires Lower(second) in {"erro", "error", "fatal"}
    ensures DetectLevel(first + " " + second) == Error
  {
    var message := first + " " + second;
    TokensSpace(first, second);
    WordIsOneToken(first);
    WordIsOneToken(second);
    assert Tokens(message) == [first, second];
    assert Lower(second) in LoweredTokens(message);
    assert Lower(second) in LoweredTokens(message) * ErrorTokens;
  }

  /** Matching is on whole tokens: a word that only starts with "error" leaves the level at INFO. */
  lemma WholeTokensOnly(w: string)
    requires w == "errors"
    ensures DetectLevel(w) == Info
  {
    WordIsOneToken(w);
    assert LoweredTokens(w) == {Lower(w)};
    assert |Lower(w)| == 6;
    assert Lower(w)[0] == 'e' && Lower(w)[1] == 'r';
  }

  /** Each token lower-cased. */
  function LowerAll(tokens: seq<string>): (lowered: seq<string>)
    ensures |lowered| == |tokens|
    ensures forall i :: 0 <= i < |tokens| ==> lowered[i] == Lower(tokens[i])
  {
    if tokens == [] then [] else [Lower(tokens[0])] + LowerAll(tokens[1..])
  }

  lemma LowerSlices(s: string, n: nat)
    requires n <= |s|
    ensures Lower(s)[..n] == Lower(s[..n]) && Lower(s)[n..] == Lower(s[n..])
  {
    LowerTake(s, n);
    LowerDrop(s, n);
  }

  lemma LowerTake(s: string, n: nat)
    requires n <= |s|
    ensures Lower(s)[..n] == Lower(s[..n])
  {
  }

  lemma LowerDrop(s: string, n: nat)
    requires n <= |s|
    ensures Lower(s)[n..] == Lower(s[n..])
  {
  }

  lemma {:induction false} RunLengthLower(s: string)
    requires s != [] && IsWordChar(s[0])
    ensures IsWordChar(Lower(s)[0]) && RunLength(Lower(s)) == RunLength(s)
    decreases |s|
  {
    LowerWordChar(s[0]);
    if |s| > 1 {
      LowerWordChar(s[1]);
      if IsWordChar(s[1]) {
        LowerSlices(s, 1);
        RunLengthLower(s[1..]);
      }
    }
  }

  /** Lower-casing a message lower-cases its tokens and keeps their boundaries. */
  lemma {:induction false} TokensLower(s: string)
    ensures Tokens(Lower(s)) == LowerAll(Tokens(s))
    decreases |s|
  {
    if s != [] {
      LowerWordChar(s[0]);
      if !IsWordChar(s[0]) {
        LowerSlices(s, 1);
        TokensLower(s[1..]);
      } else {
        var n := RunLength(s);
        RunLengthLower(s);
        LowerSlices(s, n);
        TokensLower(s[n..]);
        assert LowerAll(Tokens(s))[1..] == LowerAll(Tokens(s[n..]));
      }
    }
  }

  /** `str.lower()` is idempotent on the characters it knows. */
  lemma LowerIdempotent(s: string)
    ensures Lower(Lower(s)) == Lower(s)
  {
  }

  /** The token set of the lower-cased message is the token set of the message. */
  lemma LoweredTokensLower(message: string)
    ensures LoweredTokens(Lower(message)) == LoweredTokens(message)
  {
    TokensLower(message);
    LowerAllSameSet(Tokens(message));
  }

  /** Lower-casing words that were lower-cased already gives the same set. */
  lemma LowerAllSameSet(ts: seq<string>)
    ensures LoweredSet(LowerAll(ts)) == LoweredSet(ts)
  {
    var lts := LowerAll(ts);
    forall t | t in lts ensures Lower(t) in LoweredSet(ts) {
      var i :| 0 <= i < |lts| && lts[i] == t;
      LowerIdempotent(ts[i]);
      assert ts[i] in ts;
    }
    forall t | t in ts ensures Lower(t) in LoweredSet(lts) {
      var i :| 0 <= i < |ts| && ts[i] == t;
      LowerIdempotent(t);
      assert lts[i] in lts;
    }
  }

  /** Matching ignores case: a message and its lower-cased form get the same level. */
  lemma DetectLevelIgnoresCase(message: string)
    ensures DetectLevel(Lower(message)) == DetectLevel(message)
  {
    LoweredTokensLower(message);
  }

  /** `_print_to_log`'s message: the arguments joined by `sep`, then `end` without trailing newlines. */
  function PrintMessage(args: seq<string>, sep: string, end: string): (msg: string)
    ensures StartsWith(msg, Join(sep, args))
    ensures var e := msg[|Join(sep, args)|..];
      && |e| <= |end| && e == end[..|e|]
      && (forall i :: |e| <= i < |end| ==> end[i] == '\n')
      && (e == [] || e[|e| - 1] != '\n')
  {
    var e := TrimEnd(end, c => c == '\n');
    assert (Join(sep, args) + e)[|Join(sep, args)|..] == e;
    Join(sep, args) + e
  }

  /** The default `end` adds nothing to the message; any other keeps all but its trailing newlines. */
  lemma PrintMessageEnd(args: seq<string>, sep: string, end: string, body: string)
    requires end == body + "\n" && (body == [] || body[|body| - 1] != '\n')
    ensures PrintMessage(args, sep, end) == Join(sep, args) + body
  {
    var e := TrimEnd(end, c => c == '\n');
    assert end[..|end| - 1] == body;
  }
}

=== FILE: openai_analyzer.dfy ===
/**
  `OpenAIAnalyzer` (`src/openai_analyzer.py`): the OpenAI-only pipeline
  over Markdown files. `analyze_documents` asks the model which keywords
  each document contains and builds one row per file; `enrich_dataframe`
  then asks for the company and date of each row's document and writes
  them, or a status, into the row.

  The model, the token encoder, the JSON decoder and the file system are
  given (`Backend`, `Files`); the prompt wording is a parameter (`Prompts`).
*/
module OpenAiAnalyzer {
  import opened Text
  import opened Values
  import Paths
  import opened AiConnector
  import AiAnalyzer
  import ConfigManager

  /** The prompt ceiling and default `max_tokens` of `extract_info_from_file`. */
  const ExtractionLimit: nat := 16384

  /** Why `extract_info_from_file` returned its error dictionary. */
  datatype Failure = Unconfigured | TooLong | ApiFailed(message: string)

  /** The message of the error dictionary for each failure. */
  function FailureText(failure: Failure): string {
    match failure
    case Unconfigured => "OpenAI não está configurada"
    case TooLong => "Mensagem muito longa. Número de tokens excede o limite do modelo."
    case ApiFailed(message) => "Ocorreu um erro: " + message
  }

  /** What `extract_info_from_file` returns: the reply text, or the error dictionary. */
  datatype Info = InfoText(text: string) | InfoError(failure: Failure)

  /** The outcome of one extraction, with the `max_tokens` sent when the API was called. */
  datatype Extraction = Extraction(info: Info, sent: Option<int>)

  /** The model, its encoder and the JSON decoder (the decoded object, or the decoding error). */
  datatype Backend = Backend(env: Environment, enc: Encoder, api: OpenAIApi, parse: string -> Result<Record, string>)

  /**
    The file system: which paths exist, what a file holds (`None` when opening
    or decoding it as UTF-8 raises, as for a directory or a non-UTF-8 file),
    what a directory lists.
  */
  datatype Files = Files(present: string -> bool, read: string -> Option<string>, list: string -> seq<string>)

  /**
    The prompt texts: keyword prompts depend on the context size and keywords,
    enrichment prompts on the summary option; `preamble` is the fixed text that
    opens every user message, before the document.
  */
  datatype Prompts = Prompts(keywordSystem: int -> string, keywordQuestion: (seq<string>, int) -> string,
                             enrichSystem: bool -> string, enrichQuestion: string, preamble: string)

  // ----- extract_info_from_file

  /** The system message and the user message wrapping the document and the question. */
  function ExtractionMessages(preamble: string, content: string, system: string, question: string): seq<Message> {
    [[("role", "system"), ("content", system)],
     [("role", "user"), ("content", preamble + content + "\n\nPergunta: " + question)]]
  }

  /** The model is sent the system text, then the document and the question after the fixed preamble. */
  lemma ExtractionMessagesContents(preamble: string, content: string, system: string, question: string)
    ensures var ms := ExtractionMessages(preamble, content, system, question);
      |ms| == 2 && ContentOf(ms[0]) == system && ContentOf(ms[1]) == preamble + content + "\n\nPergunta: " + question
  {
    var ms: seq<Message> := ExtractionMessages(preamble, content, system, question);
    assert ms[0][1..][0].0 == "content";
    assert ms[1][1..][0].0 == "content";
  }

  /** The `max_tokens` of an accepted prompt is at least the default and at most twice the ceiling. */
  lemma ExtractionBudgetBounds(tokens: nat)
    requires tokens <= ExtractionLimit
    ensures ExtractionLimit <= OpenAIBudget(tokens, ExtractionLimit) <= 2 * ExtractionLimit
    ensures OpenAIBudget(tokens, ExtractionLimit) >= 2 * tokens
  {
  }

  /** `extract_info_from_file` when the analyzer is `ready` (configured and a key is set). */
  function ExtractInfo(ready: bool, enc: Encoder, api: OpenAIApi, preamble: string, content: string, system: string, question: string): Extraction {
    if !ready then Extraction(InfoError(Unconfigured), None)
    else
      var messages := ExtractionMessages(preamble, content, system, question);
      var tokens := OpenAITokenCount(enc, messages);
      if tokens > ExtractionLimit then
        Extraction(InfoError(TooLong), None)
      else
        var budget := OpenAIBudget(tokens, ExtractionLimit);
        match api(messages, budget)
        case Ok(text) => Extraction(InfoText(text), Some(budget))
        case Err(e) => Extraction(InfoError(ApiFailed(e)), Some(budget))
  }

  /**
    The outcomes of an extraction: without configuration, or over the
    ceiling, the API is not called; when it is, `max_tokens` lies between
    the ceiling and twice the ceiling, and an API failure is reported with
    its message.
  */
  lemma ExtractInfoOutcomes(ready: bool, enc: Encoder, api: OpenAIApi, preamble: string, content: string, system: string, question: string)
    ensures var x := ExtractInfo(ready, enc, api, preamble, content, system, question);
      && (!ready ==> x == Extraction(InfoError(Unconfigured), None))
      && (x.sent.Some? <==> ready && OpenAITokenCount(enc, ExtractionMessages(preamble, content, system, question)) <= ExtractionLimit)
      && (ready && x.sent.None? ==> x.info == InfoError(TooLong))
      && (x.sent.Some? ==> ExtractionLimit <= x.sent.value <= 2 * ExtractionLimit)
      && (x.sent.Some? ==> x.info == (match api(ExtractionMessages(preamble, content, system, question), x.sent.value)
                                      case Ok(text) => InfoText(text)
                                      case Err(e) => InfoError(ApiFailed(e))))
  {
    if ready {
      var tokens := OpenAITokenCount(enc, ExtractionMessages(preamble, content, system, question));
      if tokens <= ExtractionLimit {
        ExtractionBudgetBounds(tokens);
      }
    }
  }

  // ----- find_keywords_in_file

  /** The decoded reply, or the error dictionary when it is not valid JSON. */
  function DecodeReply(cleaned: string, parse: string -> Result<Record, string>): (result: Record)
    ensures "error" in result || parse(cleaned) == Ok(result)
  {
    match parse(cleaned)
    case Ok(data) => data
    case Err(e) => map["error" := Str("Erro ao decodificar resposta: " + e)]
  }

  /** The result of `find_keywords_in_file` for an extraction outcome: a reply is unfenced, then decoded. */
  function FindKeywords(info: Info, parse: string -> Result<Record, string>): (result: Record)
    ensures info.InfoError? ==> result == map["error" := Str(FailureText(info.failure))]
    ensures "error" in result || (info.InfoText? && parse(AiAnalyzer.StripFences(info.text)) == Ok(result))
  {
    match info
    case InfoError(failure) => map["error" := Str(FailureText(failure))]
    case InfoText(text) => DecodeReply(AiAnalyzer.StripFences(text), parse)
  }

  // ----- analyze_documents: one row per Markdown file

  /**
    `keyword in found_keywords` for a value the test accepts: element of a
    list, substring of a string. A number, a boolean or None makes the test
    raise `TypeError` (`Searchable`); this predicate is consulted only for
    searchable values.
  */
  predicate InFound(keyword: string, found: Value) {
    match found
    case StrList(items) => keyword in items
    case List(values) => Str(keyword) in values
    case Str(s) => Contains(s, keyword)
    case _ => false
  }

  /** The values `in` can search. */
  predicate Searchable(found: Value) {
    found.StrList? || found.List? || found.Str?
  }

  /**
    Building the row raises `TypeError`: the search succeeded, there is at
    least one keyword to test, and the value under "keywords" is a number, a
    boolean or None.
  */
  predicate AnalysisRaises(keywords: seq<string>, result: Record) {
    "error" !in result && keywords != [] && !Searchable(Get(result, "keywords", StrList([])))
  }

  /** The row before any keyword column: name, empty company, date and found list, and the summary when asked for. */
  function BaseRow(pdfName: string, includeSummary: bool): Record {
    var base := map["file_name" := Str(pdfName), "company" := Str(""), "date" := Str(""), "keywords" := StrList([])];
    if includeSummary then base["resumo" := Str("")] else base
  }

  /** The first loop: every keyword column set to None, in order. */
  function ClearKeywords(row: Record, keywords: seq<string>): Record
    decreases |keywords|
  {
    if keywords == [] then row
    else ClearKeywords(row, keywords[..|keywords| - 1])[keywords[|keywords| - 1] := Null]
  }

  /** The second loop: each keyword the model listed and gave sentences for takes them. */
  function FillFound(row: Record, keywords: seq<string>, found: Value, result: Record): Record
    decreases |keywords|
  {
    if keywords == [] then row
    else
      var k := keywords[|keywords| - 1];
      var r := FillFound(row, keywords[..|keywords| - 1], found, result);
      if InFound(k, found) && k in result then r[k := result[k]] else r
  }

  /** The row both loops leave for the file renamed to `pdfName`, when neither raises. */
  function FilledRow(pdfName: string, keywords: seq<string>, includeSummary: bool, result: Record): Record {
    var cleared := ClearKeywords(BaseRow(pdfName, includeSummary), keywords);
    if "error" in result then cleared
    else
      var found := Get(result, "keywords", StrList([]));
      FillFound(cleared["keywords" := found], keywords, found, result)
  }

  /** A row of `analyze_documents` for the result of a keyword search, or `None` when building it raises. */
  function AnalysisRow(pdfName: string, keywords: seq<string>, includeSummary: bool, result: Record): (row: Option<Record>)
    ensures row.None? <==> AnalysisRaises(keywords, result)
    ensures row.Some? ==> row.value == FilledRow(pdfName, keywords, includeSummary, result)
  {
    if AnalysisRaises(keywords, result) then None else Some(FilledRow(pdfName, keywords, includeSummary, result))
  }

  /** A number under "keywords" makes building the row raise; with no keyword to test it does not. */
  lemma NumberFoundRaises(pdfName: string, keyword: string, includeSummary: bool, result: Record)
    requires result == map["keywords" := Int(3)]
    ensures AnalysisRow(pdfName, [keyword], includeSummary, result).None?
    ensures AnalysisRow(pdfName, [], includeSummary, result).Some?
  {
  }

  /** The statements of `analyze_documents` that build one row, up to the membership test that raises. */
  method BuildAnalysisRow(pdfName: string, keywords: seq<string>, includeSummary: bool, result: Record) returns (row: Option<Record>)
    ensures row == AnalysisRow(pdfName, keywords, includeSummary, result)
  {
    var cells := map["file_name" := Str(pdfName), "company" := Str(""), "date" := Str(""), "keywords" := StrList([])];
    if includeSummary {
      cells := cells["resumo" := Str("")];
    }
    ghost var base := cells;
    for i := 0 to |keywords|
      invariant cells == ClearKeywords(base, keywords[..i])
    {
      assert keywords[..i + 1][..i] == keywords[..i];
      cells := cells[keywords[i] := Null];
    }
    assert keywords[..|keywords|] == keywords;
    if "error" in result {
      assert !AnalysisRaises(keywords, result);
      return Some(cells);
    }
    var found := Get(result, "keywords", StrList([]));
    cells := cells["keywords" := found];
    ghost var filled := cells;
    for i := 0 to |keywords|
      invariant cells == FillFound(filled, keywords[..i], found, result)
      invariant i > 0 ==> Searchable(found)
    {
      assert keywords[..i + 1][..i] == keywords[..i];
      var keyword := keywords[i];
      if !Searchable(found) {
        assert AnalysisRaises(keywords, result);
        return None;
      }
      if InFound(keyword, found) && keyword in result {
        cells := cells[keyword := result[keyword]];
      }
    }
    assert keywords[..|keywords|] == keywords;
    row := Some(cells);
  }

  /** After the first loop: the keyword columns are None, the other columns are untouched. */
  lemma {:induction false} ClearKeywordsCell(row: Record, keywords: seq<string>, k: string)
    ensures k in ClearKeywords(row, keywords) <==> k in row || k in keywords
    ensures k in keywords ==> ClearKeywords(row, keywords)[k] == Null
    ensures k !in keywords && k in row ==> ClearKeywords(row, keywords)[k] == row[k]
    decreases |keywords|
  {
    if keywords != [] {
      var init := keywords[..|keywords| - 1];
      ClearKeywordsCell(row, init, k);
      assert keywords == init + [keywords[|keywords| - 1]];
    }
  }

  /** After the second loop: a listed keyword holds its sentences, every other column is untouched. */
  lemma {:induction false} FillFoundCell(row: Record, keywords: seq<string>, found: Value, result: Record, k: string)
    ensures k in FillFound(row, keywords, found, result) <==> k in row || (k in keywords && InFound(k, found) && k in result)
    ensures k in keywords && InFound(k, found) && k in result ==> FillFound(row, keywords, found, result)[k] == result[k]
    ensures !(k in keywords && InFound(k, found) && k in result) && k in row ==> FillFound(row, keywords, found, result)[k] == row[k]
    decreases |keywords|
  {
    if keywords != [] {
      var init := keywords[..|keywords| - 1];
      FillFoundCell(row, init, found, result, k);
      assert keywords == init + [keywords[|keywords| - 1]];
    }
  }

  /** The columns of a row: the fixed ones, "resumo" when asked for, and one per keyword. */
  predicate IsAnalysisColumn(k: string, keywords: seq<string>, includeSummary: bool) {
    k == "file_name" || k == "company" || k == "date" || k == "keywords" || (includeSummary && k == "resumo") || k in keywords
  }

  /** What a column holds once both loops have run. */
  function AnalysisCell(pdfName: string, keywords: seq<string>, result: Record, k: string): Value {
    var found := Get(result, "keywords", StrList([]));
    if "error" !in result && k in keywords && InFound(k, found) && k in result then result[k]
    else if "error" !in result && k == "keywords" then found
    else if k in keywords then Null
    else if k == "file_name" then Str(pdfName)
    else if k == "keywords" then StrList([])
    else Str("")
  }

  /** The row holds exactly its columns, each with the value the statements leave last. */
  lemma AnalysisRowCell(pdfName: string, keywords: seq<string>, includeSummary: bool, result: Record, k: string)
    ensures k in FilledRow(pdfName, keywords, includeSummary, result) <==> IsAnalysisColumn(k, keywords, includeSummary)
    ensures k in FilledRow(pdfName, keywords, includeSummary, result) ==>
      FilledRow(pdfName, keywords, includeSummary, result)[k] == AnalysisCell(pdfName, keywords, result, k)
  {
    var base := BaseRow(pdfName, includeSummary);
    var cleared := ClearKeywords(base, keywords);
    ClearKeywordsCell(base, keywords, k);
    if "error" !in result {
      var found := Get(result, "keywords", StrList([]));
      FillFoundCell(cleared["keywords" := found], keywords, found, result, k);
      if k == "keywords" && k in keywords && InFound(k, found) && k in result {
        assert found == result[k];
      }
    }
  }

  /** Every keyword gets a column, None unless the model listed it and gave its sentences. */
  lemma KeywordColumnsOfAnalysisRow(pdfName: string, keywords: seq<string>, includeSummary: bool, result: Record, k: string)
    requires k in keywords && k != "keywords"
    ensures k in FilledRow(pdfName, keywords, includeSummary, result)
    ensures FilledRow(pdfName, keywords, includeSummary, result)[k] ==
      if "error" !in result && InFound(k, Get(result, "keywords", StrList([]))) && k in result then result[k] else Null
  {
    AnalysisRowCell(pdfName, keywords, includeSummary, result, k);
  }

  /** An error result leaves the found list empty and every keyword column None. */
  lemma ErrorResultRow(pdfName: string, keywords: seq<string>, includeSummary: bool, result: Record, k: string)
    requires "error" in result && "keywords" !in keywords && k in keywords
    ensures "keywords" in FilledRow(pdfName, keywords, includeSummary, result) && k in FilledRow(pdfName, keywords, includeSummary, result)
    ensures FilledRow(pdfName, keywords, includeSummary, result)["keywords"] == StrList([])
    ensures FilledRow(pdfName, keywords, includeSummary, result)[k] == Null
  {
    AnalysisRowCell(pdfName, keywords, includeSummary, result, "keywords");
    AnalysisRowCell(pdfName, keywords, includeSummary, result, k);
  }

  /** The summary column is there exactly when it was asked for (unless it is also a keyword). */
  lemma SummaryColumnIff(pdfName: string, keywords: seq<string>, includeSummary: bool, result: Record)
    requires "resumo" !in keywords
    ensures "resumo" in FilledRow(pdfName, keywords, includeSummary, result) <==> includeSummary
  {
    AnalysisRowCell(pdfName, keywords, includeSummary, result, "resumo");
  }

  /** The row's file name is the PDF name, unless a keyword is called "file_name". */
  lemma AnalysisRowFileName(pdfName: string, keywords: seq<string>, includeSummary: bool, result: Record)
    requires "file_name" !in keywords
    ensures "file_name" in FilledRow(pdfName, keywords, includeSummary, result)
    ensures FilledRow(pdfName, keywords, includeSummary, result)["file_name"] == Str(pdfName)
  {
    AnalysisRowCell(pdfName, keywords, includeSummary, result, "file_name");
  }

  /** The directory entries `analyze_documents` reads: names whose lower-cased form ends with ".md". */
  function MarkdownEntries(listing: seq<string>): (entries: seq<string>)
    ensures |entries| <= |listing|
    ensures forall e :: e in entries ==> e in listing && EndsWith(Lower(e), ".md")
  {
    if listing == [] then []
    else
      var last := listing[|listing| - 1];
      MarkdownEntries(listing[..|listing| - 1]) + (if EndsWith(Lower(last), ".md") then [last] else [])
  }

  /** One more listing entry adds itself when it is a Markdown name, and nothing otherwise. */
  lemma MarkdownEntriesStep(listing: seq<string>, i: nat)
    requires i < |listing|
    ensures MarkdownEntries(listing[..i + 1])
      == MarkdownEntries(listing[..i]) + (if EndsWith(Lower(listing[i]), ".md") then [listing[i]] else [])
  {
    assert listing[..i + 1][..i] == listing[..i];
  }

  /** The Markdown entries of two listings one after the other are those of each, in order. */
  lemma {:induction false} MarkdownEntriesAppend(first: seq<string>, rest: seq<string>)
    ensures MarkdownEntries(first + rest) == MarkdownEntries(first) + MarkdownEntries(rest)
    decreases |rest|
  {
    if rest == [] {
      assert first + rest == first;
    } else {
      var init := rest[..|rest| - 1];
      assert (first + rest)[..|first + rest| - 1] == first + init;
      MarkdownEntriesAppend(first, init);
    }
  }

  /** `filename.replace(".md", ".pdf")`. */
  function PdfName(filename: string): string {
    ReplaceAll(filename, ".md", ".pdf")
  }

  /** The keyword search for one Markdown file of `directory`; `None` when reading the file raises. */
  function KeywordSearch(ready: bool, directory: string, entry: string, keywords: seq<string>, contextChars: int,
                         prompts: Prompts, backend: Backend, files: Files): Option<Record> {
    match files.read(Paths.Join(directory, entry))
    case None => None
    case Some(content) =>
      var x := ExtractInfo(ready, backend.enc, backend.api, prompts.preamble, content,
                           prompts.keywordSystem(contextChars), prompts.keywordQuestion(keywords, contextChars));
      Some(FindKeywords(x.info, backend.parse))
  }

  /** The row for one Markdown entry: named after the PDF, filled from the keyword search; `None` when building it raises. */
  function EntryRow(ready: bool, directory: string, entry: string, keywords: seq<string>, includeSummary: bool,
                    contextChars: int, prompts: Prompts, backend: Backend, files: Files): Option<Record> {
    match KeywordSearch(ready, directory, entry, keywords, contextChars, prompts, backend, files)
    case None => None
    case Some(result) => AnalysisRow(PdfName(entry), keywords, includeSummary, result)
  }

  /**
    An entry raises exactly when its file cannot be read, or when the search
    result makes the membership test raise; the search itself never raises
    on a readable file.
  */
  lemma EntryRowRaises(ready: bool, directory: string, entry: string, keywords: seq<string>, includeSummary: bool,
                       contextChars: int, prompts: Prompts, backend: Backend, files: Files)
    ensures var search := KeywordSearch(ready, directory, entry, keywords, contextChars, prompts, backend, files);
      && (search.None? <==> files.read(Paths.Join(directory, entry)).None?)
      && (EntryRow(ready, directory, entry, keywords, includeSummary, contextChars, prompts, backend, files).None?
          <==> search.None? || AnalysisRaises(keywords, search.value))
  {
  }

  /** Unless a keyword is called "file_name", an entry's row carries the PDF name as its file name. */
  lemma EntryRowFileName(ready: bool, directory: string, entry: string, keywords: seq<string>, includeSummary: bool,
                         contextChars: int, prompts: Prompts, backend: Backend, files: Files)
    requires "file_name" !in keywords
    ensures var row := EntryRow(ready, directory, entry, keywords, includeSummary, contextChars, prompts, backend, files);
      row.Some? ==> HasFileName(row.value) && row.value["file_name"].s == PdfName(entry)
  {
    var search := KeywordSearch(ready, directory, entry, keywords, contextChars, prompts, backend, files);
    if search.Some? {
      AnalysisRowFileName(PdfName(entry), keywords, includeSummary, search.value);
    }
  }

  /** The row of an entry, as a function of the entry. */
  function EntryRowOf(ready: bool, directory: string, keywords: seq<string>, includeSummary: bool, contextChars: int,
                      prompts: Prompts, backend: Backend, files: Files): (rowOf: string -> Option<Record>)
    ensures forall entry :: rowOf(entry) == EntryRow(ready, directory, entry, keywords, includeSummary, contextChars, prompts, backend, files)
  {
    entry => EntryRow(ready, directory, entry, keywords, includeSummary, contextChars, prompts, backend, files)
  }

  /** The rows of `entries` in order, or `None` once the row of an entry raises. */
  function Collected(entries: seq<string>, rowOf: string -> Option<Record>): (rows: Option<seq<Record>>)
    ensures rows.Some? ==> |rows.value| == |entries|
    decreases |entries|
  {
    if entries == [] then Some([])
    else
      match Collected(entries[..|entries| - 1], rowOf)
      case None => None
      case Some(rows) =>
        match rowOf(entries[|entries| - 1])
        case None => None
        case Some(row) => Some(rows + [row])
  }

  /** One more entry adds its row, unless the rows so far or its own row raised. */
  lemma CollectedSnoc(entries: seq<string>, entry: string, rowOf: string -> Option<Record>)
    ensures Collected(entries + [entry], rowOf)
      == if Collected(entries, rowOf).None? || rowOf(entry).None? then None
         else Some(Collected(entries, rowOf).value + [rowOf(entry).value])
  {
    assert (entries + [entry])[..|entries|] == entries;
  }

  /** The rows of the first `i + 1` entries of a listing, from those of the first `i`. */
  lemma CollectedEntry(listing: seq<string>, i: nat, rowOf: string -> Option<Record>, collected: Option<seq<Record>>, results: seq<Record>)
    requires i < |listing| && Collected(MarkdownEntries(listing[..i]), rowOf) == Some(results)
    requires !EndsWith(Lower(listing[i]), ".md") ==> collected == Some(results)
    requires EndsWith(Lower(listing[i]), ".md") ==>
      collected == if rowOf(listing[i]).None? then None else Some(results + [rowOf(listing[i]).value])
    ensures collected == Collected(MarkdownEntries(listing[..i + 1]), rowOf)
  {
    MarkdownEntriesStep(listing, i);
    var entries := MarkdownEntries(listing[..i]);
    if EndsWith(Lower(listing[i]), ".md") {
      CollectedSnoc(entries, listing[i], rowOf);
    } else {
      assert entries + [] == entries;
    }
  }

  /** The rows are collected exactly when no entry's row raises, and then each row is that of its entry. */
  lemma {:induction false} CollectedRows(entries: seq<string>, rowOf: string -> Option<Record>)
    ensures Collected(entries, rowOf).None? <==> exists i :: 0 <= i < |entries| && rowOf(entries[i]).None?
    ensures Collected(entries, rowOf).Some? ==>
      forall i :: 0 <= i < |entries| ==> rowOf(entries[i]) == Some(Collected(entries, rowOf).value[i])
    decreases |entries|
  {
    if entries != [] {
      var init := entries[..|entries| - 1];
      CollectedRows(init, rowOf);
      assert forall i :: 0 <= i < |init| ==> init[i] == entries[i];
      if exists i :: 0 <= i < |entries| && rowOf(entries[i]).None? {
        var i :| 0 <= i < |entries| && rowOf(entries[i]).None?;
        if i < |init| {
          assert rowOf(init[i]).None?;
        }
      }
    }
  }

  /** Once a row raises, later entries change nothing. */
  lemma {:induction false} CollectedStops(first: seq<string>, rest: seq<string>, rowOf: string -> Option<Record>)
    requires Collected(first, rowOf).None?
    ensures Collected(first + rest, rowOf).None?
    decreases |rest|
  {
    if rest == [] {
      assert first + rest == first;
    } else {
      var init := rest[..|rest| - 1];
      assert (first + rest)[..|first + rest| - 1] == first + init;
      CollectedStops(first, init, rowOf);
    }
  }

  /** Once the row of an entry in the first `n` of a listing raises, the whole listing yields no rows. */
  lemma CollectedListingStops(listing: seq<string>, n: nat, rowOf: string -> Option<Record>)
    requires n <= |listing| && Collected(MarkdownEntries(listing[..n]), rowOf).None?
    ensures Collected(MarkdownEntries(listing), rowOf).None?
  {
    assert listing == listing[..n] + listing[n..];
    MarkdownEntriesAppend(listing[..n], listing[n..]);
    CollectedStops(MarkdownEntries(listing[..n]), MarkdownEntries(listing[n..]), rowOf);
  }

  // ----- enrich_dataframe

  /** A character `str.strip(".pdf")` removes. */
  predicate IsPdfChar(c: char) {
    c == '.' || c == 'p' || c == 'd' || c == 'f'
  }

  /** `str.strip(".pdf")`: drops the characters '.', 'p', 'd', 'f' from the front, then from the back. */
  function PdfStem(s: string): string
    decreases |s|
  {
    if s != [] && IsPdfChar(s[0]) then PdfStem(s[1..]) else TrimEnd(s, IsPdfChar)
  }

  /** The stem is the name with its leading and then its trailing run of those characters removed. */
  lemma {:induction false} PdfStemTrims(s: string)
    ensures PdfStem(s) == TrimEnd(TrimStart(s, IsPdfChar), IsPdfChar)
    decreases |s|
  {
    if s != [] && IsPdfChar(s[0]) {
      PdfStemTrims(s[1..]);
    }
  }

  /** `file_name.strip(".pdf") + ".md"`: strips characters from both ends, not a ".pdf" suffix. */
  function MarkdownName(fileName: string): (name: string)
    ensures EndsWith(name, ".md")
  {
    PdfStem(fileName) + ".md"
  }

  /** A stem that neither starts nor ends with one of those characters survives the stripping. */
  lemma MarkdownNameOfStem(stem: string)
    requires stem != [] && !IsPdfChar(stem[0]) && !IsPdfChar(stem[|stem| - 1])
    ensures MarkdownName(stem + ".pdf") == stem + ".md"
  {
    assert (stem + ".pdf")[0] == stem[0];
    TrimEndPdf(stem);
  }

  lemma TrimEndPdf(stem: string)
    requires stem != [] && !IsPdfChar(stem[|stem| - 1])
    ensures TrimEnd(stem + ".pdf", IsPdfChar) == stem
  {
    var suffix := ".pdf";
    assert forall i :: 0 <= i < |suffix| ==> IsPdfChar(suffix[i]);
    TrimEndSuffix(stem, suffix, IsPdfChar);
  }

  /** Replacing ".md" in a name whose only ".md" is its suffix gives the ".pdf" name. */
  lemma {:induction false} PdfNameOfStem(stem: string)
    requires forall i :: 0 <= i < |stem| ==> !OccursAt(stem + ".md", ".md", i)
    ensures PdfName(stem + ".md") == stem + ".pdf"
    decreases |stem|
  {
    var s := stem + ".md";
    if stem == [] {
      assert s[..3] == ".md" && s[3..] == [];
      assert ReplaceAll(s, ".md", ".pdf") == ".pdf" + ReplaceAll([], ".md", ".pdf");
      assert stem + ".pdf" == ".pdf";
    } else {
      assert !OccursAt(s, ".md", 0);
      assert s[..3] != ".md";
      var tail := stem[1..] + ".md";
      assert s[1..] == tail;
      forall i | 0 <= i < |stem[1..]| ensures !OccursAt(tail, ".md", i) {
        assert !OccursAt(s, ".md", i + 1);
        assert tail[i..i + 3] == s[i + 1..i + 4];
      }
      PdfNameOfStem(stem[1..]);
      assert [stem[0]] + (stem[1..] + ".pdf") == stem + ".pdf";
    }
  }

  /**
    For an ordinary stem the enrichment step looks up the Markdown file the
    row came from: renaming to ".pdf" and stripping give back the name.
  */
  lemma EnrichFindsSourceFile(stem: string)
    requires stem != [] && !IsPdfChar(stem[0]) && !IsPdfChar(stem[|stem| - 1])
    requires forall i :: 0 <= i < |stem| ==> !OccursAt(stem + ".md", ".md", i)
    ensures MarkdownName(PdfName(stem + ".md")) == stem + ".md"
  {
    PdfNameOfStem(stem);
    MarkdownNameOfStem(stem);
  }

  /** Leading characters of ".pdf" are dropped whatever follows them. */
  lemma {:induction false} PdfStemPrefix(prefix: string, s: string)
    requires forall i :: 0 <= i < |prefix| ==> IsPdfChar(prefix[i])
    ensures PdfStem(prefix + s) == PdfStem(s)
    decreases |prefix|
  {
    if prefix != [] {
      assert (prefix + s)[0] == prefix[0];
      assert (prefix + s)[1..] == prefix[1..] + s;
      PdfStemPrefix(prefix[1..], s);
    } else {
      assert prefix + s == s;
    }
  }

  /** A name that starts with those characters loses them too: "pdf_doc.pdf" is looked up as "_doc.md". */
  lemma LeadingPdfStripped(prefix: string, stem: string)
    requires forall i :: 0 <= i < |prefix| ==> IsPdfChar(prefix[i])
    requires stem != [] && !IsPdfChar(stem[0]) && !IsPdfChar(stem[|stem| - 1])
    ensures MarkdownName(prefix + stem + ".pdf") == stem + ".md"
  {
    ConcatAssoc(prefix, stem, ".pdf");
    PdfStemPrefix(prefix, stem + ".pdf");
    MarkdownNameOfStem(stem);
  }

  /** The status of a row after enrichment. */
  datatype Status = NotFound | ExtractionFailed | DecodeFailed | Extracted(doc: Record)

  /**
    The outcome for one row: the Markdown file is missing, or extracting or
    decoding failed, or the decoded fields; `None` when the file exists but
    reading it raises.
  */
  function StatusFor(ready: bool, fileName: string, directory: string, includeSummary: bool,
                     prompts: Prompts, backend: Backend, files: Files): (status: Option<Status>)
    ensures status.Some? && status.value.Extracted? ==> "error" !in status.value.doc
  {
    var path := Paths.Join(directory, MarkdownName(fileName));
    if !files.present(path) then Some(NotFound)
    else
      match files.read(path)
      case None => None
      case Some(content) =>
        var x := ExtractInfo(ready, backend.enc, backend.api, prompts.preamble, content,
                             prompts.enrichSystem(includeSummary), prompts.enrichQuestion);
        match x.info
        case InfoError(_) => Some(ExtractionFailed)
        case InfoText(text) =>
          match backend.parse(text)
          case Err(_) => Some(DecodeFailed)
          case Ok(doc) => Some(if "error" in doc then ExtractionFailed else Extracted(doc))
  }

  /**
    A row is reported missing exactly when its Markdown file is not in the
    directory, and the row raises exactly when the file is there but cannot be read.
  */
  lemma StatusNotFoundIff(ready: bool, fileName: string, directory: string, includeSummary: bool,
                          prompts: Prompts, backend: Backend, files: Files)
    ensures var path := Paths.Join(directory, MarkdownName(fileName));
      && (StatusFor(ready, fileName, directory, includeSummary, prompts, backend, files) == Some(NotFound) <==> !files.present(path))
      && (StatusFor(ready, fileName, directory, includeSummary, prompts, backend, files).None?
          <==> files.present(path) && files.read(path).None?)
  {
  }

  /**
    For a file that is there and readable, the outcome follows the reply:
    extraction fails on an error from the call or on a decoded reply with an
    "error" key, decoding fails on a reply that does not parse, and any other
    parsed reply is the decoded fields.
  */
  lemma StatusOutcomes(ready: bool, fileName: string, directory: string, includeSummary: bool,
                       prompts: Prompts, backend: Backend, files: Files)
    ensures var path := Paths.Join(directory, MarkdownName(fileName));
      var status := StatusFor(ready, fileName, directory, includeSummary, prompts, backend, files);
      files.present(path) && files.read(path).Some? ==>
        var info := ExtractInfo(ready, backend.enc, backend.api, prompts.preamble, files.read(path).value,
                                prompts.enrichSystem(includeSummary), prompts.enrichQuestion).info;
        && (status == Some(DecodeFailed) <==> info.InfoText? && backend.parse(info.text).Err?)
        && (status == Some(ExtractionFailed) <==>
              info.InfoError? || (backend.parse(info.text).Ok? && "error" in backend.parse(info.text).value))
        && (status.Some? && status.value.Extracted? <==>
              info.InfoText? && backend.parse(info.text).Ok? && "error" !in backend.parse(info.text).value)
        && (status.Some? && status.value.Extracted? ==> Ok(status.value.doc) == backend.parse(info.text))
  {
  }

  /** Without a client or key every existing, readable file ends as an extraction error. */
  lemma UnconfiguredStatus(fileName: string, directory: string, includeSummary: bool,
                           prompts: Prompts, backend: Backend, files: Files)
    requires files.present(Paths.Join(directory, MarkdownName(fileName)))
    ensures StatusFor(false, fileName, directory, includeSummary, prompts, backend, files)
            == if files.read(Paths.Join(directory, MarkdownName(fileName))).None? then None else Some(ExtractionFailed)
  {
  }

  /** The text written into the cells for a failure status. */
  function StatusText(status: Status): string {
    match status
    case NotFound => "Arquivo não encontrado"
    case ExtractionFailed => "Erro na extração"
    case DecodeFailed => "Erro na decodificação"
    case Extracted(_) => ""
  }

  /** The value written into column `key` (one of company, date, resumo) for a status. */
  function StatusCell(status: Status, key: string): Value {
    if status.Extracted? then Get(status.doc, key, Str("")) else Str(StatusText(status))
  }

  /** The cells written for a status; "resumo" only when the summary is included. */
  function ApplyStatus(row: Record, status: Status, includeSummary: bool): Record {
    var enriched := row["company" := StatusCell(status, "company")]["date" := StatusCell(status, "date")];
    if includeSummary then enriched["resumo" := StatusCell(status, "resumo")] else enriched
  }

  /** Enrichment writes company, date and, when asked, resumo; it leaves every other cell alone. */
  lemma ApplyStatusCells(row: Record, status: Status, includeSummary: bool, k: string)
    ensures k in ApplyStatus(row, status, includeSummary) <==> k in row || k == "company" || k == "date" || (includeSummary && k == "resumo")
    ensures k == "company" || k == "date" || (includeSummary && k == "resumo") ==> ApplyStatus(row, status, includeSummary)[k] == StatusCell(status, k)
    ensures k in row && k != "company" && k != "date" && (k != "resumo" || !includeSummary) ==> ApplyStatus(row, status, includeSummary)[k] == row[k]
  {
  }

  predicate HasFileName(row: Record) {
    "file_name" in row && row["file_name"].Str?
  }

  /** The row's file name; a row without a string file name makes `enrich_dataframe` raise, so it is never enriched. */
  function FileName(row: Record): string {
    if HasFileName(row) then row["file_name"].s else ""
  }

  /** A row after `enrich_dataframe` has handled it; `None` when reading its Markdown file raises. */
  function EnrichedRow(ready: bool, row: Record, directory: string, includeSummary: bool,
                       prompts: Prompts, backend: Backend, files: Files): Option<Record> {
    match StatusFor(ready, FileName(row), directory, includeSummary, prompts, backend, files)
    case None => None
    case Some(status) => Some(ApplyStatus(row, status, includeSummary))
  }

  /** The enrichment of a row, as a function of the row. */
  function EnrichedRowOf(ready: bool, directory: string, includeSummary: bool,
                         prompts: Prompts, backend: Backend, files: Files): (enrich: Record -> Option<Record>)
    ensures forall row :: enrich(row) == EnrichedRow(ready, row, directory, includeSummary, prompts, backend, files)
  {
    row => EnrichedRow(ready, row, directory, includeSummary, prompts, backend, files)
  }

  /** How many rows `enrich_dataframe` completes before the first whose enrichment raises: all of them when none does. */
  function EnrichStop(rows: seq<Record>, enrich: Record -> Option<Record>): (stop: nat)
    ensures stop <= |rows|
    ensures forall j :: 0 <= j < stop ==> enrich(rows[j]).Some?
    ensures stop < |rows| ==> enrich(rows[stop]).None?
    decreases |rows|
  {
    if rows == [] || enrich(rows[0]).None? then 0
    else
      var stop := 1 + EnrichStop(rows[1..], enrich);
      assert forall j :: 1 <= j < |rows| ==> rows[1..][j - 1] == rows[j];
      stop
  }

  /** The rows before `i` enrich and row `i` raises, or there is no row `i`: enrichment stops at `i`. */
  lemma EnrichStopAt(rows: seq<Record>, enrich: Record -> Option<Record>, i: nat)
    requires i <= |rows| && forall j :: 0 <= j < i ==> enrich(rows[j]).Some?
    requires i < |rows| ==> enrich(rows[i]).None?
    ensures EnrichStop(rows, enrich) == i
  {
  }

  /** Enrichment stops before the end exactly when the enrichment of some row raises. */
  lemma EnrichStopIff(rows: seq<Record>, enrich: Record -> Option<Record>)
    ensures EnrichStop(rows, enrich) < |rows| <==> exists i :: 0 <= i < |rows| && enrich(rows[i]).None?
  {
    var stop := EnrichStop(rows, enrich);
    if stop < |rows| {
      assert enrich(rows[stop]).None?;
    }
  }

  /** A missing Markdown file marks the row "Arquivo não encontrado" without calling the model. */
  lemma MissingFileStatus(ready: bool, row: Record, directory: string, includeSummary: bool,
                          prompts: Prompts, backend: Backend, files: Files)
    requires !files.present(Paths.Join(directory, MarkdownName(FileName(row))))
    ensures EnrichedRow(ready, row, directory, includeSummary, prompts, backend, files).Some?
    ensures EnrichedRow(ready, row, directory, includeSummary, prompts, backend, files).value["company"] == Str("Arquivo não encontrado")
    ensures EnrichedRow(ready, row, directory, includeSummary, prompts, backend, files).value["date"] == Str("Arquivo não encontrado")
  {
    var status := NotFound;
    assert StatusFor(ready, FileName(row), directory, includeSummary, prompts, backend, files) == Some(status);
    ApplyStatusCells(row, status, includeSummary, "company");
    ApplyStatusCells(row, status, includeSummary, "date");
  }

  /** A pandas frame, as its rows. */
  class Frame {
    var rows: seq<Record>

    constructor(rows: seq<Record>)
      ensures this.rows == rows
    {
      this.rows := rows;
    }
  }

  class OpenAIAnalyzer {
    /** Whether the client could be created. */
    var configured: bool

    constructor(env: Environment)
      ensures configured == env.clientOk
    {
      configured := env.clientOk;
    }

    /** `is_configured`: the client exists and the key variable is set (possibly to ""). */
    predicate IsConfigured(env: Environment)
      reads this
    {
      configured && env.apiKey.Some?
    }

    /** `count_tokens`: the connector's formula. */
    method CountTokens(enc: Encoder, messages: seq<Message>) returns (numTokens: nat)
      ensures numTokens == OpenAITokenCount(enc, messages)
    {
      numTokens := CountTokensOpenAI(enc, messages);
    }

    /** `extract_info_from_file`. */
    method ExtractInfoFromFile(preamble: string, content: string, system: string, question: string, backend: Backend)
      returns (info: Info, sent: Option<int>)
      ensures Extraction(info, sent) == ExtractInfo(IsConfigured(backend.env), backend.enc, backend.api, preamble, content, system, question)
    {
      if !IsConfigured(backend.env) {
        return InfoError(Unconfigured), None;
      }
      var maxTokens := ExtractionLimit;
      var messages := ExtractionMessages(preamble, content, system, question);
      var tokens := CountTokens(backend.enc, messages);
      if tokens > ExtractionLimit {
        return InfoError(TooLong), None;
      }
      if tokens * 2 > ExtractionLimit {
        maxTokens := tokens * 2;
      }
      sent := Some(maxTokens);
      match backend.api(messages, maxTokens)
      case Ok(text) => info := InfoText(text);
      case Err(e) => info := InfoError(ApiFailed(e));
    }

    /** `find_keywords_in_file` for the Markdown file `entry` of `directory`; `None` when reading the file raises. */
    method FindKeywordsInFile(directory: string, entry: string, keywords: seq<string>, contextChars: int,
                              prompts: Prompts, backend: Backend, files: Files) returns (result: Option<Record>)
      ensures result == KeywordSearch(IsConfigured(backend.env), directory, entry, keywords, contextChars, prompts, backend, files)
    {
      var content := files.read(Paths.Join(directory, entry));
      if content.None? {
        return None;
      }
      var info, _ := ExtractInfoFromFile(prompts.preamble, content.value, prompts.keywordSystem(contextChars),
                                         prompts.keywordQuestion(keywords, contextChars), backend);
      result := Some(FindKeywords(info, backend.parse));
    }

    /** The outcome for one row of `enrich_dataframe`; `None` when the file exists but reading it raises. */
    method DocumentStatus(fileName: string, directory: string, includeSummary: bool,
                          prompts: Prompts, backend: Backend, files: Files) returns (status: Option<Status>)
      ensures status == StatusFor(IsConfigured(backend.env), fileName, directory, includeSummary, prompts, backend, files)
    {
      var path := Paths.Join(directory, MarkdownName(fileName));
      if !files.present(path) {
        return Some(NotFound);
      }
      var content := files.read(path);
      if content.None? {
        return None;
      }
      var info, _ := ExtractInfoFromFile(prompts.preamble, content.value, prompts.enrichSystem(includeSummary), prompts.enrichQuestion, backend);
      if info.InfoError? {
        return Some(ExtractionFailed);
      }
      match backend.parse(info.text)
      case Err(_) => status := Some(DecodeFailed);
      case Ok(doc) => status := Some(if "error" in doc then ExtractionFailed else Extracted(doc));
    }

    /**
      `enrich_dataframe`: rows get the company, date and (optionally) summary
      cells of their own document, in order, in place. When reading a file
      raises, the rows before it keep their new cells, that row and the rest
      are untouched, and `raised` is set.
    */
    method EnrichDataframe(frame: Frame, directory: string, includeSummary: bool,
                           prompts: Prompts, backend: Backend, files: Files) returns (raised: bool)
      requires forall i :: 0 <= i < |frame.rows| ==> HasFileName(frame.rows[i])
      modifies frame
      ensures var enrich := EnrichedRowOf(IsConfigured(backend.env), directory, includeSummary, prompts, backend, files);
        var stop := EnrichStop(old(frame.rows), enrich);
        && |frame.rows| == |old(frame.rows)|
        && (raised <==> stop < |old(frame.rows)|)
        && (raised <==> exists i :: 0 <= i < |old(frame.rows)| && enrich(old(frame.rows)[i]).None?)
        && (forall i :: 0 <= i < stop ==> enrich(old(frame.rows)[i]) == Some(frame.rows[i]))
        && (forall i :: stop <= i < |frame.rows| ==> frame.rows[i] == old(frame.rows)[i])
    {
      ghost var enrich := EnrichedRowOf(IsConfigured(backend.env), directory, includeSummary, prompts, backend, files);
      var rows := frame.rows;
      ghost var original := rows;
      var i := 0;
      raised := false;
      while i < |rows| && !raised
        invariant i <= |rows| == |original|
        invariant forall j :: 0 <= j < i ==> enrich(original[j]) == Some(rows[j])
        invariant forall j :: i <= j < |rows| ==> rows[j] == original[j]
        invariant raised ==> i < |rows| && enrich(original[i]).None?
        decreases |rows| - i, !raised
      {
        var enriched := EnrichRow(rows[i], directory, includeSummary, prompts, backend, files);
        if enriched.None? {
          raised := true;
        } else {
          rows := rows[i := enriched.value];
          i := i + 1;
        }
      }
      EnrichStopAt(original, enrich, i);
      EnrichStopIff(original, enrich);
      frame.rows := rows;
    }

    /** The body of the loop of `enrich_dataframe`: the cells written into one row, or `None` when reading its file raises. */
    method EnrichRow(row: Record, directory: string, includeSummary: bool,
                     prompts: Prompts, backend: Backend, files: Files) returns (enriched: Option<Record>)
      requires HasFileName(row)
      ensures enriched == EnrichedRow(IsConfigured(backend.env), row, directory, includeSummary, prompts, backend, files)
    {
      var status := DocumentStatus(FileName(row), directory, includeSummary, prompts, backend, files);
      if status.None? {
        return None;
      }
      enriched := Some(ApplyStatus(row, status.value, includeSummary));
    }

    /**
      `analyze_documents`: one row per Markdown file, in listing order, each
      enriched; nothing without keywords; `None` when building or enriching a
      row raises.
    */
    method AnalyzeDocuments(directory: string, keywordsFile: ConfigManager.TextFile, includeSummary: bool, contextChars: int,
                            prompts: Prompts, backend: Backend, files: Files) returns (rows: Option<seq<Record>>)
      requires "file_name" !in ConfigManager.LoadKeywords(keywordsFile)
      ensures ConfigManager.LoadKeywords(keywordsFile) == [] ==> rows == Some([])
      ensures ConfigManager.LoadKeywords(keywordsFile) != [] ==>
        var entries := MarkdownEntries(files.list(directory));
        var ready := IsConfigured(backend.env);
        var keywords := ConfigManager.LoadKeywords(keywordsFile);
        && (rows.None? <==>
              exists i :: 0 <= i < |entries| &&
                var row := EntryRow(ready, directory, entries[i], keywords, includeSummary, contextChars, prompts, backend, files);
                row.None? || EnrichedRow(ready, row.value, directory, includeSummary, prompts, backend, files).None?)
        && (rows.Some? ==>
              && |rows.value| == |entries|
              && forall i :: 0 <= i < |entries| ==>
                var row := EntryRow(ready, directory, entries[i], keywords, includeSummary, contextChars, prompts, backend, files);
                row.Some? && EnrichedRow(ready, row.value, directory, includeSummary, prompts, backend, files) == Some(rows.value[i]))
    {
      var keywords := ConfigManager.LoadKeywords(keywordsFile);
      if keywords == [] {
        return Some([]);
      }
      ghost var ready := IsConfigured(backend.env);
      ghost var rowOf := EntryRowOf(ready, directory, keywords, includeSummary, contextChars, prompts, backend, files);
      ghost var entries := MarkdownEntries(files.list(directory));
      var collected := CollectRows(directory, keywords, includeSummary, contextChars, prompts, backend, files);
      CollectedRows(entries, rowOf);
      if collected.None? {
        return None;
      }
      var built := collected.value;
      forall i | 0 <= i < |built| ensures HasFileName(built[i]) {
        EntryRowFileName(ready, directory, entries[i], keywords, includeSummary, contextChars, prompts, backend, files);
      }
      var frame := new Frame(built);
      var raised := EnrichDataframe(frame, directory, includeSummary, prompts, backend, files);
      if raised {
        return None;
      }
      rows := Some(frame.rows);
    }

    /** One Markdown file of `analyze_documents`: the keyword search and the row built from it. */
    method AnalyzeEntry(directory: string, filename: string, keywords: seq<string>, includeSummary: bool, contextChars: int,
                        prompts: Prompts, backend: Backend, files: Files) returns (row: Option<Record>)
      ensures row == EntryRow(IsConfigured(backend.env), directory, filename, keywords, includeSummary, contextChars, prompts, backend, files)
    {
      var result := FindKeywordsInFile(directory, filename, keywords, contextChars, prompts, backend, files);
      if result.None? {
        return None;
      }
      row := BuildAnalysisRow(PdfName(filename), keywords, includeSummary, result.value);
    }

    /** One pass of the loop of `analyze_documents`: a Markdown entry adds its row or raises, any other entry adds nothing. */
    method CollectEntry(results: seq<Record>, listing: seq<string>, i: nat, directory: string, keywords: seq<string>,
                        includeSummary: bool, contextChars: int, prompts: Prompts, backend: Backend, files: Files)
      returns (collected: Option<seq<Record>>)
      requires i < |listing|
      requires Collected(MarkdownEntries(listing[..i]),
                         EntryRowOf(IsConfigured(backend.env), directory, keywords, includeSummary, contextChars, prompts, backend, files)) == Some(results)
      ensures collected == Collected(MarkdownEntries(listing[..i + 1]),
                                     EntryRowOf(IsConfigured(backend.env), directory, keywords, includeSummary, contextChars, prompts, backend, files))
    {
      var filename := listing[i];
      ghost var rowOf := EntryRowOf(IsConfigured(backend.env), directory, keywords, includeSummary, contextChars, prompts, backend, files);
      collected := Some(results);
      if EndsWith(Lower(filename), ".md") {
        var row := AnalyzeEntry(directory, filename, keywords, includeSummary, contextChars, prompts, backend, files);
        collected := if row.None? then None else Some(results + [row.value]);
      }
      CollectedEntry(listing, i, rowOf, collected, results);
    }

    /** The loop of `analyze_documents` over the directory listing: the row of each Markdown entry, in order, up to the first that raises. */
    method CollectRows(directory: string, keywords: seq<string>, includeSummary: bool, contextChars: int,
                       prompts: Prompts, backend: Backend, files: Files) returns (results: Option<seq<Record>>)
      ensures results == Collected(MarkdownEntries(files.list(directory)),
                                   EntryRowOf(IsConfigured(backend.env), directory, keywords, includeSummary, contextChars, prompts, backend, files))
    {
      ghost var rowOf := EntryRowOf(IsConfigured(backend.env), directory, keywords, includeSummary, contextChars, prompts, backend, files);
      var listing := files.list(directory);
      var rows: seq<Record> := [];
      for i := 0 to |listing|
        invariant Collected(MarkdownEntries(listing[..i]), rowOf) == Some(rows)
      {
        var collected := CollectEntry(rows, listing, i, directory, keywords, includeSummary, contextChars, prompts, backend, files);
        if collected.None? {
          CollectedListingStops(listing, i + 1, rowOf);
          return None;
        }
        rows := collected.value;
      }
      assert listing[..|listing|] == listing;
      results := Some(rows);
    }
  }
}

=== FILE: paths.dfy ===
/**
  POSIX path helpers with the semantics of Python's `posixpath`:
  `join` of two components, `basename`, `dirname` and `splitext`.
*/
module Paths {
  import opened Text

  /** Index of the last `c` in `s`, or -1 (`str.rfind`). */
  function RFind(s: string, c: char): (i: int)
    ensures -1 <= i < |s|
    ensures i >= 0 ==> s[i] == c
    ensures forall j :: i < j < |s| ==> s[j] != c
    decreases |s|
  {
    if s == [] then -1 else if s[|s| - 1] == c then |s| - 1 else RFind(s[..|s| - 1], c)
  }

  /** `os.path.join(a, b)`. */
  function Join(a: string, b: string): (p: string)
    ensures EndsWith(p, b)
  {
    if StartsWith(b, "/") then b
    else if a == "" || EndsWith(a, "/") then a + b
    else a + "/" + b
  }

  /** `os.path.basename(p)`: everything after the last slash. */
  function Basename(p: string): (name: string)
    ensures '/' !in name
    ensures EndsWith(p, name)
  {
    p[RFind(p, '/') + 1..]
  }

  /** Appending characters other than `c` leaves the last `c` where it was. */
  lemma {:induction false} RFindAppend(x: string, b: string, c: char)
    requires c !in b
    ensures RFind(x + b, c) == RFind(x, c)
    decreases |b|
  {
    if b != [] {
      assert (x + b)[..|x + b| - 1] == x + b[..|b| - 1];
      RFindAppend(x, b[..|b| - 1], c);
    } else {
      assert x + b == x;
    }
  }

  /** Joining a file name without slashes onto a directory gives a path whose basename is that name. */
  lemma BasenameOfJoin(a: string, b: string)
    requires '/' !in b
    ensures Basename(Join(a, b)) == b
  {
    if a == "" {
      assert Join(a, b) == [] + b;
      RFindAppend([], b, '/');
    } else if EndsWith(a, "/") {
      RFindAppend(a, b, '/');
    } else {
      assert Join(a, b) == (a + "/") + b;
      RFindAppend(a + "/", b, '/');
    }
  }

  /** `os.path.dirname(p)`: everything before the last slash, trailing slashes removed unless it is all slashes. */
  function Dirname(p: string): string {
    var head := p[..RFind(p, '/') + 1];
    if head != "" && exists i :: 0 <= i < |head| && head[i] != '/' then TrimEnd(head, c => c == '/') else head
  }

  /**
    `os.path.splitext(p)`: the extension starts at the last dot of the last
    path component, unless every character before that dot in the component
    is itself a dot (leading dots do not start an extension).
  */
  function SplitExt(p: string): (parts: (string, string))
    ensures parts.0 + parts.1 == p
    ensures parts.1 == [] || (parts.1[0] == '.' && '/' !in parts.1)
  {
    var sep := RFind(p, '/');
    var dot := RFind(p, '.');
    if dot > sep && exists i :: sep + 1 <= i < dot && p[i] != '.' then
      (p[..dot], p[dot..])
    else
      (p, "")
  }
}

=== FILE: text.dfy ===
/**
  Strings with the semantics of the Python `str` operations the pipeline
  relies on: `strip`, `lower`, `in`, `replace`, `join`, `startswith`,
  `endswith`, `split(c)[0]`, line iteration, and the decimal rendering and
  parsing of integers.
*/
module Text {
  import Values

  /** `str.isspace()` for one character: the whitespace set of Python 3. */
  predicate IsSpace(c: char) {
    c == ' ' || ('\t' <= c <= '\r') || ('\U{1C}' <= c <= '\U{1F}')
    || c == '\U{85}' || c == '\U{A0}' || c == '\U{1680}'
    || ('\U{2000}' <= c <= '\U{200A}') || c == '\U{2028}' || c == '\U{2029}'
    || c == '\U{202F}' || c == '\U{205F}' || c == '\U{3000}'
  }

  /** Drops the longest prefix whose characters all satisfy `drop`. */
  function TrimStart(s: string, drop: char -> bool): (r: string)
    ensures |r| <= |s| && r == s[|s| - |r|..]
    ensures r == [] || !drop(r[0])
    ensures forall i :: 0 <= i < |s| - |r| ==> drop(s[i])
    decreases |s|
  {
    if |s| > 0 && drop(s[0]) then TrimStart(s[1..], drop) else s
  }

  /** Drops the longest suffix whose characters all satisfy `drop`. */
  function TrimEnd(s: string, drop: char -> bool): (r: string)
    ensures |r| <= |s| && r == s[..|r|]
    ensures r == [] || !drop(r[|r| - 1])
    ensures forall i :: |r| <= i < |s| ==> drop(s[i])
    decreases |s|
  {
    if |s| > 0 && drop(s[|s| - 1]) then TrimEnd(s[..|s| - 1], drop) else s
  }

  /** `str.strip()` without arguments: leading whitespace, then trailing whitespace, removed. */
  function Strip(s: string): (r: string)
    ensures |r| <= |s|
    ensures r == [] || (!IsSpace(r[0]) && !IsSpace(r[|r| - 1]))
    decreases |s|
  {
    if s != [] && IsSpace(s[0]) then Strip(s[1..]) else TrimEnd(s, IsSpace)
  }

  /** Stripping is trimming the front and then the back. */
  lemma {:induction false} StripTrims(s: string)
    ensures Strip(s) == TrimEnd(TrimStart(s, IsSpace), IsSpace)
    decreases |s|
  {
    if s != [] && IsSpace(s[0]) {
      StripTrims(s[1..]);
    }
  }

  /** Stripping adds no character. */
  lemma {:induction false} StripWithout(s: string, c: char)
    requires c !in s
    ensures c !in Strip(s)
    decreases |s|
  {
    if s != [] && IsSpace(s[0]) {
      StripWithout(s[1..], c);
    } else {
      var r := TrimEnd(s, IsSpace);
      assert r == s[..|r|];
    }
  }

  /** A string is stripped when it has no leading or trailing whitespace. */
  predicate IsStripped(s: string) {
    s == [] || (!IsSpace(s[0]) && !IsSpace(s[|s| - 1]))
  }

  lemma StripStripped(s: string)
    requires IsStripped(s)
    ensures Strip(s) == s
  {
  }

  lemma ConcatAssoc<T>(x: seq<T>, y: seq<T>, z: seq<T>)
    ensures x + y + z == x + (y + z)
  {
  }

  /** Leading whitespace does not change the result of `strip`. */
  lemma {:induction false} StripSpacePrefix(a: string, t: string)
    requires forall i :: 0 <= i < |a| ==> IsSpace(a[i])
    ensures Strip(a + t) == Strip(t)
    decreases |a|
  {
    if a == [] {
      assert a + t == t;
    } else {
      assert (a + t)[1..] == a[1..] + t;
      StripSpacePrefix(a[1..], t);
    }
  }

  /** Whitespace around a stripped string is exactly what `strip` removes. */
  lemma StripPadded(a: string, s: string, b: string)
    requires forall i :: 0 <= i < |a| ==> IsSpace(a[i])
    requires forall i :: 0 <= i < |b| ==> IsSpace(b[i])
    requires IsStripped(s)
    ensures Strip(a + s + b) == s
  {
    ConcatAssoc(a, s, b);
    StripSpacePrefix(a, s + b);
    if s == [] {
      assert s + b == b + [];
      StripSpacePrefix(b, []);
    } else {
      assert (s + b)[0] == s[0];
      assert Strip(s + b) == TrimEnd(s + b, IsSpace);
      TrimEndSuffix(s, b, IsSpace);
    }
  }

  /** Trimming a tail of dropped characters off a text that does not end in one gives the text back. */
  lemma {:induction false} TrimEndSuffix(s: string, b: string, drop: char -> bool)
    requires forall i :: 0 <= i < |b| ==> drop(b[i])
    requires s != [] && !drop(s[|s| - 1])
    ensures TrimEnd(s + b, drop) == s
    decreases |b|
  {
    if b == [] {
      assert s + b == s;
    } else {
      assert (s + b)[..|s + b| - 1] == s + b[..|b| - 1];
      TrimEndSuffix(s, b[..|b| - 1], drop);
    }
  }

  /** `str.lower()` on one character, for ASCII and Latin-1 letters. */
  function LowerChar(c: char): char {
    if 'A' <= c <= 'Z' || ('\U{C0}' <= c <= '\U{DE}' && c != '\U{D7}') then
      (c as int + 32) as char
    else
      c
  }

  /** `str.lower()`. */
  function Lower(s: string): (r: string)
    ensures |r| == |s|
    ensures forall i :: 0 <= i < |s| ==> r[i] == LowerChar(s[i])
  {
    if s == [] then [] else [LowerChar(s[0])] + Lower(s[1..])
  }

  /** Python's `sub in s` for strings: a contiguous occurrence. */
  predicate Contains(s: string, sub: string) {
    exists i :: 0 <= i <= |s| - |sub| && OccursAt(s, sub, i)
  }

  predicate OccursAt(s: string, sub: string, i: int) {
    0 <= i <= |s| - |sub| && s[i..i + |sub|] == sub
  }

  predicate StartsWith(s: string, prefix: string) {
    |prefix| <= |s| && s[..|prefix|] == prefix
  }

  predicate EndsWith(s: string, suffix: string) {
    |suffix| <= |s| && s[|s| - |suffix|..] == suffix
  }

  /** `s.replace(a, b)` for single characters `a` and `b`. */
  function ReplaceChar(s: string, a: char, b: char): (r: string)
    ensures |r| == |s|
    ensures forall i :: 0 <= i < |s| ==> r[i] == (if s[i] == a then b else s[i])
  {
    if s == [] then [] else [if s[0] == a then b else s[0]] + ReplaceChar(s[1..], a, b)
  }

  /** `s.replace(pattern, replacement)`: leftmost, non-overlapping occurrences. */
  function ReplaceAll(s: string, pattern: string, replacement: string): string
    requires |pattern| > 0
    decreases |s|
  {
    if |s| < |pattern| then s
    else if s[..|pattern|] == pattern then replacement + ReplaceAll(s[|pattern|..], pattern, replacement)
    else [s[0]] + ReplaceAll(s[1..], pattern, replacement)
  }

  /** `sep.join(items)`. */
  function Join(sep: string, items: seq<string>): string {
    if |items| == 0 then ""
    else if |items| == 1 then items[0]
    else items[0] + sep + Join(sep, items[1..])
  }

  /** `s.split(c)[0]`: everything before the first `c`. */
  function BeforeFirst(s: string, c: char): (r: string)
    ensures c !in r
    ensures StartsWith(s, r)
    ensures |r| < |s| ==> s[|r|] == c
    ensures c !in s ==> r == s
  {
    if s == [] || s[0] == c then [] else [s[0]] + BeforeFirst(s[1..], c)
  }

  /** The lines that iterating over a text file yields, each keeping its newline. */
  function Lines(s: string): (lines: seq<string>)
    ensures forall i :: 0 <= i < |lines| ==> lines[i] != []
    ensures Concat(lines) == s
    decreases |s|
  {
    if s == [] then [] else
      var n := LineLength(s);
      [s[..n]] + Lines(s[n..])
  }

  /** Length of the first line of `s`, its newline included. */
  function LineLength(s: string): (n: nat)
    requires s != []
    ensures 0 < n <= |s|
    ensures forall j :: 0 <= j < n - 1 ==> s[j] != '\n'
    ensures n < |s| ==> s[n - 1] == '\n'
    decreases |s|
  {
    if s[0] == '\n' || |s| == 1 then 1 else 1 + LineLength(s[1..])
  }

  function Concat(parts: seq<string>): string {
    if parts == [] then "" else parts[0] + Concat(parts[1..])
  }

  predicate IsDigits(s: string) {
    forall i :: 0 <= i < |s| ==> '0' <= s[i] <= '9'
  }

  function DigitChar(d: nat): char
    requires d < 10
  {
    ('0' as int + d) as char
  }

  /** `str(n)` for a natural number. */
  function NatToString(n: nat): (r: string)
    ensures |r| > 0 && IsDigits(r)
    decreases n
  {
    if n < 10 then [DigitChar(n)] else NatToString(n / 10) + [DigitChar(n % 10)]
  }

  /** `int(s)` for a string of ASCII decimal digits. */
  function ParseDigits(s: string): nat
    requires IsDigits(s)
  {
    if s == [] then 0 else 10 * ParseDigits(s[..|s| - 1]) + (s[|s| - 1] as int - '0' as int)
  }

  /** Rendering a number in decimal and reading it back gives the number. */
  lemma {:induction false} ParseNatToString(n: nat)
    ensures ParseDigits(NatToString(n)) == n
    decreases n
  {
    if n >= 10 {
      ParseNatToString(n / 10);
      var s := NatToString(n);
      assert s[..|s| - 1] == NatToString(n / 10);
    }
  }

  lemma NatToStringInjective(a: nat, b: nat)
    requires a != b
    ensures NatToString(a) != NatToString(b)
  {
    ParseNatToString(a);
    ParseNatToString(b);
  }

  /** `f"{n:02d}"` for a natural number. */
  function Pad2(n: nat): (r: string)
    ensures |r| >= 2 && IsDigits(r)
    ensures n < 100 ==> |r| == 2
  {
    assert 10 <= n < 100 ==> |NatToString(n)| == |NatToString(n / 10)| + 1;
    if n < 10 then "0" + NatToString(n) else NatToString(n)
  }

  lemma Pad2Parses(n: nat)
    ensures ParseDigits(Pad2(n)) == n
  {
    ParseNatToString(n);
    if n < 10 {
      var r := Pad2(n);
      assert r[..|r| - 1] == "0";
    }
  }

  // ----- int()

  /**
    The first code point of each run of ten decimal digits (Unicode general
    category Nd, Unicode 15.0) other than the ASCII run '0' to '9', from the
    highest down. `int()` and the pattern `\d` accept the digits of every
    script.
  */
  const DigitZeros: seq<int> := [
    0x1FBF0, 0x1E950, 0x1E4F0, 0x1E2F0, 0x1E140, 0x1D7F6, 0x1D7EC, 0x1D7E2, 0x1D7D8,
    0x1D7CE, 0x16B50, 0x16AC0, 0x16A60, 0x11F50, 0x11DA0, 0x11D50, 0x11C50, 0x11950,
    0x118E0, 0x11730, 0x116C0, 0x11650, 0x114D0, 0x11450, 0x112F0, 0x111D0, 0x11136,
    0x110F0, 0x11066, 0x10D30, 0x104A0, 0xFF10, 0xABF0, 0xAA50, 0xA9F0, 0xA9D0, 0xA900,
    0xA8D0, 0xA620, 0x1C50, 0x1C40, 0x1BB0, 0x1B50, 0x1A90, 0x1A80, 0x19D0, 0x1946,
    0x1810, 0x17E0, 0x1090, 0x1040, 0xF20, 0xED0, 0xE50, 0xDE6, 0xD66, 0xCE6, 0xC66,
    0xBE6, 0xB66, 0xAE6, 0xA66, 0x9E6, 0x966, 0x7C0, 0x6F0, 0x660
  ]

  /** The value of `c` as a digit of one of the runs starting at `zeros`, or -1. */
  function DigitIn(zeros: seq<int>, c: char): (d: int)
    ensures -1 <= d < 10
  {
    if zeros == [] then -1
    else
      var z := zeros[|zeros| - 1];
      if z <= c as int < z + 10 then c as int - z
      else DigitIn(zeros[..|zeros| - 1], c)
  }

  /** The decimal value of a digit character of any script, or -1 for any other character. */
  function DigitValue(c: char): (d: int)
    ensures -1 <= d < 10
    ensures '0' <= c <= '9' ==> d == c as int - '0' as int
  {
    if c < '\U{660}' then (if '0' <= c <= '9' then c as int - '0' as int else -1)
    else DigitIn(DigitZeros, c)
  }

  /**
    A run of digits in which single underscores may separate two digits, read
    as `int()` reads the part after the sign; `None` for anything else.
  */
  function Digits(u: string): (v: Values.Option<nat>)
    ensures v.Some? ==> u != [] && DigitValue(u[0]) >= 0 && DigitValue(u[|u| - 1]) >= 0
    decreases |u|
  {
    if u == [] then Values.None
    else
      var d := DigitValue(u[|u| - 1]);
      var init := u[..|u| - 1];
      if d < 0 then Values.None
      else if init == [] then Values.Some(d)
      else
        var before := if init[|init| - 1] == '_' then init[..|init| - 1] else init;
        match Digits(before)
        case None => Values.None
        case Some(v) => Values.Some(10 * v + d)
  }

  /**
    `int(s)`: surrounding whitespace ignored, an optional sign, then digits;
    `None` where Python raises `ValueError`.
  */
  function PyInt(s: string): (r: Values.Option<int>)
    ensures Strip(s) == [] ==> r.None?
    ensures r.Some? && r.value < 0 ==> Strip(s)[0] == '-'
  {
    var t := Strip(s);
    if t != [] && (t[0] == '+' || t[0] == '-') then
      match Digits(t[1..])
      case None => Values.None
      case Some(v) =>
        var n: int := if t[0] == '-' then -(v as int) else v;
        Values.Some(n)
    else
      match Digits(t)
      case None => Values.None
      case Some(v) => Values.Some(v)
  }

  /** On ASCII digits `int()` is the decimal value. */
  lemma {:induction false} DigitsAscii(s: string)
    requires s != [] && IsDigits(s)
    ensures Digits(s) == Values.Some(ParseDigits(s))
    decreases |s|
  {
    if |s| > 1 {
      var init := s[..|s| - 1];
      DigitsAscii(init);
    }
  }

  /** A string of ASCII digits is read by `int()` as its decimal value. */
  lemma PyIntAscii(s: string)
    requires s != [] && IsDigits(s)
    ensures PyInt(s) == Values.Some(ParseDigits(s))
  {
    StripStripped(s);
    DigitsAscii(s);
  }

  /** `f"{n:02d}"`: a minus sign for negative numbers, then at least two digits in all. */
  function FormatPad2(n: int): (r: string)
    ensures |r| >= 2
    ensures n >= 0 ==> IsDigits(r) && ParseDigits(r) == n && (n < 100 ==> |r| == 2)
    ensures n < 0 ==> r[0] == '-' && IsDigits(r[1..]) && ParseDigits(r[1..]) == -n
  {
    if n < 0 then
      var r := "-" + NatToString(-n);
      ParseNatToString(-n);
      assert r[1..] == NatToString(-n);
      r
    else
      Pad2Parses(n);
      Pad2(n)
  }

  /** Formatting a day with `:02d` and reading it back with `int()` gives the day. */
  lemma PyIntFormatPad2(n: int)
    ensures PyInt(FormatPad2(n)) == Values.Some(n)
  {
    var r := FormatPad2(n);
    if n >= 0 {
      assert r != [] && IsDigits(r) && ParseDigits(r) == n;
      PyIntAscii(r);
    } else {
      PyIntNegative(r, -n);
    }
  }

  /** A minus sign before ASCII digits reads as the negated value. */
  lemma PyIntNegative(r: string, m: nat)
    requires |r| >= 2 && r[0] == '-' && IsDigits(r[1..]) && ParseDigits(r[1..]) == m
    ensures PyInt(r).Some? && PyInt(r).value == -(m as int)
  {
    assert IsStripped(r);
    StripStripped(r);
    DigitsAscii(r[1..]);
  }

  /** `int()` reads digits of other scripts: the Arabic-Indic three is 3. */
  lemma PyIntArabicIndic()
    ensures PyInt("\U{663}") == Values.Some(3)
  {
    assert DigitZeros[|DigitZeros| - 1] == 0x660;
    assert DigitValue('\U{663}') == 3;
    assert Strip("\U{663}") == "\U{663}";
  }

  /** `int()` ignores surrounding whitespace. */
  lemma PyIntSpaced()
    ensures PyInt(" 5") == Values.Some(5)
  {
    assert Strip(" 5") == "5";
  }

  /** `int()` takes a sign, and leading zeros. */
  lemma PyIntSigned()
    ensures PyInt("+5") == Values.Some(5)
    ensures PyInt("-07") == Values.Some(-7)
  {
    assert Strip("+5") == "+5";
    assert Strip("-07") == "-07";
  }

  /** `int()` skips an underscore between two digits. */
  lemma PyIntUnderscore()
    ensures PyInt("1_0") == Values.Some(10)
  {
    assert Strip("1_0") == "1_0";
  }

  /** `int()` rejects the empty text and letters. */
  lemma PyIntLetter()
    ensures PyInt("") == Values.None
    ensures PyInt("x") == Values.None
    ensures PyInt("5a") == Values.None
  {
    assert Strip("x") == "x";
    assert Strip("5a") == "5a";
  }

  /** `int()` rejects a doubled or leading underscore. */
  lemma PyIntBadUnderscore()
    ensures PyInt("1__0") == Values.None
    ensures PyInt("_1") == Values.None
  {
    assert Strip("1__0") == "1__0";
    assert Strip("_1") == "_1";
  }

  /** `int()` rejects a space between the sign and the digits. */
  lemma PyIntSpaceAfterSign()
    ensures PyInt("- 5") == Values.None
  {
    assert Strip("- 5") == "- 5";
  }
}

=== FILE: values.dfy ===
/**
  The dynamic values that travel through the pipeline: Python dictionaries
  built from decoded model replies and written out as rows.
*/
module Values {

  datatype Option<+T> = None | Some(value: T)

  datatype Result<+T, +E> = Ok(value: T) | Err(error: E)

  /**
    A JSON-like value as it appears in a result dictionary: a string, a list
    of strings, a list of any values (a decoded reply may hold numbers or
    `null` in a list), an integer (token counts), a boolean (configuration
    flags) or `None`.
  */
  datatype Value = Str(s: string) | StrList(items: seq<string>) | List(values: seq<Value>) | Int(i: int) | Bool(b: bool) | Null

  /** A Python `dict` from field names to values. */
  type Record = map<string, Value>

  /** `d.get(key, default)`. */
  function Get(d: Record, key: string, default: Value): Value {
    if key in d then d[key] else default
  }

  /** Python truthiness of a value (`if value:`). */
  predicate Truthy(v: Value) {
    match v
    case Str(s) => s != ""
    case StrList(items) => items != []
    case List(values) => values != []
    case Int(i) => i != 0
    case Bool(b) => b
    case Null => false
  }
}
